=== FILE: README.md ===
# focus-feed in Dafny

A model of the logic at the heart of focus-feed. Focus-feed turns books, files and YouTube links into summaries, quizzes and short generated videos. The project covers three layers of the system.

- **The video-timeline pipeline** of the Next.js front end (`front/lib/utils.ts` and `front/remotion/MyComp`):
  - the timeline document (intro, scenes, outro);
  - the duration estimate from a voiceover's word count;
  - `expandVideoData`, which overwrites durations, animations and scene styles;
  - the frame total;
  - the cumulative layout of the segments on the frame axis;
  - the animation patch a scene gets at a frame;
  - the element trees of the three render components.
- **Pure back-end helpers** of the Python API:
  - `format_time`;
  - YouTube id and embed address;
  - the MIME dispatch of `process_file`;
  - the `/multiformat/submit` branch rules;
  - chapter detection and chapter contents for uploaded PDFs;
  - the Q/A text a finished quiz is summarised from.
- **The decision tables and state machines of the UI handlers**, each as a pure `(state, event) -> (state, request)` step:
  - the book-to-video page;
  - two quizzes;
  - three upload forms;
  - two feed pages;
  - the sign-in page.

Network calls, storage, the router and foreign libraries are outside the model. The request a handler would send is returned as a value. A response arrives as an event carrying its outcome. Extractors, transcript fetchers and summarisers are function parameters.

The frame rate, defined in a constants file that is not part of this model, is a parameter throughout. Durations are whole seconds: `Option<int>`, with `None` when the payload omits the field. JavaScript truthiness of a duration is "present and non-zero". Interpolated animation values are `real`.

Three behaviours of the code are easy to misread:
- The word count is the number of pieces after splitting on one space, so an empty voiceover counts as one word and lasts one second.
- Frame lengths are plain `seconds * fps` products with no rounding.
- Expansion overwrites the duration, animation and style fields rather than filling in missing ones.

The video page computes the player length from the raw response but renders the expanded document. `VideoPage.PlayerLengthMismatch` exhibits a response for which the two differ. `VideoPage.CorrectedPlayerFrames` shows that the page's own total, taken over the expanded document, is the rendered length.

Modules, one per file: `Wrappers`, `Text`, `VideoTypes`, `Duration`, `Frames`, `Expand`, `Layout`, `Animations`, `Render`, `Fixture`, `VideoPage`, `TimeFormat`, `YouTube`, `FileDispatch`, `SubmitApi`, `Chapters`, `QuizText`, `QuizNav`, `Uploads`, `MultiModalForm`, `FormComponent`, `UploadDialog`, `Feed`, `Auth`.

## Model

| member | source | states |
|---|---|---|
| VideoTypes.ParseKind | front/remotion/MyComp/types.ts:1-5 | an animation tag is accepted exactly when it is one of the five declared tags, and it reads back as the kind whose tag it is |
| VideoTypes.KindTagRoundTrip | front/remotion/MyComp/types.ts:2 | the five tags are distinct: every kind's tag parses back to that kind |
| VideoTypes.ParseDirection | front/remotion/MyComp/types.ts:3 | a slide direction is only `left` or `right`; any other text is rejected |
| VideoTypes.ParseAlign | front/remotion/MyComp/types.ts:10 | `textAlign` is only left, center or right; any other text is rejected |
| Text.Split | front/lib/utils.ts:38 | `split` on one character gives at least one piece, and no piece contains the separator |
| Text.SplitCount | front/lib/utils.ts:38 | splitting gives one more piece than there are separators |
| Text.JoinSplit | back/src/multiformatsupport/services.py:178-180 | joining the pieces of a split with the separator gives back the text |
| Text.SplitJoin | back/src/multiformatsupport/services.py:178-180 | splitting a join of separator-free pieces gives back the pieces |
| Text.JoinKeepsParts | front/src/app/auth/page.tsx:43 | every part of a join occurs in the joined text at its offset |
| Text.IndexOf | back/src/multiformatsupport/services.py:120 | the first occurrence of a pattern: it occurs there, nowhere earlier, and `None` means it occurs nowhere |
| Text.StripEmptyIffBlank | back/src/multiformatsupport/services.py:116 | a stripped text is empty exactly when every character is whitespace |
| Text.TrimStartSpec | back/src/pdf/api.py:37 | trimming the front drops exactly the leading whitespace and leaves a text that starts with a non-space |
| Text.TrimEndSpec | back/src/pdf/api.py:41 | trimming the end drops exactly the trailing whitespace and leaves a text that ends with a non-space |
| Text.Lower | back/src/pdf/api.py:16 | lower-casing keeps the length and maps each character on its own |
| Text.ParseDecimalOfDecimal | back/src/multiformatsupport/services.py:178 | a decimal numeral reads back as the number it was written from |
| Duration.WordCount | front/lib/utils.ts:38 | the word count is one more than the number of spaces, so the empty text counts one word |
| Duration.CeilSeconds | front/lib/utils.ts:39-41 | the least whole number of seconds whose words-per-minute capacity covers the words |
| Duration.DurationInSeconds | front/lib/utils.ts:34-41 | at a positive rate the estimate is at least one second and is the ceiling of `words * 60 / wpm` |
| Duration.DurationMonotone | front/lib/utils.ts:38-41 | more words never give a shorter estimate at one rate |
| Duration.DefaultRate | front/lib/utils.ts:36-41 | at the default 150 words per minute the estimate is `ceil(2 * words / 5)` |
| Duration.FiveWords | front/lib/utils.ts:34-41 | five words take two seconds at the default rate |
| Duration.EmptyVoiceover | front/lib/utils.ts:38 | an empty voiceover counts one word and lasts one second |
| Duration.DoubleSpace | front/lib/utils.ts:38 | a doubled space adds an empty word |
| Frames.SecondsOfPresent | front/lib/utils.ts:20-21 | a present duration contributes its own value, zero included |
| Frames.SumFramesScale | front/lib/utils.ts:18-24 | adding each scene's `duration * fps` equals `fps` times the summed durations |
| Frames.SumSecondsAppend | front/lib/utils.ts:18-24 | appending a scene adds exactly its truthy duration to the scene sum |
| Frames.SumSecondsRemove | front/lib/utils.ts:18-24 | taking one scene out removes exactly its truthy duration |
| Frames.SumSecondsPermutation | front/lib/utils.ts:18-24 | scene order does not affect the total: any permutation of the scenes has the same sum |
| Frames.TotalVideoLengthInFrames | front/lib/utils.ts:9-32 | the running total equals `fps * (intro + sum of scenes + outro)` over truthy durations, with missing or zero durations adding nothing |
| Frames.AppendSceneRaisesTotal | front/lib/utils.ts:18-24 | appending a scene with truthy duration `d` raises the total by exactly `d * fps` |
| Expand.ExpandSegment | front/lib/utils.ts:45-51 | the intro or outro gets the estimated duration and the default 1-second zoom-out; content, voiceover and style are kept |
| Expand.ExpandScene | front/lib/utils.ts:52-77 | a scene expands exactly when it has a voiceover; its duration, animation and style are overwritten and title, description, image and voiceover kept |
| Expand.ExpandScenes | front/lib/utils.ts:52-77 | the scenes expand in order and count, or the expansion fails at the first scene without a voiceover |
| Expand.ExpandVideoData | front/lib/utils.ts:44-86 | expansion succeeds exactly when every scene has a voiceover; it then changes only the overwritten fields, and title, colours, font and scene order are kept |
| Expand.ExpandResolves | front/lib/utils.ts:45-84 | after expansion every segment carries a duration of at least one second |
| Expand.ExpandIdempotent | front/lib/utils.ts:45-84 | expanding an expanded document changes nothing |
| Expand.ExpandDiscardsPriorValues | front/lib/utils.ts:45-84 | two documents that differ only in the overwritten fields expand to the same document |
| Expand.ScenesDiscardPriorValues | front/lib/utils.ts:52-77 | the same for the scene list: prior durations, animations and styles do not reach the result |
| Layout.SumFramesAppend | front/remotion/MyComp/RenderVideo.tsx:19-24 | the frames of a scene prefix grow by exactly the next scene's `duration * fps` |
| Layout.ComputeTimes | front/remotion/MyComp/RenderVideo.tsx:15-27 | the running cursor places the intro at 0, scene `i` after the intro and all earlier scenes, and the outro after the last scene |
| Layout.LayoutContiguous | front/remotion/MyComp/RenderVideo.tsx:19-27 | the first scene starts where the intro ends, each scene where the previous one ends, and the outro where the last scene ends, or at the intro's end when there are no scenes |
| Layout.LayoutEndIsTotal | front/remotion/MyComp/RenderVideo.tsx:15-27 | the outro ends at `fps * (intro + scenes + outro)`, which is the utility's frame total |
| Layout.FrameInExactlyOneSegment | front/remotion/MyComp/RenderVideo.tsx:15-27 | with positive durations and frame rate, every frame before the end lies in exactly one segment |
| Layout.CoveringOfContiguous | front/remotion/MyComp/RenderVideo.tsx:19-27 | contiguous segments of positive length partition the frames before the outro's end |
| Layout.StartsIncrease | front/remotion/MyComp/RenderVideo.tsx:19-24 | in a contiguous layout later scenes start no earlier than earlier ones end, and all lie between the intro and the outro |
| Animations.Interpolate | front/remotion/MyComp/RenderScene.tsx:22 | linear interpolation over `[0, span]`: the endpoints are hit, the value moves in proportion to the frame, and it stays between the endpoints |
| Animations.ApplyAnimation | front/remotion/MyComp/RenderScene.tsx:11-43 | no animation and zoom-out give the empty patch; fades give an opacity in [0, 1], zoom-in a scale in [1, 1.5], slide-in a translation in [-100, 100] percent; inside the span each value moves linearly with the frame: fade-in opacity is frame/span, fade-out opacity 1 - frame/span, zoom-in scale 1.5 - 0.5 * frame/span, and slide-in runs from 100% (negated for `left`) to 0 in proportion to the frame |
| Animations.ApplyAnimationIgnoresDuration | front/remotion/MyComp/RenderScene.tsx:14 | the `durationInFrames` argument has no effect on the patch |
| Animations.FadeInEndpoints | front/remotion/MyComp/RenderScene.tsx:20-23 | fade-in runs opacity from 0 at the first frame to 1 at the end of the span |
| Animations.FadeOutMirrorsFadeIn | front/remotion/MyComp/RenderScene.tsx:36-39 | fade-out is one minus fade-in of the same length at every frame of the span |
| Animations.ZoomInEndpoints | front/remotion/MyComp/RenderScene.tsx:32-35 | zoom-in starts at scale 1.5 and ends at 1 |
| Animations.SlideInDirection | front/remotion/MyComp/RenderScene.tsx:24-31 | slide-in starts at 100 percent, negated only for direction `left`, ends at 0, and no direction behaves as `right` |
| Animations.FadeInHalfWay | front/remotion/MyComp/RenderScene.tsx:20-23 | half way through a one-second fade-in the opacity is 1/2 |
| Animations.SpanIgnoresFrameRate | front/remotion/MyComp/RenderScene.tsx:22 | the span is 30 frames per second of animation whatever the video's frame rate |
| Render.RenderText | front/remotion/MyComp/RenderText.tsx:7-14 | the heading is emitted only when truthy and comes first, the subheading only when truthy and comes last, each with its own style entry |
| Render.RenderTextPresence | front/remotion/MyComp/RenderText.tsx:9-12 | a heading element exists exactly when the heading is truthy, and a subheading element exactly when the subheading is truthy |
| Render.SceneChildren | front/remotion/MyComp/RenderScene.tsx:79-89 | title, description and image appear only when truthy, in that order, each with its own style entry |
| Render.RenderScene | front/remotion/MyComp/RenderScene.tsx:49-93 | the scene's sequence starts at its start frame and lasts `duration * fps`; the patch is taken at frames since the scene began, for frames within the animation's span; the wrapper holds the children |
| Render.DefaultAnimationIsStill | front/remotion/MyComp/RenderScene.tsx:16 | a scene without an animation or with zoom-out renders with the empty patch |
| Render.RenderVideo | front/remotion/MyComp/RenderVideo.tsx:11-90 | the intro plays from frame 0, each scene at its laid-out start with the shared strings, the outro after the last scene, and intro and outro show their text |
| Render.ScenesShareStyle | front/remotion/MyComp/RenderVideo.tsx:54-65 | every scene receives the same background colour, text colour and font, taken from the document |
| Render.BoundaryAnimationsIgnored | front/remotion/MyComp/RenderVideo.tsx:46-49 | changing the intro or outro animation does not change the rendered video |
| Render.RenderedSegmentsAbut | front/remotion/MyComp/RenderVideo.tsx:32-70 | rendered scenes and the outro begin where the previous segment's sequence ends |
| Render.SceneAt | front/remotion/MyComp/RenderVideo.tsx:54-65 | scene `i` as the video places it spans its interval of the layout |
| Fixture.SampleLayout | front/remotion/MyComp/videoData.ts:9-200 | at frame rate `f` the sample's scenes start at 5f, 15f, 23f, 31f and 39f, the outro at 47f, and the video ends at 52f, which is its frame total |
| Fixture.SamplePrefix | front/remotion/MyComp/videoData.ts:41-171 | the summed seconds of the first `k` sample scenes are 0, 10, 18, 26, 34, 42 |
| VideoPage.AddScenesSum | front/app/video/page.tsx:91-95 | the page's accumulating loop adds `fps` times the truthy scene durations |
| VideoPage.LocalTotalVideoLengthInFrames | front/app/video/page.tsx:87-99 | the page's own total agrees with the utility's: `fps` times the truthy durations of intro, scenes and outro |
| VideoPage.Step | front/app/video/page.tsx:30-85 | a chosen file sets the uploading flag and sends the extraction request; an OK upload stores the extracted chapters; a clicked chapter is selected, sets the generating flag and sends its content; an OK generation stores the response and fps times its raw truthy seconds; an upload result keeps the video, a generation result keeps the chapters, and both clear their busy flag; no file, an OK upload, an OK generation and Select Another each change only the fields they set, so the selection and the other busy flag are kept |
| VideoPage.InitialInv | front/app/video/page.tsx:22-28 | the page starts on the upload card with no player |
| VideoPage.StepPreservesInv | front/app/video/page.tsx:30-85 | every reachable page uploads only without chapters, has a video only with chapters, and stores the frame total of the video shown |
| VideoPage.ExactlyOneMainView | front/app/video/page.tsx:114-170 | exactly one of the upload card, the chapter list and the player is shown |
| VideoPage.FailedResponsesChangeNothing | front/app/video/page.tsx:49-84 | a non-OK response leaves chapters, selection, video and frame total unchanged |
| VideoPage.SelectAnotherReturnsToList | front/app/video/page.tsx:282-285 | "Select Another Chapter" clears the video and the selection but keeps the chapter list, which is shown again |
| VideoPage.DisplayedSeconds | front/app/video/page.tsx:265 | the displayed total times the frame rate is the stored frame total |
| VideoPage.DisplayedSecondsIsRawSum | front/app/video/page.tsx:76-78 | the displayed total is the raw sum of the response's truthy durations, whatever the frame rate |
| VideoPage.RenderedFrames | front/app/video/page.tsx:177-183 | the composition the player renders exists exactly when the response expands, and its outro ends at fps times the seconds of the expanded intro, scenes and outro |
| VideoPage.PlayerLengthMismatch | front/app/video/page.tsx:76-183 | for a response with five-second intro and outro, the player runs 300 frames while the rendered video ends after 60 |
| VideoPage.CorrectedPlayerFrames | front/app/video/page.tsx:87-99 | the page's total taken over the expanded document is exactly the rendered length |
| TimeFormat.Trunc | back/src/multiformatsupport/services.py:175 | `int()` truncates toward zero from either side |
| TimeFormat.Fields | back/src/multiformatsupport/services.py:175-176 | minutes and seconds lie in [0, 59], the fields recompose the seconds, and the hours are positive exactly from 3600 on |
| TimeFormat.Pad2 | back/src/multiformatsupport/services.py:178-180 | a field has at least two digits, exactly two below 100, more when needed, and reads back as its value |
| TimeFormat.FormatTime | back/src/multiformatsupport/services.py:174-180 | the output is five characters exactly below one hour, longer from one hour on, and the seconds come after the last colon |
| TimeFormat.FormatTimeShape | back/src/multiformatsupport/services.py:177-180 | the output has three colon-separated fields from one hour on and two below, each of at least two digits |
| TimeFormat.FormatTimeRoundTrip | back/src/multiformatsupport/services.py:174-180 | parsing the output gives back the truncated seconds when they are not negative; a negative input comes back modulo one hour |
| TimeFormat.FormatSplits | back/src/multiformatsupport/services.py:178-180 | splitting the output at its colons gives the padded fields |
| TimeFormat.OneHourExample | back/src/multiformatsupport/services.py:174-180 | 3661.9 seconds give "01:01:01", 59 give "00:59" and -1 gives "59:59" |
| YouTube.Before | back/src/multiformatsupport/services.py:120 | `split(pat)[0]`: the prefix before the first occurrence, the whole text when there is none |
| YouTube.VideoId | back/src/multiformatsupport/services.py:120 | there is an id exactly when the URL contains "v="; the id starts right after the FIRST "v=", holds no "&" and no "v=", and is followed by the end of the URL, an "&" or another "v=", which fixes it uniquely |
| YouTube.EmbedUrl | back/src/multiformatsupport/services.py:268 | the embed address exists exactly when the id does and is the embed prefix followed by that id |
| YouTube.WatchUrlRoundTrip | back/src/multiformatsupport/services.py:120-268 | a watch URL built from an id and an optional "&" tail gives back that id and its embed address |
| YouTube.ExampleWatchLink | back/src/multiformatsupport/services.py:120 | `https://www.youtube.com/watch?v=abc&t=10` gives the id "abc" |
| YouTube.ExampleShortLink | back/src/multiformatsupport/services.py:120 | a short `youtu.be` link has no id, where Python raises IndexError |
| FileDispatch.Dispatch | back/src/multiformatsupport/services.py:41-55 | the MIME type routes in priority order pdf, audio/*, video/*, text/*, image/*; anything else, unknown types included, fails with "Unsupported file type" and the type |
| FileDispatch.PrefixesDisjoint | back/src/multiformatsupport/services.py:44-52 | the five families never overlap, so the priority order never decides |
| FileDispatch.AudioListRedundant | back/src/multiformatsupport/services.py:46 | the explicit audio/mpeg and audio/mp3 entries are already audio/* |
| FileDispatch.ProcessFile | back/src/multiformatsupport/services.py:41-55 | each route calls its extractor; a video goes to the audio extractor with "audio/mp4"; an image goes through the OCR fallback |
| FileDispatch.ProcessImage | back/src/multiformatsupport/services.py:113-116 | the OCR text is kept when it is not blank, else a fixed message; the result is never blank |
| SubmitApi.SummarizeFiles | back/src/multiformatsupport/api.py:20-29 | one result per file, in upload order, with that file's name, or the first extraction error |
| SubmitApi.Submit | back/src/multiformatsupport/api.py:12-45 | files win; without files a URL lacking "youtube.com/watch" is a 400, a transcript failure a 500 with the "Failed to fetch transcript:" prefix, a summariser result is returned with the URL echoed; with neither it is a 400 |
| SubmitApi.FilesTakePrecedence | back/src/multiformatsupport/api.py:18-29 | with files present the URL does not affect the answer |
| SubmitApi.FileNamesInOrder | back/src/multiformatsupport/api.py:21-28 | the answer lists the uploaded file names in upload order |
| Chapters.MatchNumbered | back/src/pdf/api.py:20 | the scan accepts exactly a text that starts with digits, then any colons or dots, then whitespace |
| Chapters.MatchRoman | back/src/pdf/api.py:20 | the scan accepts exactly a text that starts with uppercase Roman letters, then whitespace |
| Chapters.IsPotentialChapterHeading | back/src/pdf/api.py:8-23 | nothing on pages 1 and 2 and nothing under 16 points is a heading |
| Chapters.HeadingCriteria | back/src/pdf/api.py:16-23 | past the guards, a text is a heading exactly when it contains a keyword case-insensitively or has a numbered or Roman prefix |
| Chapters.KeywordScanFinds | back/src/pdf/api.py:16 | the keyword scan succeeds exactly when one of the remaining keywords occurs in the lowered text |
| Chapters.DepartmentQualifies | back/src/pdf/api.py:16 | "Department" on page 3 at 16 points is a heading, via "part" |
| Chapters.GuardsWin | back/src/pdf/api.py:10-14 | the page and size guards reject whatever the text |
| Chapters.NumberedExample | back/src/pdf/api.py:20 | "1. A" and "IV A" qualify, "1." without whitespace does not |
| Chapters.SelectMembers | back/src/pdf/api.py:53-66 | a header is selected from a page exactly when some accepted span of that page produced it |
| Chapters.PageHeaders | back/src/pdf/api.py:53-66 | a page's headers carry its page number, and only pages from 3 on have any |
| Chapters.PageHeadersMembers | back/src/pdf/api.py:53-66 | a header is among a page's headers exactly when a qualifying span of that page produced it |
| Chapters.IdentifyChapterHeaders | back/src/pdf/api.py:49-66 | detected headers are in document order: pages are non-decreasing, from 3 to the last page |
| Chapters.HeadersByPage | back/src/pdf/api.py:49-66 | a header is detected exactly when it is among the headers of some page |
| Chapters.HeadersSoundAndComplete | back/src/pdf/api.py:49-66 | a header is detected exactly when some span of some page qualifies on that page and produced it |
| Chapters.PageRanges | back/src/pdf/api.py:26-31 | each chapter's page range is non-empty and inside the document; adjacent chapters share their boundary page; the last runs to the final page |
| Chapters.SpansIn | back/src/pdf/api.py:31-36 | the spans read for a chapter are exactly those of the pages in its range |
| Chapters.Texts | back/src/pdf/api.py:37 | each span's text is stripped |
| Chapters.Kept | back/src/pdf/api.py:38 | exactly the texts different from the chapter's own header are kept |
| Chapters.AccumulateIsJoin | back/src/pdf/api.py:30-41 | appending each kept text and a space, then stripping, is the stripped space-join of the kept texts |
| Chapters.ChapterContent | back/src/pdf/api.py:30-41 | a chapter's content is the stripped texts of its pages, without its own header, joined by single spaces and stripped |
| Chapters.ExtractChapterContents | back/src/pdf/api.py:25-43 | chapter count and order are kept; each chapter keeps page, header and size and gains its content |
| Chapters.IdentifyChapters | back/src/pdf/api.py:45-71 | one chapter per detected header, pages non-decreasing between 3 and the page count |
| Chapters.StripTrailingSpace | back/src/pdf/api.py:39-41 | a trailing space added before the final strip makes no difference |
| QuizText.Blocks | back/src/quiz/api.py:19-22 | one block per zipped pair, `Q: question` then `A: answer`, in input order |
| QuizText.CombinedText | back/src/quiz/api.py:19-22 | the combined text is empty exactly when either list is empty |
| QuizText.BlocksAreLines | back/src/quiz/api.py:19-22 | joining the blocks with newlines is joining their question and answer lines with newlines |
| QuizText.LinesHaveMarkers | back/src/quiz/api.py:20 | reading the lines back in pairs gives the zipped prefixes of both lists |
| QuizText.CombinedRoundTrip | back/src/quiz/api.py:19-22 | when no question or answer holds a newline, the combined text reads back as the zipped lists |
| QuizText.ExtrasDropped | back/src/quiz/api.py:21 | extra questions or extra answers are dropped |
| QuizText.QuizExample | back/src/quiz/api.py:19-22 | one pair gives "Q: Why?\nA: Because", and a second question without an answer adds nothing |
| QuizNav.Answer | front/components/quiz.tsx:121-123 | a question's answer is the option its response picks, when it has one |
| QuizNav.SubmitRequest | front/components/quiz.tsx:120-137 | the request carries every prompt and the chosen option texts in question order, with the token |
| QuizNav.SelectAnswer | front/components/quiz.tsx:86-91 | selecting sets or overwrites only that question's entry and changes nothing else |
| QuizNav.PreviousQuestion | front/components/quiz.tsx:103-105 | Previous steps back one question, never below 0 |
| QuizNav.Step | front/components/quiz.tsx:93-153 | Next needs an answer, advances below the last question and submits on it; without a token it sets the error and sends nothing; only status 200 completes; a failure shows the server detail or a fixed message; a response keeps the index and the answers; Select sets one answer and Previous moves back, each sending nothing |
| QuizNav.LocalStep | front/src/components/quiz.tsx:77-89 | Next needs an answer, advances below the last question and completes on it, sending nothing |
| QuizNav.StartInv | front/components/quiz.tsx:69-75 | the quiz starts at question 0 inside the bounds |
| QuizNav.StepPreservesInv | front/components/quiz.tsx:86-105 | the index stays in [0, n-1] and every question before it is answered |
| QuizNav.LocalStepPreservesInv | front/src/components/quiz.tsx:70-89 | the same for the second quiz, which never submits |
| QuizNav.RequestsCarryAllAnswers | front/components/quiz.tsx:94-123 | a request is only sent once every question is answered, so every answer in it is present |
| QuizNav.NoTokenNoRequest | front/components/quiz.tsx:110-118 | without a token nothing is sent and the token error is shown |
| QuizNav.CompleteOnlyOn200 | front/components/quiz.tsx:139-143 | the quiz becomes complete exactly on a status-200 response |
| QuizNav.ProgressBounds | front/components/quiz.tsx:207 | progress lies in (0, 100] and is 100 exactly on the last question |
| QuizNav.AnsweredIndicesSpec | front/src/components/quiz.tsx:188 | the answered indices are exactly the answered questions, in increasing order |
| QuizNav.Summary | front/src/components/quiz.tsx:188-199 | the summary has one line per answered question, its prompt and its chosen option |
| QuizNav.SummaryListsAnswered | front/src/components/quiz.tsx:188-199 | the summary lists exactly the answered questions, in order |
| QuizNav.LocalCompleteListsAll | front/src/components/quiz.tsx:81-82 | once the second quiz completes, its summary lists every question |
| QuizNav.ButtonsMatchEnabled | front/components/quiz.tsx:215-228 | Previous is enabled exactly away from question 0 and Next exactly when the current question is answered, both only while no submission is pending; the second quiz's buttons (`front/src/components/quiz.tsx:150-168`) are the same with no submission ever pending |
| Uploads.AddFiles | front/components/multi-modal-form.tsx:83-94 | added files come after the existing ones, in order |
| Uploads.WithoutDropsOne | front/components/multi-modal-form.tsx:140-145 | the filter drops exactly the element at the given index and keeps the order of the rest |
| Uploads.RemoveAtSpec | front/src/components/multi-modal-form.tsx:110-112 | removing index `k` drops exactly that file; an index outside the list changes nothing |
| Uploads.RemoveKeepsPairing | front/components/multi-modal-form.tsx:140-145 | removing the same index from files and previews keeps each preview next to its file |
| Uploads.Delivered | front/components/multi-modal-form.tsx:127-131 | the callback receives the data exactly on status 200 |
| MultiModalForm.CreateFilePreview | front/components/multi-modal-form.tsx:51-69 | image/*, pdf, exactly audio/mpeg, video/*, then xlsx or ".csv", else a plain file; only the first four carry a source |
| MultiModalForm.TypesDisjoint | front/components/multi-modal-form.tsx:52-58 | the prefixes and exact types never overlap |
| MultiModalForm.AddAndPreview | front/components/multi-modal-form.tsx:83-94 | new files are appended and every file gets its own preview |
| MultiModalForm.RemoveFile | front/components/multi-modal-form.tsx:140-145 | index `k` leaves both lists and previews still match their files |
| MultiModalForm.SubmitRequest | front/components/multi-modal-form.tsx:103-119 | the file tab with files posts them all under "files" to /multiformat/submit; the URL tab with a URL posts it with contentType "url" to /multiformat/upload; else nothing |
| MultiModalForm.RequestNeedsEnabledButton | front/components/multi-modal-form.tsx:186 | a request is only built behind an enabled button |
| MultiModalForm.EnabledButNothingSent | front/components/multi-modal-form.tsx:186 | the button can be enabled while the open tab has nothing to send |
| FormComponent.ContentType | front/src/components/multi-modal-form.tsx:56-64 | "multiformat" for both, "file" for files only, "url" for a URL only, "text" for neither |
| FormComponent.FileKeysDistinct | front/src/components/multi-modal-form.tsx:79-83 | different positions get different `files[i]` keys |
| FormComponent.SubmitRequest | front/src/components/multi-modal-form.tsx:52-94 | a request goes out exactly with files or a URL, always to /multiformat/upload: the URL field (empty when none), the content type, then every file under its own key in order |
| FormComponent.SentTypeIsNeverText | front/src/components/multi-modal-form.tsx:56-64 | a request that is sent never carries "text" |
| FormComponent.RemoveFile | front/src/components/multi-modal-form.tsx:110-112 | `removeFile(k)` drops exactly index `k` |
| UploadDialog.PreviewOf | front/src/components/file-upload-dialog.tsx:54-68 | image/* reads as a data URL; pdf, audio/mpeg and audio/mp3 get an object URL; anything else no preview |
| UploadDialog.SubmitFields | front/src/components/file-upload-dialog.tsx:79-85 | with files, each goes under "files"; otherwise a non-empty URL goes under "youtube_url" |
| UploadDialog.RoundedPercent | front/src/components/file-upload-dialog.tsx:98-100 | progress is `loaded * 100 / total` rounded half up, and in [0, 100] when nothing is over-reported |
| UploadDialog.Step | front/src/components/file-upload-dialog.tsx:36-129 | Submit is a no-op with no files and a blank URL; a batch previews its first file; removing index 0 clears the preview; progress needs a total; 200 shows the summary at 100 and hides the form; failures reset progress; a batch appends its files, a URL edit sets only the URL, and a removal drops exactly the indexed file and nothing else |
| UploadDialog.ButtonMatchesGuard | front/src/components/file-upload-dialog.tsx:71-241 | with nothing pending, a request goes out exactly when the button is enabled |
| UploadDialog.FilesTakePrecedence | front/src/components/file-upload-dialog.tsx:79-85 | with files the URL is never sent; without them the URL is sent untrimmed |
| UploadDialog.RoundingExamples | front/src/components/file-upload-dialog.tsx:99 | 1 of 3 shows 33, 3 of 200 shows 2, and 7 of 7 shows 100 |
| UploadDialog.ResetRestoresInitial | front/src/components/file-upload-dialog.tsx:265-272 | reset brings back the visible form, no files, no preview, no summaries, progress 0 and an empty URL |
| UploadDialog.InitialDisabled | front/src/components/file-upload-dialog.tsx:241 | the starting dialog shows the form with Submit disabled |
| Feed.Route | front/app/feed/page.tsx:20-28 | a summary with a truthy `urlEmbed` fills the video slot, any other the list slot, and the other slot is cleared |
| Feed.Step | front/app/feed/page.tsx:20-37 | a summary routes; Go Back clears both slots; the redirect asks for /video and changes nothing |
| Feed.LocalStep | front/src/app/feed/page.tsx:15-23 | every summary leaves a slot filled |
| Feed.StepPreservesInv | front/app/feed/page.tsx:20-33 | the two slots are never both filled |
| Feed.ViewOf | front/app/feed/page.tsx:52 | the form shows exactly when both slots are empty; otherwise the filled slot's view |
| Feed.GoBackIffNoForm | front/app/feed/page.tsx:42-52 | Go Back shows exactly when the form does not, and after Go Back the form shows |
| Feed.ViewFollowsSummary | front/app/feed/page.tsx:20-28 | the view after a summary depends only on that summary |
| Feed.LocalNeverReturnsToForm | front/src/app/feed/page.tsx:9-28 | once a summary has arrived, the form never shows again |
| Auth.BuildRequest | front/src/app/auth/page.tsx:23-38 | login posts to /auth/token with a url-encoded body, registration to /auth/register with JSON, and the content type matches the body |
| Auth.CredentialsRoundTrip | front/src/app/auth/page.tsx:23-29 | a reader of the request recovers the mode, the e-mail (as `username` or `email`) and the password |
| Auth.MsgTexts | front/src/app/auth/page.tsx:43 | one text per validation error, its `msg` when present |
| Auth.ErrorMessageShows | front/src/app/auth/page.tsx:42-48 | every validation message appears in the error line and a single one alone; a string detail shows as is; anything else gives the generic message |
| Auth.Step | front/src/app/auth/page.tsx:20-64 | Submit sends once when enabled and sets loading; success stores the token, routes by the submitted mode and clears the error; a failure shows the detail; a throw the generic message; typing changes only its field and switching only the mode, with no effect; a settled request clears the submission and touches only the error and the stored token |
| Auth.LoadingIsFinal | front/src/app/auth/page.tsx:139 | loading is never reset, so nothing more is sent once a request has gone out |
| Auth.AtMostOneRequest | front/src/app/auth/page.tsx:22-139 | a page sends at most one request in its lifetime |
| Auth.SuccessRoutesByMode | front/src/app/auth/page.tsx:50-59 | success goes to /feed after login and to /onboarding after registration, even if the mode changed meanwhile, and the error is cleared |
| Auth.EmptyDetailShowsNothing | front/src/app/auth/page.tsx:42-44 | an empty validation list sets an empty error, which is not shown |
| Auth.SwitchKeepsError | front/src/app/auth/page.tsx:158-165 | switching between login and registration keeps the old error |

## Left out

- I/O and foreign libraries are outside the model:
  - HTTP requests and responses;
  - `localStorage`, the Next router, `FileReader` and `URL.createObjectURL`;
  - OpenAI calls and LangChain memory;
  - ffmpeg and speech recognition, tesseract OCR, PyPDF2 and fitz parsing;
  - the YouTube transcript and pytube calls;
  - SQLAlchemy, Redis, Celery and the FastAPI wiring.
  Where their results matter they are function parameters or events.
- React rendering, CSS values, framer-motion and Tailwind classes: styles are opaque records passed through.
- Remotion's `Sequence` and `useCurrentFrame`, and what `interpolate` returns outside `[0, span]`: the library is not part of this model. `front/remotion/MyComp/RenderScene.tsx:22-38` passes no extrapolation options, so Remotion extends the line past the span; that behaviour is not modelled.
- Render.RenderScene: its requirement that the local frame lie in `[0, span]` of the scene's animation (`Evaluable`) excludes the frames of a scene longer than its animation, which the source renders with extended values.
- The merge-conflict regions of `back/src/multiformatsupport/services.py` (lines 20-30 and 130-169). The model uses the definitions after the conflict.
- `back/src/multiformatsupport/api.py:24` passes extracted file text to a summariser that expects a YouTube URL. The summariser is a parameter, so that call is not reproduced.
- SubmitApi.Submit: the URL branch's success is modelled with the summariser as a parameter. As written, `back/src/multiformatsupport/api.py:41` hands the transcript list to `summarize_with_openai_and_memory`, which calls `process_youtube_url` on it (`back/src/multiformatsupport/services.py:192`). The `split` at `services.py:120` then fails on a list outside any `try`, so in the source that branch ends in an unhandled 500 and never returns the echoed URL.
- The 500 path of `back/src/pdf/api.py:84-85`, which raises the `HTTPException` of `http.client`.
- The `bbox` field of a detected heading and the grouping of spans into blocks and lines: spans are flattened per page in reading order.
- Non-text blocks: `back/src/pdf/api.py:35` and `:54` read `block["lines"]` from every block that fitz returns for a page, and an image block has no `lines` key. In the source, an image on any page makes `identify_chapter_headers` raise `KeyError`, which ends in the 500 path of `back/src/pdf/api.py:84-85`. `extract_chapter_contents` fails the same way for an image on a page inside a chapter's range. The model's pages hold text spans only, so it assumes documents made of text blocks and extracts their chapters.
- `front/remotion/Root.tsx`, which computes its length from the unexpanded sample but renders the expanded one. It is wiring and is not modelled.
- The `/multiformat/upload` and `/pdf/generate-video-data` endpoints the front end posts to are not part of this model; only the requests are.
- The auth back end (`back/src/auth`): password hashing and JWT helpers are not part of this model, and the rest is database lookups.
- E-mail format validation by the browser: the sign-in form's `required` inputs are modelled as "both non-empty".
- URL encoding and JSON serialisation: request bodies are lists of named fields.
- A non-string `msg` inside a validation error, and a non-string, non-list `detail`: both fall under "anything else".
- Overlapping requests: the pages accept a response only for the request they sent, and the sign-in page only after Submit.
- Fractional, negative-zero and NaN durations: durations are whole seconds.
- The JSON shape guards of `front/lib/utils.ts:13, 18, 27`: a missing intro or outro, or a `scenes` value that is not an array, is skipped there. The model's document always has an intro, an outro and a scene sequence.
- The default arm of `applyAnimation` for a tag outside the five (`front/remotion/MyComp/RenderScene.tsx:40-41`): the model's animation kinds are the five tags of the type, and `VideoTypes.ParseKind` rejects any other tag, so no unknown tag reaches the renderer.
- Expand.ExpandVideoData: `expandVideoData` overwrites its argument in place and returns it (`front/lib/utils.ts:44-86`); the model returns a new document, and its failure carries no partial update. In the source a scene without a voiceover throws after the intro and earlier scenes were already overwritten. The video page calls it on its state object at every render (`front/app/video/page.tsx:180`), so the stored response itself becomes the expanded document; `Expand.ExpandIdempotent` is what makes the repeated call give the same document each time.
- FileDispatch.ProcessFile: the `content.decode('utf-8')` of the text branch (`back/src/multiformatsupport/services.py:51`) can fail on bytes that are not UTF-8; the model's decoder is a total parameter, so that failure is not modelled.
- Unicode whitespace and case folding: `strip`, `lower` and `\s` are modelled over ASCII. Python's whitespace there is space, tab, line feed, vertical tab, form feed, carriage return and 0x1C to 0x1F; JavaScript's `trim` is the same without 0x1C to 0x1F.
- Animations.ApplyAnimation: specified only for frames in `[0, span]` with a positive span, because what Remotion's `interpolate` returns outside that range (it extends the line by default) is not modelled.
- Duration.DurationInSeconds: requires a positive rate; the source's default of 150 is the only rate used.
- QuizNav.Step: the question list is a parameter rather than the component's fixed five questions.
- UploadDialog.Step: a drop or selection of an empty file list is a no-op, where the browser code would read `files[0]` of an empty list.
- QuizNav.ProgressBounds: progress is exact rational arithmetic, not floating point.
- UploadDialog.RoundedPercent: `Math.round(loaded * 100 / total)` is computed on exact rationals (round half up of the exact quotient), not on the floating-point quotient the browser rounds.
- TimeFormat.Trunc: `int()` on a float is modelled on exact reals, not on binary floating point.

=== FILE: animation.dfy ===
/** The style patch a scene's animation contributes at a given frame. The
    span of every animation is `durationInSeconds * 30` frames: the literal 30
    is used whatever the video's frame rate. Values are linear interpolations
    over `[0, span]`; what happens outside that range belongs to the
    animation library and is not modelled. */
module Animations {
  import opened Wrappers
  import opened VideoTypes

  /** The frame rate hard-coded into every animation span. */
  const AnimationFps := 30

  /** The style patch: nothing, an opacity, a horizontal translation in
      percent (already signed) or a scale factor. */
  datatype Patch = NoPatch | Opacity(opacity: real) | TranslateX(percent: real) | Scale(factor: real)

  function Span(a: Animation): int {
    a.durationInSeconds * AnimationFps
  }

  /** The frame lies in the range where the patch is specified: always for no
      animation or `zoom-out`, otherwise inside `[0, span]` of a positive span. */
  predicate Evaluable(frame: int, a: Option<Animation>) {
    a.None? || a.value.kind == ZoomOut || (Span(a.value) > 0 && 0 <= frame <= Span(a.value))
  }

  /** Linear interpolation from `from` at frame 0 to `to` at frame `span`. */
  function Interpolate(frame: int, span: int, from: real, to: real): (v: real)
    requires 0 < span && 0 <= frame <= span
    ensures frame == 0 ==> v == from
    ensures frame == span ==> v == to
    ensures (v - from) * span as real == (to - from) * frame as real
    ensures from <= to ==> from <= v <= to
    ensures to <= from ==> to <= v <= from
  {
    var t := frame as real / span as real;
    assert 0.0 <= t <= 1.0;
    assert t * span as real == frame as real;
    ScaleBetween(to - from, t);
    from + (to - from) * t
  }

  /** Arithmetic helper: a fraction `t` of `d` lies between 0 and `d`. */
  lemma ScaleBetween(d: real, t: real)
    requires 0.0 <= t <= 1.0
    ensures d >= 0.0 ==> 0.0 <= d * t <= d
    ensures d <= 0.0 ==> d <= d * t <= 0.0
  {
    assert d - d * t == d * (1.0 - t);
  }

  /** `applyAnimation(frame, animation, durationInFrames)`. */
  function ApplyAnimation(frame: int, animation: Option<Animation>, durationInFrames: int): (p: Patch)
    requires Evaluable(frame, animation)
    ensures p == NoPatch <==> animation.None? || animation.value.kind == ZoomOut
    ensures p.Opacity? <==> animation.Some? && animation.value.kind in {FadeIn, FadeOut}
    ensures p.Opacity? ==> 0.0 <= p.opacity <= 1.0
    ensures p.Scale? <==> animation.Some? && animation.value.kind == ZoomIn
    ensures p.Scale? ==> 1.0 <= p.factor <= 1.5
    ensures p.TranslateX? <==> animation.Some? && animation.value.kind == SlideIn
    ensures p.TranslateX? ==> -100.0 <= p.percent <= 100.0
    ensures animation.Some? && animation.value.kind == FadeIn ==>
      p.opacity * Span(animation.value) as real == frame as real
    ensures animation.Some? && animation.value.kind == FadeOut ==>
      (1.0 - p.opacity) * Span(animation.value) as real == frame as real
    ensures animation.Some? && animation.value.kind == ZoomIn ==>
      (1.5 - p.factor) * Span(animation.value) as real == 0.5 * frame as real
    ensures animation.Some? && animation.value.kind == SlideIn ==>
      (if animation.value.direction == Some(Left) then 100.0 + p.percent else 100.0 - p.percent)
        * Span(animation.value) as real == 100.0 * frame as real
  {
    match animation
    case None => NoPatch
    case Some(a) =>
      match a.kind
      case FadeIn => Opacity(Interpolate(frame, Span(a), 0.0, 1.0))
      case SlideIn =>
        var v := Interpolate(frame, Span(a), 100.0, 0.0);
        TranslateX(if a.direction == Some(Left) then -v else v)
      case ZoomIn => Scale(Interpolate(frame, Span(a), 1.5, 1.0))
      case FadeOut => Opacity(Interpolate(frame, Span(a), 1.0, 0.0))
      case ZoomOut => NoPatch
  }

  /** The `durationInFrames` argument has no effect on the patch. */
  lemma ApplyAnimationIgnoresDuration(frame: int, a: Option<Animation>, d1: int, d2: int)
    requires Evaluable(frame, a)
    ensures ApplyAnimation(frame, a, d1) == ApplyAnimation(frame, a, d2)
  {
  }

  /** Fade-in runs opacity from 0 at the first frame to 1 at the end of the span. */
  lemma FadeInEndpoints(a: Animation)
    requires a.kind == FadeIn && Span(a) > 0
    ensures ApplyAnimation(0, Some(a), 0) == Opacity(0.0)
    ensures ApplyAnimation(Span(a), Some(a), 0) == Opacity(1.0)
  {
  }

  /** Fade-out is the mirror image of fade-in of the same length. */
  lemma FadeOutMirrorsFadeIn(a: Animation, frame: int)
    requires a.kind == FadeIn && Span(a) > 0 && 0 <= frame <= Span(a)
    ensures ApplyAnimation(frame, Some(a.(kind := FadeOut)), 0).opacity
         == 1.0 - ApplyAnimation(frame, Some(a), 0).opacity
  {
    var s := Span(a) as real;
    var f := frame as real;
    var vin := ApplyAnimation(frame, Some(a), 0).opacity;
    var vout := ApplyAnimation(frame, Some(a.(kind := FadeOut)), 0).opacity;
    assert vin * s == f;
    assert (vout - 1.0) * s == -f;
    assert (vout - 1.0 + vin) * s == 0.0;
  }

  /** Zoom-in starts at scale 1.5 and settles at 1. */
  lemma ZoomInEndpoints(a: Animation)
    requires a.kind == ZoomIn && Span(a) > 0
    ensures ApplyAnimation(0, Some(a), 0) == Scale(1.5)
    ensures ApplyAnimation(Span(a), Some(a), 0) == Scale(1.0)
  {
  }

  /** Slide-in starts fully off-screen (100%, or -100% from the left) and
      ends in place; a left slide is the negation of a right slide. */
  lemma SlideInDirection(a: Animation, frame: int)
    requires a.kind == SlideIn && Span(a) > 0 && 0 <= frame <= Span(a)
    ensures ApplyAnimation(0, Some(a), 0).percent == (if a.direction == Some(Left) then -100.0 else 100.0)
    ensures ApplyAnimation(Span(a), Some(a), 0).percent == 0.0
    ensures ApplyAnimation(frame, Some(a.(direction := Some(Left))), 0).percent
         == -ApplyAnimation(frame, Some(a.(direction := Some(Right))), 0).percent
    ensures ApplyAnimation(frame, Some(a.(direction := None)), 0)
         == ApplyAnimation(frame, Some(a.(direction := Some(Right))), 0)
  {
  }

  /** Fade-in, one second, half way through the 30-frame span: opacity 1/2. */
  lemma FadeInHalfWay()
    ensures ApplyAnimation(15, Some(Animation(FadeIn, None, 1)), 0) == Opacity(0.5)
  {
    var v := ApplyAnimation(15, Some(Animation(FadeIn, None, 1)), 0).opacity;
    assert v * 30.0 == 15.0;
  }

  /** The span does not follow the video frame rate: a one-second fade-in at
      60 frames per second is complete after 30 frames, half-way through the
      scene's first second. */
  lemma SpanIgnoresFrameRate()
    ensures Span(Animation(FadeIn, None, 1)) == 30
    ensures ApplyAnimation(30, Some(Animation(FadeIn, None, 1)), 60) == Opacity(1.0)
  {
  }
}

=== FILE: auth.dfy ===
/** The sign-in page of the `src/app` front end: one form that either logs
    in (a URL-encoded body for `/auth/token`) or registers (a JSON body for
    `/auth/register`), and an error line filled from the server's `detail`.
    The fetch, `localStorage` and the router are outside the model: the
    request and the navigation are returned, and the response arrives as an
    outcome. */
module Auth {
  import opened Wrappers
  import opened Text

  const TokenUrl := "http://localhost:8000/auth/token"
  const RegisterUrl := "http://localhost:8000/auth/register"
  const FormEncoded := "application/x-www-form-urlencoded"
  const JsonType := "application/json"
  const GenericError := "An error occurred. Please try again."

  /** A request body as its named fields in order; the variant says how
      they are encoded on the wire. */
  datatype Body = UrlEncoded(fields: seq<(string, string)>) | JsonObject(fields: seq<(string, string)>)

  /** A POST: address, `Content-Type` header and body. */
  datatype Request = Request(url: string, contentType: string, body: Body)

  /** The header names the body's encoding. */
  predicate ContentTypeMatches(r: Request) {
    (r.body.UrlEncoded? <==> r.contentType == FormEncoded) && (r.body.JsonObject? <==> r.contentType == JsonType)
  }

  /** The request `handleSubmit` sends in the current mode. */
  function BuildRequest(isLogin: bool, email: string, password: string): (r: Request)
    ensures r.url == TokenUrl <==> isLogin
    ensures r.url == RegisterUrl <==> !isLogin
    ensures r.body.UrlEncoded? <==> isLogin
    ensures ContentTypeMatches(r)
  {
    if isLogin then Request(TokenUrl, FormEncoded, UrlEncoded([("username", email), ("password", password)]))
    else Request(RegisterUrl, JsonType, JsonObject([("email", email), ("password", password)]))
  }

  /** A reader of a request body: the value of the first field named `key`.
      It is not part of the page; the round trip below uses it. */
  function Lookup(fields: seq<(string, string)>, key: string): (v: Option<string>)
    ensures v.Some? <==> exists i :: 0 <= i < |fields| && fields[i].0 == key
    ensures v.Some? ==> exists i ::
      && 0 <= i < |fields| && fields[i] == (key, v.value)
      && forall j :: 0 <= j < i ==> fields[j].0 != key
  {
    if |fields| == 0 then None
    else if fields[0].0 == key then Some(fields[0].1)
    else
      var v := Lookup(fields[1..], key);
      assert forall i :: 1 <= i < |fields| ==> fields[i] == fields[1..][i - 1];
      v
  }

  /** What a reader of the request recovers: the mode from the address and
      the credentials from the fields that mode names (`username` for the
      OAuth2 token form, `email` for registration). */
  function ReadCredentials(r: Request): Option<(bool, string, string)> {
    if r.url == TokenUrl && r.body.UrlEncoded? then
      match (Lookup(r.body.fields, "username"), Lookup(r.body.fields, "password"))
      case (Some(e), Some(p)) => Some((true, e, p))
      case _ => None
    else if r.url == RegisterUrl && r.body.JsonObject? then
      match (Lookup(r.body.fields, "email"), Lookup(r.body.fields, "password"))
      case (Some(e), Some(p)) => Some((false, e, p))
      case _ => None
    else None
  }

  /** The request carries exactly the mode and credentials it was built
      from: the e-mail travels as `username` on login and as `email` on
      registration. */
  lemma CredentialsRoundTrip(isLogin: bool, email: string, password: string)
    ensures ReadCredentials(BuildRequest(isLogin, email, password)) == Some((isLogin, email, password))
  {
    var fields := BuildRequest(isLogin, email, password).body.fields;
    assert "username" != "password" && "email" != "password" by {
      assert "username"[0] != "password"[0] && "email"[0] != "password"[0];
    }
    assert Lookup(fields, "password") == Lookup(fields[1..], "password");
    assert Lookup(fields[1..], "password") == Some(password);
  }

  /** The `detail` of an error response: FastAPI's list of validation
      errors (each `msg`, possibly missing), a plain message, or anything
      else. */
  datatype Detail = ItemList(msgs: seq<Option<string>>) | Message(text: string) | OtherDetail

  /** `err.msg` inside `join`: a missing message joins as the empty string. */
  function MsgText(m: Option<string>): string {
    if m.Some? then m.value else ""
  }

  function MsgTexts(msgs: seq<Option<string>>): (ts: seq<string>)
    ensures |ts| == |msgs|
    ensures forall i :: 0 <= i < |msgs| && msgs[i].Some? ==> ts[i] == msgs[i].value
  {
    seq(|msgs|, i requires 0 <= i < |msgs| => MsgText(msgs[i]))
  }

  /** The error line for a non-OK response. */
  function ErrorMessage(d: Detail): string {
    match d
    case ItemList(msgs) => Join(MsgTexts(msgs), ", ")
    case Message(text) => text
    case OtherDetail => GenericError
  }

  /** Every validation message reaches the error line, and a single one is
      shown alone; a plain message is shown unchanged; anything else gives
      the generic line. */
  lemma ErrorMessageShows(d: Detail)
    ensures d.ItemList? ==> forall i :: 0 <= i < |d.msgs| && d.msgs[i].Some? ==> Contains(ErrorMessage(d), d.msgs[i].value)
    ensures d.ItemList? && |d.msgs| == 1 ==> ErrorMessage(d) == MsgText(d.msgs[0])
    ensures d.Message? ==> ErrorMessage(d) == d.text
    ensures d.OtherDetail? ==> ErrorMessage(d) == GenericError
  {
    if d.ItemList? {
      forall i | 0 <= i < |d.msgs| && d.msgs[i].Some?
        ensures Contains(ErrorMessage(d), d.msgs[i].value)
      {
        JoinKeepsParts(MsgTexts(d.msgs), ", ", i);
        OccursContains(ErrorMessage(d), d.msgs[i].value, JoinOffset(MsgTexts(d.msgs), ", ", i));
      }
    }
  }

  /** The page's state. `submittedAs` is the mode the pending handler
      captured when it was called; `stored` is the `token` entry of local
      storage. */
  datatype Page = Page(isLogin: bool, email: string, password: string, error: Option<string>,
                       isLoading: bool, submittedAs: Option<bool>, stored: Option<string>)

  const Initial := Page(true, "", "", None, false, None, None)

  /** How the fetch ended: a 2xx response with its `access_token` (if any),
      another status with its `detail`, or a throw (network failure or a
      body that is not JSON). */
  datatype Outcome = Ok(accessToken: Option<string>) | NotOk(detail: Detail) | Thrown

  datatype Event = SetEmail(text: string) | SetPassword(text: string) | SwitchMode(toLogin: bool) | Submit | Settled(outcome: Outcome)

  datatype Effect = Send(request: Request) | Navigate(path: string) | NoEffect

  /** `localStorage.setItem` stores an undefined token as the text "undefined". */
  function StoredToken(t: Option<string>): string {
    if t.Some? then t.value else "undefined"
  }

  /** The error box is shown for a non-empty error only. */
  predicate ErrorShown(p: Page) {
    p.error.Some? && p.error.value != ""
  }

  /** Submit fires when the button is enabled and both inputs, which are
      `required`, are filled. */
  predicate CanSubmit(p: Page) {
    !p.isLoading && p.email != "" && p.password != ""
  }

  /** One step of the page. */
  function Step(p: Page, e: Event): (r: (Page, Effect))
    ensures r.0.isLoading == (p.isLoading || r.1.Send?)
    ensures r.1.Send? <==> e.Submit? && CanSubmit(p)
    ensures r.1.Send? ==> r.1.request == BuildRequest(p.isLogin, p.email, p.password) && r.0.submittedAs == Some(p.isLogin)
    ensures r.1.Navigate? <==> e.Settled? && p.submittedAs.Some? && e.outcome.Ok?
    ensures r.1.Navigate? ==> r.1.path == (if p.submittedAs.value then "/feed" else "/onboarding")
    ensures r.1.Navigate? ==> r.0.error.None? && r.0.stored == Some(StoredToken(e.outcome.accessToken))
    ensures e.Settled? && p.submittedAs.Some? && e.outcome.NotOk? ==> r.0.error == Some(ErrorMessage(e.outcome.detail))
    ensures e.Settled? && p.submittedAs.Some? && e.outcome.Thrown? ==> r.0.error == Some(GenericError)
    ensures !e.Settled? ==> r.0.stored == p.stored
    ensures e.SwitchMode? || e.Submit? ==> r.0.error == p.error
    ensures e.SetEmail? ==> r == (p.(email := e.text), NoEffect)
    ensures e.SetPassword? ==> r == (p.(password := e.text), NoEffect)
    ensures e.SwitchMode? ==> r == (p.(isLogin := e.toLogin), NoEffect)
    ensures e.Submit? && !CanSubmit(p) ==> r == (p, NoEffect)
    ensures e.Submit? && CanSubmit(p) ==> r.0 == p.(isLoading := true, submittedAs := Some(p.isLogin))
    ensures e.Settled? && p.submittedAs.None? ==> r == (p, NoEffect)
    ensures e.Settled? && p.submittedAs.Some? ==>
      r.0 == p.(submittedAs := None, error := r.0.error, stored := r.0.stored)
  {
    match e
    case SetEmail(t) => (p.(email := t), NoEffect)
    case SetPassword(t) => (p.(password := t), NoEffect)
    case SwitchMode(b) => (p.(isLogin := b), NoEffect)
    case Submit =>
      if CanSubmit(p) then (p.(isLoading := true, submittedAs := Some(p.isLogin)), Send(BuildRequest(p.isLogin, p.email, p.password)))
      else (p, NoEffect)
    case Settled(o) =>
      if p.submittedAs.None? then (p, NoEffect)
      else
        var q := p.(submittedAs := None);
        match o
        case Ok(t) =>
          (q.(stored := Some(StoredToken(t)), error := None), Navigate(if p.submittedAs.value then "/feed" else "/onboarding"))
        case NotOk(d) => (q.(error := Some(ErrorMessage(d))), NoEffect)
        case Thrown => (q.(error := Some(GenericError)), NoEffect)
  }

  /** Several events in a row, with the effects they produce. */
  function Run(p: Page, es: seq<Event>): (r: (Page, seq<Effect>))
    ensures |r.1| == |es|
    decreases |es|
  {
    if |es| == 0 then (p, [])
    else
      var (q, eff) := Step(p, es[0]);
      var (u, effs) := Run(q, es[1..]);
      (u, [eff] + effs)
  }

  /** How many requests a list of effects sends. */
  function Sends(effs: seq<Effect>): nat {
    if |effs| == 0 then 0 else (if effs[0].Send? then 1 else 0) + Sends(effs[1..])
  }

  /** `isLoading` is never reset: once a request has gone out the button
      stays disabled and nothing more is sent. */
  lemma {:induction false} LoadingIsFinal(p: Page, es: seq<Event>)
    requires p.isLoading
    ensures Run(p, es).0.isLoading
    ensures Sends(Run(p, es).1) == 0
    decreases |es|
  {
    if |es| > 0 {
      var (q, eff) := Step(p, es[0]);
      LoadingIsFinal(q, es[1..]);
      assert Run(p, es).1 == [eff] + Run(q, es[1..]).1;
      assert ([eff] + Run(q, es[1..]).1)[1..] == Run(q, es[1..]).1;
    }
  }

  /** A page sends at most one request in its lifetime. */
  lemma {:induction false} AtMostOneRequest(p: Page, es: seq<Event>)
    ensures Sends(Run(p, es).1) <= (if p.isLoading then 0 else 1)
    decreases |es|
  {
    if |es| > 0 {
      var (q, eff) := Step(p, es[0]);
      var rest := Run(q, es[1..]).1;
      assert Run(p, es).1 == [eff] + rest;
      assert ([eff] + rest)[1..] == rest;
      if eff.Send? || p.isLoading {
        LoadingIsFinal(q, es[1..]);
      } else {
        AtMostOneRequest(q, es[1..]);
      }
    }
  }

  /** A successful login goes to the feed and a successful registration to
      onboarding, with the error cleared, whatever the mode shows by then. */
  lemma SuccessRoutesByMode(p: Page, t: Option<string>, e1: Event)
    requires CanSubmit(p) && e1.SwitchMode?
    ensures var (q, _) := Step(p, Submit);
      var (q1, _) := Step(q, e1);
      var (u, nav) := Step(q1, Settled(Ok(t)));
      && nav == Navigate(if p.isLogin then "/feed" else "/onboarding")
      && !ErrorShown(u)
      && u.stored == Some(StoredToken(t))
  {
  }

  /** An empty validation list sets the error to the empty string, which
      the page does not show. */
  lemma EmptyDetailShowsNothing(p: Page)
    requires p.submittedAs.Some?
    ensures !ErrorShown(Step(p, Settled(NotOk(ItemList([])))).0)
  {
  }

  /** Switching between login and registration keeps the old error shown. */
  lemma SwitchKeepsError(p: Page, b: bool)
    ensures Step(p, SwitchMode(b)).0.error == p.error
  {
  }
}

=== FILE: chapters.dfy ===
/** Chapter detection in an uploaded PDF. A document is a sequence of pages,
    each a sequence of text spans with a font size, in reading order (the
    blocks and lines that group them are flattened). A span is a heading
    candidate from page 3 on, at 16 points or more, when it contains one of
    five keywords or starts with a number or a Roman numeral followed by
    whitespace. Each chapter then takes the text of the pages from its own
    page to the next chapter's page. */
module Chapters {
  import opened Wrappers
  import opened Text

  datatype Span = Span(text: string, size: real)

  type PdfPage = seq<Span>

  const Keywords: seq<string> := ["chapter", "part", "section", "prologue", "epilogue"]
  const DigitChars: set<char> := {'0', '1', '2', '3', '4', '5', '6', '7', '8', '9'}
  const ColonDot: set<char> := {':', '.'}
  const RomanLetters: set<char> := {'I', 'V', 'X', 'L', 'C', 'D', 'M'}

  predicate AllIn(s: string, cls: set<char>) {
    forall k :: 0 <= k < |s| ==> s[k] in cls
  }

  /** Length of the longest prefix of `s` drawn from `cls` (a greedy `+`/`*`). */
  function Run(s: string, cls: set<char>): (n: nat)
    ensures n <= |s| && AllIn(s[..n], cls)
    ensures n == |s| || s[n] !in cls
  {
    if |s| > 0 && s[0] in cls then
      var n := 1 + Run(s[1..], cls);
      assert forall k :: 1 <= k < n ==> s[..n][k] == s[1..][..n - 1][k - 1];
      n
    else 0
  }

  /** `re.match(r'^[0-9]+[:.]*\s', text)` succeeds. */
  predicate NumberedPrefix(text: string) {
    exists i, j :: 1 <= i <= j < |text| && AllIn(text[..i], DigitChars) && AllIn(text[i..j], ColonDot) && IsSpace(text[j])
  }

  /** `re.match(r'^[IVXLCDM]+\s', text)` succeeds. */
  predicate RomanPrefix(text: string) {
    exists i :: 1 <= i < |text| && AllIn(text[..i], RomanLetters) && IsSpace(text[i])
  }

  /** The lower-cased text contains one of the keywords. */
  predicate HasKeyword(text: string) {
    exists k :: 0 <= k < |Keywords| && Contains(Lower(text), Keywords[k])
  }

  /** The first pattern by one greedy scan: digits, then colons and dots,
      then one whitespace character. The three classes are disjoint, so the
      greedy split is the only one that can match. */
  function MatchNumbered(text: string): (b: bool)
    ensures b <==> NumberedPrefix(text)
  {
    var i := Run(text, DigitChars);
    var j := i + Run(text[i..], ColonDot);
    assert text[i..j] == text[i..][..j - i];
    if i >= 1 && j < |text| && IsSpace(text[j]) then true
    else
      NumberedUnique(text, i, j);
      false
  }

  /** A class prefix that cannot be extended is the greedy run. */
  lemma {:induction false} RunUnique(s: string, cls: set<char>, n: nat)
    requires n <= |s| && AllIn(s[..n], cls)
    requires n == |s| || s[n] !in cls
    ensures Run(s, cls) == n
  {
    if n > 0 {
      assert s[0] == s[..n][0];
      assert s[1..][..n - 1] == s[1..n];
      assert forall k :: 0 <= k < n - 1 ==> s[1..n][k] == s[..n][k + 1];
      RunUnique(s[1..], cls, n - 1);
    }
  }

  /** Whitespace, digits, colons and dots, and Roman letters are disjoint. */
  lemma ClassesDisjoint(c: char)
    ensures IsSpace(c) ==> c !in DigitChars && c !in ColonDot && c !in RomanLetters
    ensures c in ColonDot ==> c !in DigitChars
  {
  }

  lemma NumberedUnique(text: string, i: nat, j: nat)
    requires i == Run(text, DigitChars) && j == i + Run(text[i..], ColonDot)
    requires !(i >= 1 && j < |text| && IsSpace(text[j]))
    ensures !NumberedPrefix(text)
  {
    if NumberedPrefix(text) {
      var i', j' :| 1 <= i' <= j' < |text| && AllIn(text[..i'], DigitChars)
                    && AllIn(text[i'..j'], ColonDot) && IsSpace(text[j']);
      NumberedSplit(text, i', j');
      assert false;
    }
  }

  /** Any split that matches the first pattern is the greedy one. */
  lemma NumberedSplit(text: string, i': nat, j': nat)
    requires 1 <= i' <= j' < |text|
    requires AllIn(text[..i'], DigitChars) && AllIn(text[i'..j'], ColonDot) && IsSpace(text[j'])
    ensures Run(text, DigitChars) == i' && Run(text[i'..], ColonDot) == j' - i'
  {
    ClassesDisjoint(text[i']);
    if i' < j' {
      assert text[i'] == text[i'..j'][0];
    }
    RunUnique(text, DigitChars, i');
    var rest := text[i'..];
    assert rest[..j' - i'] == text[i'..j'];
    assert rest[j' - i'] == text[j'];
    ClassesDisjoint(text[j']);
    RunUnique(rest, ColonDot, j' - i');
  }

  /** The Roman-numeral pattern by one greedy scan. */
  function MatchRoman(text: string): (b: bool)
    ensures b <==> RomanPrefix(text)
  {
    var i := Run(text, RomanLetters);
    if i >= 1 && i < |text| && IsSpace(text[i]) then true
    else
      RomanUnique(text, i);
      false
  }

  lemma RomanUnique(text: string, i: nat)
    requires i == Run(text, RomanLetters)
    requires !(i >= 1 && i < |text| && IsSpace(text[i]))
    ensures !RomanPrefix(text)
  {
    if RomanPrefix(text) {
      var i' :| 1 <= i' < |text| && AllIn(text[..i'], RomanLetters) && IsSpace(text[i']);
      ClassesDisjoint(text[i']);
      RunUnique(text, RomanLetters, i');
    }
  }

  /** `is_potential_chapter_heading(text, font_size, page_number)`: the page
      and size guards first, then the keywords, then the two patterns. */
  function IsPotentialChapterHeading(text: string, fontSize: real, pageNumber: int): (b: bool)
    ensures pageNumber <= 2 || fontSize < 16.0 ==> !b
  {
    if pageNumber <= 2 then false
    else if fontSize < 16.0 then false
    else KeywordScan(Lower(text), 0) || MatchNumbered(text) || MatchRoman(text)
  }

  /** Past the guards a text qualifies exactly when it contains a keyword
      (case-insensitively) or starts with a numbered or Roman prefix. */
  lemma HeadingCriteria(text: string, fontSize: real, pageNumber: int)
    requires pageNumber > 2 && fontSize >= 16.0
    ensures IsPotentialChapterHeading(text, fontSize, pageNumber) <==> HasKeyword(text) || NumberedPrefix(text) || RomanPrefix(text)
  {
    KeywordScanFinds(Lower(text), 0);
  }

  /** `any(keyword in lowered for keyword in Keywords[k..])`. */
  function KeywordScan(lowered: string, k: nat): bool
    requires k <= |Keywords|
    decreases |Keywords| - k
  {
    if k == |Keywords| then false
    else Contains(lowered, Keywords[k]) || KeywordScan(lowered, k + 1)
  }

  lemma {:induction false} KeywordScanFinds(lowered: string, k: nat)
    requires k <= |Keywords|
    ensures KeywordScan(lowered, k) <==> exists m :: k <= m < |Keywords| && Contains(lowered, Keywords[m])
    decreases |Keywords| - k
  {
    if k < |Keywords| {
      KeywordScanFinds(lowered, k + 1);
    }
  }

  /** The keyword test is a substring test: "Department" qualifies through
      "part". */
  lemma DepartmentQualifies()
    ensures IsPotentialChapterHeading("Department", 16.0, 3)
  {
    var lowered := Lower("Department");
    assert lowered == "department";
    assert OccursAt(lowered, "part", 2) by {
      assert lowered[2..6] == "part";
    }
    assert Contains(lowered, Keywords[1]);
    HeadingCriteria("Department", 16.0, 3);
  }

  /** Nothing before page 3 or below 16 points is a heading, whatever it says. */
  lemma GuardsWin(text: string, fontSize: real, pageNumber: int)
    requires pageNumber <= 2 || fontSize < 16.0
    ensures !IsPotentialChapterHeading(text, fontSize, pageNumber)
  {
  }

  /** A numbered heading such as "1. Beginnings" matches the first pattern. */
  lemma NumberedExample()
    ensures NumberedPrefix("1. A")
    ensures RomanPrefix("IV A")
    ensures !NumberedPrefix("1.")
  {
    var t := "1. A";
    assert t[..1] == "1" && t[1..2] == "." && IsSpace(t[2]);
    var r := "IV A";
    assert r[..2] == "IV" && IsSpace(r[2]);
    assert !MatchNumbered("1.");
  }

  /** A detected heading: 1-based page, stripped text, font size. */
  datatype Header = Header(page: int, header: string, fontSize: real)

  /** A span is a heading on its page when its stripped text qualifies. */
  predicate IsHeadingSpan(s: Span, pageNumber: int) {
    IsPotentialChapterHeading(Strip(s.text), s.size, pageNumber)
  }

  function HeaderOf(s: Span, pageNumber: int): Header {
    Header(pageNumber, Strip(s.text), s.size)
  }

  /** The headers of the spans `keep` accepts, in span order. */
  function Select(spans: PdfPage, pageNumber: int, keep: (Span, int) -> bool): (hs: seq<Header>)
    ensures forall i :: 0 <= i < |hs| ==> hs[i].page == pageNumber
    ensures |hs| <= |spans|
  {
    if |spans| == 0 then []
    else
      var head := if keep(spans[0], pageNumber) then [HeaderOf(spans[0], pageNumber)] else [];
      var rest := Select(spans[1..], pageNumber, keep);
      assert forall i :: |head| <= i < |head + rest| ==> (head + rest)[i] == rest[i - |head|];
      head + rest
  }

  /** A header is selected exactly when an accepted span gives it. */
  lemma {:induction false} SelectMembers(spans: PdfPage, pageNumber: int, keep: (Span, int) -> bool, h: Header)
    ensures h in Select(spans, pageNumber, keep) <==> exists s :: s in spans && keep(s, pageNumber) && h == HeaderOf(s, pageNumber)
  {
    if |spans| > 0 {
      var first, tail := spans[0], spans[1..];
      var head := if keep(first, pageNumber) then [HeaderOf(first, pageNumber)] else [];
      var rest := Select(tail, pageNumber, keep);
      assert Select(spans, pageNumber, keep) == head + rest;
      assert spans == [first] + tail;
      SelectMembers(tail, pageNumber, keep, h);
      if h in head {
        assert first in spans && keep(first, pageNumber) && h == HeaderOf(first, pageNumber);
      } else if h in rest {
        var s :| s in tail && keep(s, pageNumber) && h == HeaderOf(s, pageNumber);
        assert s in spans;
      }
      if exists s :: s in spans && keep(s, pageNumber) && h == HeaderOf(s, pageNumber) {
        var s :| s in spans && keep(s, pageNumber) && h == HeaderOf(s, pageNumber);
        if s == first {
          assert h in head;
        } else {
          assert s in tail;
          assert h in rest;
        }
      }
    }
  }

  /** The headings on one page, in span order; they all carry the page's
      number, and only pages past the second have any. */
  function PageHeaders(spans: PdfPage, pageNumber: int): (hs: seq<Header>)
    ensures forall i :: 0 <= i < |hs| ==> hs[i].page == pageNumber
    ensures |hs| > 0 ==> pageNumber > 2
  {
    HeadingsPastSecondPage(spans, pageNumber);
    Select(spans, pageNumber, IsHeadingSpan)
  }

  lemma HeadingsPastSecondPage(spans: PdfPage, pageNumber: int)
    ensures |Select(spans, pageNumber, IsHeadingSpan)| > 0 ==> pageNumber > 2
  {
    var hs := Select(spans, pageNumber, IsHeadingSpan);
    if |hs| > 0 {
      SelectMembers(spans, pageNumber, IsHeadingSpan, hs[0]);
      assert hs[0] in hs;
      var s :| s in spans && IsHeadingSpan(s, pageNumber) && hs[0] == HeaderOf(s, pageNumber);
    }
  }

  /** A header is on the page's list exactly when a span of the page
      qualifies and gives it. */
  lemma PageHeadersMembers(spans: PdfPage, pageNumber: int, h: Header)
    ensures h in PageHeaders(spans, pageNumber) <==> exists s :: s in spans && IsHeadingSpan(s, pageNumber) && h == HeaderOf(s, pageNumber)
  {
    SelectMembers(spans, pageNumber, IsHeadingSpan, h);
  }

  /** Every header page lies in `first..last`. */
  predicate PagesWithin(hs: seq<Header>, first: int, last: int) {
    forall i :: 0 <= i < |hs| ==> first <= hs[i].page <= last
  }

  /** Header pages never decrease along the list. */
  predicate PagesSorted(hs: seq<Header>) {
    forall i, j :: 0 <= i <= j < |hs| ==> hs[i].page <= hs[j].page
  }

  /** `identify_chapter_headers` before contents are attached: every page in
      order, every span in order. */
  function IdentifyChapterHeaders(doc: seq<PdfPage>): (hs: seq<Header>)
    ensures PagesWithin(hs, 3, |doc|)
    ensures PagesSorted(hs)
  {
    if |doc| == 0 then []
    else
      var n := |doc|;
      var front := IdentifyChapterHeaders(doc[..n - 1]);
      var last := PageHeaders(doc[n - 1], n);
      SortedAppend(front, last, n);
      front + last
  }

  /** Appending a page's headers after those of the earlier pages keeps the
      pages in range and in order. */
  lemma SortedAppend(front: seq<Header>, last: seq<Header>, n: int)
    requires PagesWithin(front, 3, n - 1) && PagesSorted(front)
    requires forall i :: 0 <= i < |last| ==> last[i].page == n
    requires |last| > 0 ==> n > 2
    ensures PagesWithin(front + last, 3, n) && PagesSorted(front + last)
  {
    var hs := front + last;
    forall i, j | 0 <= i <= j < |hs|
      ensures hs[i].page <= hs[j].page
    {
      if j < |front| {
        assert hs[i] == front[i] && hs[j] == front[j];
      } else if i < |front| {
        assert hs[i] == front[i] && hs[j] == last[j - |front|];
      } else {
        assert hs[i] == last[i - |front|] && hs[j] == last[j - |front|];
      }
    }
    forall i | 0 <= i < |hs|
      ensures 3 <= hs[i].page <= n
    {
      if i < |front| {
        assert hs[i] == front[i];
      } else {
        assert hs[i] == last[i - |front|];
      }
    }
  }

  /** The headings found are those of the pages, each page numbered from 1. */
  lemma HeadersByPage(doc: seq<PdfPage>, h: Header)
    ensures h in IdentifyChapterHeaders(doc) <==> exists p :: 0 <= p < |doc| && h in PageHeaders(doc[p], p + 1)
  {
    if h in IdentifyChapterHeaders(doc) {
      var p := FoundOnPage(doc, h);
    }
    if exists p :: 0 <= p < |doc| && h in PageHeaders(doc[p], p + 1) {
      var p :| 0 <= p < |doc| && h in PageHeaders(doc[p], p + 1);
      PageHeaderFound(doc, p, h);
    }
  }

  /** Helper: a heading found in the document comes from some page. */
  lemma {:induction false} FoundOnPage(doc: seq<PdfPage>, h: Header) returns (p: nat)
    requires h in IdentifyChapterHeaders(doc)
    ensures p < |doc| && h in PageHeaders(doc[p], p + 1)
  {
    assert |doc| > 0;
    var n := |doc|;
    var front := doc[..n - 1];
    assert IdentifyChapterHeaders(doc) == IdentifyChapterHeaders(front) + PageHeaders(doc[n - 1], n);
    if h in IdentifyChapterHeaders(front) {
      p := FoundOnPage(front, h);
      assert front[p] == doc[p];
    } else {
      p := n - 1;
    }
  }

  /** Helper: a heading of some page is found in the document. */
  lemma {:induction false} PageHeaderFound(doc: seq<PdfPage>, p: nat, h: Header)
    requires p < |doc| && h in PageHeaders(doc[p], p + 1)
    ensures h in IdentifyChapterHeaders(doc)
  {
    var n := |doc|;
    var front := doc[..n - 1];
    assert IdentifyChapterHeaders(doc) == IdentifyChapterHeaders(front) + PageHeaders(doc[n - 1], n);
    if p < n - 1 {
      assert front[p] == doc[p];
      PageHeaderFound(front, p, h);
    }
  }

  /** A heading is found exactly when some span of its page qualifies. */
  lemma HeadersSoundAndComplete(doc: seq<PdfPage>, h: Header)
    ensures h in IdentifyChapterHeaders(doc) <==>
      exists p, s :: 0 <= p < |doc| && s in doc[p] && IsHeadingSpan(s, p + 1) && h == HeaderOf(s, p + 1)
  {
    var hs := IdentifyChapterHeaders(doc);
    HeadersByPage(doc, h);
    if h in hs {
      var p :| 0 <= p < |doc| && h in PageHeaders(doc[p], p + 1);
      PageHeadersMembers(doc[p], p + 1, h);
      var s :| s in doc[p] && IsHeadingSpan(s, p + 1) && h == HeaderOf(s, p + 1);
    }
    if exists p, s :: 0 <= p < |doc| && s in doc[p] && IsHeadingSpan(s, p + 1) && h == HeaderOf(s, p + 1) {
      var p, s :| 0 <= p < |doc| && s in doc[p] && IsHeadingSpan(s, p + 1) && h == HeaderOf(s, p + 1);
      PageHeadersMembers(doc[p], p + 1, h);
      assert h in PageHeaders(doc[p], p + 1);
    }
  }

  /** The pages a chapter spans, as indices from 0: from the page before its
      own (1-based) page number to the page before the next chapter's, or to
      the last page for the last chapter. */
  function StartPage(hs: seq<Header>, i: nat): int
    requires i < |hs|
  {
    hs[i].page - 1
  }

  function EndPage(hs: seq<Header>, i: nat, pageCount: nat): int
    requires i < |hs|
  {
    if i + 1 < |hs| then hs[i + 1].page - 1 else pageCount - 1
  }

  /** With pages in range and non-decreasing, the ranges are non-empty,
      neighbours share their boundary page and the last runs to the end. */
  lemma PageRanges(hs: seq<Header>, pageCount: nat)
    requires PagesWithin(hs, 1, pageCount) && PagesSorted(hs)
    ensures forall i :: 0 <= i < |hs| ==> 0 <= StartPage(hs, i) <= EndPage(hs, i, pageCount) < pageCount
    ensures forall i :: 0 <= i < |hs| - 1 ==> EndPage(hs, i, pageCount) == StartPage(hs, i + 1)
    ensures |hs| > 0 ==> EndPage(hs, |hs| - 1, pageCount) == pageCount - 1
  {
  }

  /** The spans of pages `first` to `last` inclusive, in order; none when
      `first > last`. */
  function SpansIn(doc: seq<PdfPage>, first: int, last: int): (spans: seq<Span>)
    requires 0 <= first && last < |doc|
    ensures forall s :: s in spans <==> (exists p :: first <= p <= last && s in doc[p])
    decreases last + 1 - first
  {
    if first > last then []
    else
      var rest := SpansIn(doc, first + 1, last);
      assert forall s :: s in doc[first] + rest <==> s in doc[first] || s in rest;
      doc[first] + rest
  }

  /** The stripped texts of the spans, in order. */
  function Texts(spans: seq<Span>): (texts: seq<string>)
    ensures |texts| == |spans|
    ensures forall k :: 0 <= k < |spans| ==> texts[k] == Strip(spans[k].text)
  {
    seq(|spans|, k requires 0 <= k < |spans| => Strip(spans[k].text))
  }

  /** The texts other than the chapter's own header. */
  function Kept(texts: seq<string>, header: string): (kept: seq<string>)
    ensures |kept| <= |texts|
    ensures forall t :: t in kept <==> t in texts && t != header
  {
    if |texts| == 0 then []
    else (if texts[0] != header then [texts[0]] else []) + Kept(texts[1..], header)
  }

  /** The loop body `content += text + " "` over the texts. */
  function Accumulate(texts: seq<string>, header: string): string {
    if |texts| == 0 then ""
    else (if texts[0] != header then texts[0] + " " else "") + Accumulate(texts[1..], header)
  }

  /** Appending each kept text with a space is joining them with single
      spaces and adding one more. */
  lemma {:induction false} AccumulateIsJoin(texts: seq<string>, header: string)
    ensures var kept := Kept(texts, header);
      Accumulate(texts, header) == if |kept| == 0 then "" else Join(kept, " ") + " "
  {
    if |texts| > 0 {
      AccumulateIsJoin(texts[1..], header);
      var t, rest := texts[0], Kept(texts[1..], header);
      if t != header {
        assert Kept(texts, header) == [t] + rest;
        JoinCons(t, rest, " ");
        if |rest| > 0 {
          assert t + " " + (Join(rest, " ") + " ") == (t + " " + Join(rest, " ")) + " ";
        }
      } else {
        assert Kept(texts, header) == rest;
      }
    }
  }

  /** Joining a list with a new first element. */
  lemma JoinCons(t: string, rest: seq<string>, sep: string)
    ensures Join([t] + rest, sep) == if |rest| == 0 then t else t + sep + Join(rest, sep)
  {
    assert ([t] + rest)[1..] == rest;
  }

  /** One chapter: its header fields and its content. */
  datatype Chapter = Chapter(page: int, header: string, fontSize: real, content: string)

  function ChapterContent(doc: seq<PdfPage>, hs: seq<Header>, i: nat): (content: string)
    requires i < |hs| && PagesWithin(hs, 1, |doc|)
    ensures content == Strip(Join(Kept(Texts(SpansIn(doc, StartPage(hs, i), EndPage(hs, i, |doc|))), hs[i].header), " "))
  {
    var texts := Texts(SpansIn(doc, StartPage(hs, i), EndPage(hs, i, |doc|)));
    AccumulateIsJoin(texts, hs[i].header);
    StripTrailingSpace(Join(Kept(texts, hs[i].header), " "));
    Strip(Accumulate(texts, hs[i].header))
  }

  /** `extract_chapter_contents(doc, chapters)`. Every header page must name a
      page of the document, as every detected heading does. */
  function ExtractChapterContents(doc: seq<PdfPage>, hs: seq<Header>): (cs: seq<Chapter>)
    requires PagesWithin(hs, 1, |doc|)
    ensures |cs| == |hs|
    ensures forall i :: 0 <= i < |hs| ==>
      cs[i].page == hs[i].page && cs[i].header == hs[i].header && cs[i].fontSize == hs[i].fontSize
    ensures forall i :: 0 <= i < |hs| ==>
      cs[i].content == Strip(Join(Kept(Texts(SpansIn(doc, StartPage(hs, i), EndPage(hs, i, |doc|))), hs[i].header), " "))
  {
    seq(|hs|, i requires 0 <= i < |hs| => Chapter(hs[i].page, hs[i].header, hs[i].fontSize, ChapterContent(doc, hs, i)))
  }

  /** `identify_chapter_headers(pdf)`: the detected chapters with contents. */
  function IdentifyChapters(doc: seq<PdfPage>): (cs: seq<Chapter>)
    ensures |cs| == |IdentifyChapterHeaders(doc)|
    ensures forall i, j :: 0 <= i <= j < |cs| ==> 3 <= cs[i].page <= cs[j].page <= |doc|
  {
    ExtractChapterContents(doc, IdentifyChapterHeaders(doc))
  }

  /** Trimming the front of `x + [c]` trims the front of `x` when `x` has a
      character other than whitespace. */
  lemma {:induction false} TrimStartAppend(x: string, c: char, k: nat)
    requires k < |x| && !IsSpace(x[k])
    ensures TrimStart(x + [c]) == TrimStart(x) + [c]
  {
    assert (x + [c])[0] == x[0];
    if IsSpace(x[0]) {
      assert (x + [c])[1..] == x[1..] + [c];
      assert x[1..][k - 1] == x[k];
      TrimStartAppend(x[1..], c, k - 1);
    }
  }

  /** All of a blank string is trimmed away. */
  lemma {:induction false} TrimStartBlank(x: string)
    requires forall k :: 0 <= k < |x| ==> IsSpace(x[k])
    ensures TrimStart(x) == ""
  {
    if |x| > 0 {
      assert forall k :: 0 <= k < |x| - 1 ==> x[1..][k] == x[k + 1];
      TrimStartBlank(x[1..]);
    }
  }

  /** Trailing spaces never survive a strip. */
  lemma StripTrailingSpace(x: string)
    ensures Strip(x + " ") == Strip(x)
  {
    if k :| 0 <= k < |x| && !IsSpace(x[k]) {
      StripAppendNonBlank(x, k);
    } else {
      StripAppendBlank(x);
    }
  }

  lemma StripAppendNonBlank(x: string, k: nat)
    requires k < |x| && !IsSpace(x[k])
    ensures Strip(x + " ") == Strip(x)
  {
    TrimStartAppend(x, ' ', k);
    var y := TrimStart(x);
    assert (y + " ")[..|y|] == y;
    assert TrimEnd(y + " ") == TrimEnd(y);
  }

  lemma StripAppendBlank(x: string)
    requires forall k :: 0 <= k < |x| ==> IsSpace(x[k])
    ensures Strip(x + " ") == Strip(x)
  {
    TrimStartBlank(x);
    assert forall k :: 0 <= k < |x + " "| ==> IsSpace((x + " ")[k]);
    TrimStartBlank(x + " ");
  }
}

=== FILE: duration.dfy ===
/** Estimating a segment's playback time from its voiceover: words are the
    pieces of the text split on a single space, and the estimate is the
    speaking time at `wpm` words per minute rounded up to whole seconds. */
module Duration {
  import opened Text

  /** The speaking rate the expander always uses. */
  const DefaultWpm: nat := 150

  /** `text.split(' ').length`: one more than the number of spaces, so the
      empty text counts as one word and every extra space adds an empty one. */
  function WordCount(text: string): (n: nat)
    ensures n == Count(text, ' ') + 1
  {
    SplitCount(text, ' ');
    |Split(text, ' ')|
  }

  /** `Math.ceil(words / (wpm / 60))` for whole numbers: the least whole number
      of seconds in which `words` words are spoken at `wpm` words per minute. */
  function CeilSeconds(words: nat, wpm: nat): (r: nat)
    requires wpm > 0
    ensures r * wpm >= words * 60
    ensures r == 0 || (r - 1) * wpm < words * 60
  {
    var a := words * 60;
    var q := (a + wpm - 1) / wpm;
    assert q * wpm + (a + wpm - 1) % wpm == a + wpm - 1;
    assert (q - 1) * wpm == q * wpm - wpm;
    q
  }

  /** `calculateDurationInSeconds(text, wpm)`. */
  function DurationInSeconds(text: string, wpm: nat): (r: nat)
    requires wpm > 0
    ensures r >= 1
    ensures r * wpm >= WordCount(text) * 60
    ensures (r - 1) * wpm < WordCount(text) * 60
  {
    CeilSeconds(WordCount(text), wpm)
  }

  /** More words never give a shorter estimate at a fixed rate. */
  lemma DurationMonotone(t1: string, t2: string, wpm: nat)
    requires wpm > 0
    requires WordCount(t1) <= WordCount(t2)
    ensures DurationInSeconds(t1, wpm) <= DurationInSeconds(t2, wpm)
  {
    var r1 := DurationInSeconds(t1, wpm);
    var r2 := DurationInSeconds(t2, wpm);
    assert r1 <= r2 by {
      if r1 >= r2 + 1 {
        MulMonotone(r2, r1 - 1, wpm);
      }
    }
  }

  /** Arithmetic helper for the monotonicity proof above. */
  lemma MulMonotone(a: int, b: int, c: nat)
    requires a <= b
    ensures a * c <= b * c
  {
  }

  /** At 150 words per minute the estimate is `ceil(2 * words / 5)`. */
  lemma DefaultRate(text: string)
    ensures DurationInSeconds(text, DefaultWpm) == (2 * WordCount(text) + 4) / 5
  {
    var w := WordCount(text);
    var r := DurationInSeconds(text, DefaultWpm);
    var c := (2 * w + 4) / 5;
    assert c * 5 <= 2 * w + 4 < c * 5 + 5;
    assert r * 150 >= w * 60 && (r - 1) * 150 < w * 60;
    assert r * 5 >= 2 * w && (r - 1) * 5 < 2 * w;
  }

  /** Five words take two seconds at the default rate. */
  lemma FiveWords()
    ensures WordCount("a b c d e") == 5
    ensures DurationInSeconds("a b c d e", DefaultWpm) == 2
  {
    DefaultRate("a b c d e");
  }

  /** The empty voiceover still counts as one word and takes one second. */
  lemma EmptyVoiceover()
    ensures WordCount("") == 1
    ensures DurationInSeconds("", DefaultWpm) == 1
  {
    DefaultRate("");
  }

  /** A doubled space is an extra, empty word. */
  lemma DoubleSpace()
    ensures WordCount("a  b") == 3
  {
  }
}

=== FILE: expand.dfy ===
/** Expanding a raw timeline document before it is rendered. The expander
    overwrites, it does not fill in: the intro, the outro and every scene get
    a duration estimated from their voiceover and the default `zoom-out`
    animation of one second, and every scene gets the fixed scene style.
    Everything else is kept. */
module Expand {
  import opened Wrappers
  import opened VideoTypes
  import Duration

  /** The animation written over every segment's animation. */
  const DefaultAnimation := Animation(ZoomOut, None, 1)

  /** The scene style written over every scene's style. */
  const DefaultSceneStyle := SceneStyle(
    Some(NoStyle.(fontSize := Some("50px"), fontWeight := Some("bold"), textAlign := Some(AlignCenter), marginBottom := Some("20px"))),
    Some(NoStyle.(fontSize := Some("30px"), textAlign := Some(AlignCenter), marginBottom := Some("20px"))),
    Some(NoStyle.(width := Some("600px"), height := Some("400px"), borderRadius := Some("10px"), margin := Some("auto"))))

  /** Reading `split` of a scene whose voiceover is missing throws; the error
      names the first such scene. */
  datatype ExpandError = MissingVoiceover(sceneIndex: nat)

  /** The estimated duration for a voiceover at the default rate. */
  function Estimate(voiceover: string): nat {
    Duration.DurationInSeconds(voiceover, Duration.DefaultWpm)
  }

  /** The intro or outro after expansion. */
  function ExpandSegment(seg: Segment): (r: Segment)
    ensures r.durationInSeconds == Some(Estimate(seg.voiceover))
    ensures r.animation == Some(DefaultAnimation)
    ensures r.content == seg.content && r.voiceover == seg.voiceover && r.style == seg.style
  {
    seg.(durationInSeconds := Some(Estimate(seg.voiceover)), animation := Some(DefaultAnimation))
  }

  /** One scene after expansion; it fails when the voiceover is missing. */
  function ExpandScene(scene: Scene): (r: Option<Scene>)
    ensures r.Some? <==> scene.voiceover.Some?
    ensures r.Some? ==> ExpandedScene(scene, r.value)
  {
    match scene.voiceover
    case None => None
    case Some(v) =>
      Some(scene.(animation := Some(DefaultAnimation),
                  durationInSeconds := Some(Estimate(v)),
                  style := DefaultSceneStyle))
  }

  /** `after` is `before` with the three expanded fields overwritten and the
      title, description, image and voiceover kept. */
  predicate ExpandedScene(before: Scene, after: Scene)
    requires before.voiceover.Some?
  {
    && after.animation == Some(DefaultAnimation)
    && after.durationInSeconds == Some(Estimate(before.voiceover.value))
    && after.style == DefaultSceneStyle
    && after.title == before.title
    && after.description == before.description
    && after.image == before.image
    && after.voiceover == before.voiceover
  }

  /** The scenes in order, each expanded; fails at the first scene without a
      voiceover. */
  function ExpandScenes(scenes: seq<Scene>): (r: Result<seq<Scene>, ExpandError>)
    ensures r.Success? <==> forall i :: 0 <= i < |scenes| ==> scenes[i].voiceover.Some?
    ensures r.Success? ==> |r.value| == |scenes|
    ensures r.Success? ==> forall i :: 0 <= i < |scenes| ==> ExpandedScene(scenes[i], r.value[i])
    ensures r.Failure? ==> var k := r.error.sceneIndex;
      k < |scenes| && scenes[k].voiceover.None? && forall i :: 0 <= i < k ==> scenes[i].voiceover.Some?
  {
    if |scenes| == 0 then Success([])
    else
      match ExpandScene(scenes[0])
      case None => Failure(MissingVoiceover(0))
      case Some(first) =>
        match ExpandScenes(scenes[1..])
        case Failure(MissingVoiceover(k)) => Failure(MissingVoiceover(k + 1))
        case Success(rest) => Success([first] + rest)
  }

  /** `expandVideoData(doc)`. */
  function ExpandVideoData(doc: VideoData): (r: Result<VideoData, ExpandError>)
    ensures r.Success? <==> forall i :: 0 <= i < |doc.scenes| ==> doc.scenes[i].voiceover.Some?
    ensures r.Success? ==> Expanded(doc, r.value)
  {
    match ExpandScenes(doc.scenes)
    case Failure(e) => Failure(e)
    case Success(scenes) =>
      Success(doc.(intro := ExpandSegment(doc.intro), scenes := scenes, outro := ExpandSegment(doc.outro)))
  }

  /** `after` is the expansion of `before`: the overwritten fields hold the
      defaults and estimates, and nothing else differs. */
  predicate Expanded(before: VideoData, after: VideoData) {
    && after.title == before.title
    && after.backgroundColor == before.backgroundColor
    && after.textColor == before.textColor
    && after.fontFamily == before.fontFamily
    && after.intro == ExpandSegment(before.intro)
    && after.outro == ExpandSegment(before.outro)
    && |after.scenes| == |before.scenes|
    && forall i :: 0 <= i < |before.scenes| ==>
         before.scenes[i].voiceover.Some? && ExpandedScene(before.scenes[i], after.scenes[i])
  }

  /** An expanded document has every duration, each at least one second. */
  lemma ExpandResolves(doc: VideoData)
    requires ExpandVideoData(doc).Success?
    ensures var e := ExpandVideoData(doc).value;
      && Resolved(e)
      && e.intro.durationInSeconds.value >= 1
      && e.outro.durationInSeconds.value >= 1
      && forall i :: 0 <= i < |e.scenes| ==> e.scenes[i].durationInSeconds.value >= 1
  {
  }

  /** Expanding an expanded document changes nothing: every written field
      depends only on the voiceover, which is never written. */
  lemma ExpandIdempotent(doc: VideoData)
    requires ExpandVideoData(doc).Success?
    ensures ExpandVideoData(ExpandVideoData(doc).value) == ExpandVideoData(doc)
  {
    var e := ExpandVideoData(doc).value;
    assert ExpandVideoData(e).Success?;
    var e2 := ExpandVideoData(e).value;
    assert |e2.scenes| == |e.scenes|;
    forall i | 0 <= i < |e.scenes|
      ensures e2.scenes[i] == e.scenes[i]
    {
      assert ExpandedScene(e.scenes[i], e2.scenes[i]);
      assert ExpandedScene(doc.scenes[i], e.scenes[i]);
    }
    assert e2.scenes == e.scenes;
  }

  /** Prior values of the overwritten fields do not matter: two documents that
      differ only there expand to the same result. */
  lemma ExpandDiscardsPriorValues(a: VideoData, b: VideoData)
    requires a.title == b.title && a.backgroundColor == b.backgroundColor
    requires a.textColor == b.textColor && a.fontFamily == b.fontFamily
    requires a.intro.(durationInSeconds := None, animation := None) == b.intro.(durationInSeconds := None, animation := None)
    requires a.outro.(durationInSeconds := None, animation := None) == b.outro.(durationInSeconds := None, animation := None)
    requires |a.scenes| == |b.scenes|
    requires forall i :: 0 <= i < |a.scenes| ==>
      a.scenes[i].(durationInSeconds := None, animation := None, style := DefaultSceneStyle)
      == b.scenes[i].(durationInSeconds := None, animation := None, style := DefaultSceneStyle)
    ensures ExpandVideoData(a) == ExpandVideoData(b)
  {
    ScenesDiscardPriorValues(a.scenes, b.scenes);
    assert ExpandSegment(a.intro) == ExpandSegment(b.intro) by {
      assert a.intro.voiceover == b.intro.voiceover;
    }
    assert ExpandSegment(a.outro) == ExpandSegment(b.outro) by {
      assert a.outro.voiceover == b.outro.voiceover;
    }
  }

  /** The scene-list half of `ExpandDiscardsPriorValues`, scene by scene. */
  lemma {:induction false} ScenesDiscardPriorValues(xs: seq<Scene>, ys: seq<Scene>)
    requires |xs| == |ys|
    requires forall i :: 0 <= i < |xs| ==>
      xs[i].(durationInSeconds := None, animation := None, style := DefaultSceneStyle)
      == ys[i].(durationInSeconds := None, animation := None, style := DefaultSceneStyle)
    ensures ExpandScenes(xs) == ExpandScenes(ys)
  {
    if |xs| > 0 {
      var x, y := xs[0], ys[0];
      assert x.(durationInSeconds := None, animation := None, style := DefaultSceneStyle)
          == y.(durationInSeconds := None, animation := None, style := DefaultSceneStyle);
      assert x.voiceover == y.voiceover;
      assert ExpandScene(x) == ExpandScene(y);
      ScenesDiscardPriorValues(xs[1..], ys[1..]);
    }
  }
}

=== FILE: feed.dfy ===
/** The feed page: the upload form until a summary arrives, then either the
    video view (a summary with an embed address) or the list view for
    anything else. The `app` copy adds Go Back and a link to the video
    generator; the `src/app` copy has neither. */
module Feed {
  import opened Wrappers

  /** A summary as the form hands it over; only `urlEmbed` is looked at. */
  datatype Summary<S> = Summary(urlEmbed: Option<string>, body: S)

  predicate HasEmbed<S>(s: Summary<S>) {
    s.urlEmbed.Some? && s.urlEmbed.value != ""
  }

  /** The two slots of the page: the video summary and the other summary. */
  datatype Page<S> = Page(video: Option<Summary<S>>, submitted: Option<Summary<S>>)

  function Empty<S>(): Page<S> {
    Page(None, None)
  }

  datatype Event<S> = Available(summary: Summary<S>) | GoBack | GoToVideo

  datatype View<S> = FormView | VideoView(summary: Summary<S>) | ListView(summary: Summary<S>)

  /** `handleSummaryAvailable`: the summary goes to one slot and the other
      slot is cleared. */
  function Route<S>(s: Summary<S>): (p: Page<S>)
    ensures HasEmbed(s) <==> p.video == Some(s)
    ensures !HasEmbed(s) <==> p.submitted == Some(s)
    ensures p.video.None? || p.submitted.None?
  {
    if HasEmbed(s) then Page(Some(s), None) else Page(None, Some(s))
  }

  /** A step of the `app` page; the second component is the navigation it
      asks for, if any. */
  function Step<S>(p: Page<S>, e: Event<S>): (r: (Page<S>, Option<string>))
    ensures e.Available? ==> r == (Route(e.summary), None)
    ensures e.GoBack? ==> r == (Empty(), None)
    ensures e.GoToVideo? ==> r == (p, Some("/video"))
  {
    match e
    case Available(s) => (Route(s), None)
    case GoBack => (Empty(), None)
    case GoToVideo => (p, Some("/video"))
  }

  /** A step of the `src/app` page, which only receives summaries. */
  function LocalStep<S>(p: Page<S>, s: Summary<S>): (r: Page<S>)
    ensures r.video.Some? || r.submitted.Some?
  {
    Route(s)
  }

  /** The slots are never both filled. */
  predicate Inv<S>(p: Page<S>) {
    p.video.None? || p.submitted.None?
  }

  lemma StepPreservesInv<S>(p: Page<S>, e: Event<S>)
    requires Inv(p)
    ensures Inv(Step(p, e).0)
  {
  }

  /** What the page shows. */
  function ViewOf<S>(p: Page<S>): (v: View<S>)
    requires Inv(p)
    ensures v.FormView? <==> p.video.None? && p.submitted.None?
    ensures v.VideoView? <==> p.video.Some?
    ensures v.ListView? <==> p.submitted.Some?
    ensures v.VideoView? ==> v.summary == p.video.value
    ensures v.ListView? ==> v.summary == p.submitted.value
  {
    if p.video.None? && p.submitted.None? then FormView
    else if p.video.Some? then VideoView(p.video.value)
    else ListView(p.submitted.value)
  }

  /** The Go Back button is shown exactly when the form is not. */
  predicate ShowsGoBack<S>(p: Page<S>) {
    p.video.Some? || p.submitted.Some?
  }

  lemma GoBackIffNoForm<S>(p: Page<S>)
    requires Inv(p)
    ensures ShowsGoBack(p) <==> !ViewOf(p).FormView?
    ensures ViewOf(Step(p, GoBack).0).FormView?
  {
  }

  /** Routing a summary depends on nothing but the summary: whatever was
      shown before, the view is the one the summary picks. */
  lemma ViewFollowsSummary<S>(p: Page<S>, q: Page<S>, s: Summary<S>)
    ensures Step(p, Available(s)).0 == Step(q, Available(s)).0
    ensures ViewOf(Step(p, Available(s)).0) == (if HasEmbed(s) then VideoView(s) else ListView(s))
  {
  }

  /** On the `src/app` page the form never comes back once a summary has
      arrived: every step from there leaves a slot filled. */
  lemma {:induction false} LocalNeverReturnsToForm<S>(p: Page<S>, summaries: seq<Summary<S>>)
    requires p.video.Some? || p.submitted.Some?
    ensures var q := LocalRun(p, summaries); q.video.Some? || q.submitted.Some?
    decreases |summaries|
  {
    if |summaries| > 0 {
      LocalNeverReturnsToForm(LocalStep(p, summaries[0]), summaries[1..]);
    }
  }

  /** Several summaries in a row on the `src/app` page. */
  function LocalRun<S>(p: Page<S>, summaries: seq<Summary<S>>): Page<S>
    decreases |summaries|
  {
    if |summaries| == 0 then p else LocalRun(LocalStep(p, summaries[0]), summaries[1..])
  }
}

=== FILE: file_dispatch.dfy ===
/** `process_file`: the guessed MIME type of an uploaded file picks the text
    extractor, in the order pdf, audio, video, text, image; anything else is
    rejected with `Unsupported file type: <type>`. The type guess and the
    extractors themselves (PDF reader, ffmpeg and speech recognition, UTF-8
    decoding, OCR) are passed in. */
module FileDispatch {
  import opened Wrappers
  import opened Text

  /** Which extractor a file goes to. */
  datatype Route = PdfRoute | AudioRoute(mimeType: string) | VideoRoute | TextRoute | ImageRoute

  predicate HasPrefix(mime: Option<string>, prefix: string) {
    mime.Some? && StartsWith(mime.value, prefix)
  }

  /** The route of a MIME type (`None` when the type could not be guessed),
      or the error message. */
  function Dispatch(mime: Option<string>): (r: Result<Route, string>)
    ensures r == Success(PdfRoute) <==> mime == Some("application/pdf")
    ensures r.Success? && r.value.AudioRoute? <==> HasPrefix(mime, "audio/")
    ensures r.Success? && r.value.AudioRoute? ==> r.value.mimeType == mime.value
    ensures r == Success(VideoRoute) <==> HasPrefix(mime, "video/")
    ensures r == Success(TextRoute) <==> HasPrefix(mime, "text/")
    ensures r == Success(ImageRoute) <==> HasPrefix(mime, "image/")
    ensures r.Failure? <==> mime != Some("application/pdf") && !HasPrefix(mime, "audio/") && !HasPrefix(mime, "video/")
                            && !HasPrefix(mime, "text/") && !HasPrefix(mime, "image/")
    ensures r.Failure? ==> r.error == "Unsupported file type: " + (if mime.None? then "None" else mime.value)
  {
    PrefixesDisjoint(mime);
    if mime == Some("application/pdf") then Success(PdfRoute)
    else if mime == Some("audio/mpeg") || mime == Some("audio/mp3") || HasPrefix(mime, "audio/") then Success(AudioRoute(mime.value))
    else if HasPrefix(mime, "video/") then Success(VideoRoute)
    else if HasPrefix(mime, "text/") then Success(TextRoute)
    else if HasPrefix(mime, "image/") then Success(ImageRoute)
    else Failure("Unsupported file type: " + (if mime.None? then "None" else mime.value))
  }

  /** The five families are told apart by their first letters, so at most one
      matches and the order of the tests never decides. */
  lemma PrefixesDisjoint(mime: Option<string>)
    ensures mime == Some("application/pdf") ==> !HasPrefix(mime, "audio/") && !HasPrefix(mime, "video/")
                                                && !HasPrefix(mime, "text/") && !HasPrefix(mime, "image/")
    ensures HasPrefix(mime, "audio/") ==> !HasPrefix(mime, "video/") && !HasPrefix(mime, "text/") && !HasPrefix(mime, "image/")
    ensures HasPrefix(mime, "video/") ==> !HasPrefix(mime, "text/") && !HasPrefix(mime, "image/")
    ensures HasPrefix(mime, "text/") ==> !HasPrefix(mime, "image/")
  {
    if mime.Some? && |mime.value| > 0 {
      var c := mime.value[0];
      assert HasPrefix(mime, "audio/") ==> c == 'a';
      assert HasPrefix(mime, "video/") ==> c == 'v';
      assert HasPrefix(mime, "text/") ==> c == 't';
      assert HasPrefix(mime, "image/") ==> c == 'i';
      assert mime == Some("application/pdf") ==> c == 'a' && mime.value[1] == 'p';
      assert HasPrefix(mime, "audio/") ==> mime.value[1] == 'u';
    }
  }

  /** The explicit `audio/mpeg` and `audio/mp3` entries are already covered
      by the `audio/` prefix test. */
  lemma AudioListRedundant(mime: Option<string>)
    requires mime == Some("audio/mpeg") || mime == Some("audio/mp3")
    ensures HasPrefix(mime, "audio/")
  {
    assert mime.value[..6] == "audio/";
  }

  /** The text of a file, with the extractors as parameters. A video goes to
      the audio extractor with the fixed type `audio/mp4`. */
  function ProcessFile<C>(mime: Option<string>, content: C,
                          pdf: C -> string, audio: (C, string) -> string,
                          utf8: C -> string, ocr: C -> string): (r: Result<string, string>)
    ensures r.Failure? <==> Dispatch(mime).Failure?
    ensures Dispatch(mime) == Success(PdfRoute) ==> r == Success(pdf(content))
    ensures Dispatch(mime) == Success(VideoRoute) ==> r == Success(audio(content, "audio/mp4"))
    ensures Dispatch(mime) == Success(TextRoute) ==> r == Success(utf8(content))
    ensures Dispatch(mime) == Success(ImageRoute) ==> r == Success(ProcessImage(ocr(content)))
    ensures HasPrefix(mime, "audio/") ==> r == Success(audio(content, mime.value))
  {
    match Dispatch(mime)
    case Failure(e) => Failure(e)
    case Success(PdfRoute) => Success(pdf(content))
    case Success(AudioRoute(m)) => Success(audio(content, m))
    case Success(VideoRoute) => Success(audio(content, "audio/mp4"))
    case Success(TextRoute) => Success(utf8(content))
    case Success(ImageRoute) => Success(ProcessImage(ocr(content)))
  }

  const NoImageText := "No text could be extracted from the image"

  /** `process_image` after OCR: the recognised text, or a fixed message when
      it is blank. */
  function ProcessImage(text: string): (r: string)
    ensures Strip(text) != "" ==> r == text
    ensures Strip(text) == "" ==> r == NoImageText
    ensures Strip(r) != ""
  {
    if Strip(text) != "" then text
    else
      StripTrimmed(NoImageText);
      NoImageText
  }
}

=== FILE: fixture.dfy ===
/** The durations of the bundled sample document (five-second intro, scenes
    of 10, 8, 8, 8 and 8 seconds, five-second outro) as a test vector for
    the layout and the frame total. Only the durations matter here, so the
    text fields are left empty. */
module Fixture {
  import opened Wrappers
  import opened VideoTypes
  import opened Frames
  import Layout

  function SampleSegment(seconds: int): Segment {
    Segment(Some(seconds), Content(None, None), "", None, TextStyle(NoStyle, NoStyle))
  }

  function SampleScene(seconds: int): Scene {
    Scene(None, None, None, Some(seconds), None, None, SceneStyle(None, None, None))
  }

  const Sample := VideoData("", "#1e293b", "white", "Courier New, monospace",
    SampleSegment(5),
    [SampleScene(10), SampleScene(8), SampleScene(8), SampleScene(8), SampleScene(8)],
    SampleSegment(5))

  /** At any frame rate `f` the scenes start at 5f, 15f, 23f, 31f and 39f,
      the outro at 47f, and the video ends at 52f, which is also the frame
      total. */
  lemma SampleLayout(f: int)
    ensures Resolved(Sample)
    ensures var t := Layout.Layout(Sample, f);
      && t.intro == Layout.Interval(0, 5 * f)
      && |t.scenes| == 5
      && t.scenes[0] == Layout.Interval(5 * f, 10 * f)
      && t.scenes[1] == Layout.Interval(15 * f, 8 * f)
      && t.scenes[2] == Layout.Interval(23 * f, 8 * f)
      && t.scenes[3] == Layout.Interval(31 * f, 8 * f)
      && t.scenes[4] == Layout.Interval(39 * f, 8 * f)
      && t.outro == Layout.Interval(47 * f, 5 * f)
      && t.outro.End() == 52 * f
    ensures f * (Seconds(Sample.intro.durationInSeconds) + SumSeconds(Sample.scenes)
                 + Seconds(Sample.outro.durationInSeconds)) == 52 * f
  {
    var s := Sample.scenes;
    forall k | 0 <= k <= 5
      ensures SumFrames(s[..k], f) == f * [0, 10, 18, 26, 34, 42][k]
    {
      SamplePrefix(k);
      SumFramesScale(s[..k], f);
    }
    assert s[..5] == s;
  }

  /** The summed seconds of the first `k` sample scenes. */
  lemma {:induction false} SamplePrefix(k: nat)
    requires k <= 5
    ensures SumSeconds(Sample.scenes[..k]) == [0, 10, 18, 26, 34, 42][k]
  {
    var s := Sample.scenes;
    if k == 0 {
      assert s[..0] == [];
    } else {
      SamplePrefix(k - 1);
      assert s[..k] == s[..k - 1] + [s[k - 1]];
      SumSecondsAppend(s[..k - 1], s[k - 1]);
    }
  }
}

=== FILE: form_component.dfy ===
/** The upload form of the `src/components` front end: files and a URL may
    both be given, a content type names which were given, and everything
    goes to `/multiformat/upload` in one multipart request. */
module FormComponent {
  import opened Wrappers
  import opened Text
  import opened Uploads

  /** The content type of a submission; `"text"` is the initial value,
      which the branches overwrite whenever something is sent. */
  function ContentType(files: seq<File>, url: string): (t: string)
    ensures url != "" && |files| > 0 ==> t == "multiformat"
    ensures url == "" && |files| > 0 ==> t == "file"
    ensures url != "" && |files| == 0 ==> t == "url"
    ensures url == "" && |files| == 0 ==> t == "text"
  {
    if url != "" && |files| > 0 then "multiformat"
    else if url == "" && |files| > 0 then "file"
    else if url != "" then "url"
    else "text"
  }

  /** The key of the `i`-th file: `files[i]`. */
  function FileKey(i: nat): string {
    "files[" + Decimal(i) + "]"
  }

  /** Different positions get different keys. */
  lemma FileKeysDistinct(i: nat, j: nat)
    requires i != j
    ensures FileKey(i) != FileKey(j)
  {
    if FileKey(i) == FileKey(j) {
      var di, dj := Decimal(i), Decimal(j);
      assert |di| == |dj|;
      assert di == FileKey(i)[6..6 + |di|];
      assert dj == FileKey(j)[6..6 + |dj|];
      ParseDecimalOfDecimal(i);
      ParseDecimalOfDecimal(j);
    }
  }

  /** `handleSubmit` up to the POST: nothing unless files or a URL are
      given; otherwise the URL (possibly empty), the content type, then each
      file under its own key. */
  function SubmitRequest(files: seq<File>, url: string): (r: Option<Request>)
    ensures r.Some? <==> |files| > 0 || url != ""
    ensures r.Some? ==> r.value.endpoint == "/multiformat/upload"
    ensures r.Some? ==> |r.value.fields| == 2 + |files|
    ensures r.Some? ==> r.value.fields[0] == TextField("url", url)
    ensures r.Some? ==> r.value.fields[1] == TextField("contentType", ContentType(files, url))
    ensures r.Some? ==> forall i :: 0 <= i < |files| ==> r.value.fields[2 + i] == FileField(FileKey(i), files[i])
  {
    if |files| > 0 || url != "" then
      var fileFields := seq(|files|, i requires 0 <= i < |files| => FileField(FileKey(i), files[i]));
      Some(Request("/multiformat/upload", [TextField("url", url), TextField("contentType", ContentType(files, url))] + fileFields))
    else None
  }

  /** A request that is sent never carries the `"text"` content type. */
  lemma SentTypeIsNeverText(files: seq<File>, url: string)
    requires SubmitRequest(files, url).Some?
    ensures SubmitRequest(files, url).value.fields[1].text in {"multiformat", "file", "url"}
  {
  }

  /** `removeFile(k)`: only the file list changes. */
  function RemoveFile(files: seq<File>, k: int): (r: seq<File>)
    ensures 0 <= k < |files| ==> r == files[..k] + files[k + 1..]
    ensures !(0 <= k < |files|) ==> r == files
  {
    RemoveAtSpec(files, k);
    RemoveAt(files, k)
  }
}

=== FILE: frames.dfy ===
/** The total length of a video in frames, as the utility computes it from a
    document: every truthy duration (present and non-zero) of the intro, each
    scene and the outro, multiplied by the frame rate, with no rounding. */
module Frames {
  import opened Wrappers
  import opened VideoTypes

  /** The seconds a duration field contributes: its value when truthy, else
      nothing (a missing field and `0` are both falsy). */
  function Seconds(d: Option<int>): int {
    if d.Some? && d.value != 0 then d.value else 0
  }

  /** A present duration always contributes exactly its value. */
  lemma SecondsOfPresent(d: Option<int>)
    requires d.Some?
    ensures Seconds(d) == d.value
  {
  }

  /** Sum of the scenes' truthy durations, in seconds. */
  function SumSeconds(scenes: seq<Scene>): int {
    if |scenes| == 0 then 0 else Seconds(scenes[0].durationInSeconds) + SumSeconds(scenes[1..])
  }

  /** Sum of each scene's `durationInSeconds * fps`, added one scene at a time. */
  function SumFrames(scenes: seq<Scene>, fps: int): int {
    if |scenes| == 0 then 0 else Seconds(scenes[0].durationInSeconds) * fps + SumFrames(scenes[1..], fps)
  }

  /** Adding per-scene frame counts equals scaling the summed seconds. */
  lemma {:induction false} SumFramesScale(scenes: seq<Scene>, fps: int)
    ensures SumFrames(scenes, fps) == fps * SumSeconds(scenes)
  {
    if |scenes| > 0 {
      SumFramesScale(scenes[1..], fps);
      var d := Seconds(scenes[0].durationInSeconds);
      assert fps * (d + SumSeconds(scenes[1..])) == fps * d + fps * SumSeconds(scenes[1..]);
    }
  }

  /** Appending a scene adds exactly its truthy duration. */
  lemma {:induction false} SumSecondsAppend(scenes: seq<Scene>, s: Scene)
    ensures SumSeconds(scenes + [s]) == SumSeconds(scenes) + Seconds(s.durationInSeconds)
  {
    if |scenes| == 0 {
      assert scenes + [s] == [s];
    } else {
      assert (scenes + [s])[1..] == scenes[1..] + [s];
      SumSecondsAppend(scenes[1..], s);
    }
  }

  /** Taking one scene out of the list removes exactly its duration. */
  lemma {:induction false} SumSecondsRemove(scenes: seq<Scene>, i: nat)
    requires i < |scenes|
    ensures SumSeconds(scenes) == Seconds(scenes[i].durationInSeconds) + SumSeconds(scenes[..i] + scenes[i + 1..])
  {
    if i == 0 {
      assert scenes[..0] + scenes[1..] == scenes[1..];
    } else {
      var tail := scenes[1..];
      SumSecondsRemove(tail, i - 1);
      assert scenes[..i] + scenes[i + 1..] == [scenes[0]] + (tail[..i - 1] + tail[i..]);
      assert ([scenes[0]] + (tail[..i - 1] + tail[i..]))[1..] == tail[..i - 1] + tail[i..];
    }
  }

  /** Reordering the scenes leaves the summed duration unchanged. */
  lemma {:induction false} SumSecondsPermutation(a: seq<Scene>, b: seq<Scene>)
    requires multiset(a) == multiset(b)
    ensures SumSeconds(a) == SumSeconds(b)
    decreases |a|
  {
    if |a| > 0 {
      assert a[0] in multiset(b);
      var i :| 0 <= i < |b| && b[i] == a[0];
      RestIsPermutation(a, b, i);
      SumSecondsPermutation(a[1..], b[..i] + b[i + 1..]);
      SumSecondsRemove(b, i);
    } else {
      assert |b| == |multiset(b)| == 0;
    }
  }

  /** Matching the head of one list with an element of its permutation
      leaves two permutations of each other. */
  lemma RestIsPermutation<T>(a: seq<T>, b: seq<T>, i: nat)
    requires multiset(a) == multiset(b) && |a| > 0 && i < |b| && b[i] == a[0]
    ensures multiset(a[1..]) == multiset(b[..i] + b[i + 1..])
  {
    assert b == b[..i] + [b[i]] + b[i + 1..];
    assert a == [a[0]] + a[1..];
    assert multiset(b[..i] + b[i + 1..]) == multiset(b) - multiset{b[i]};
    assert multiset(a[1..]) == multiset(a) - multiset{a[0]};
  }

  /** `calculateTotalVideoLengthInFrames(doc, fps)`: a running total that adds
      each truthy duration times `fps`. */
  method TotalVideoLengthInFrames(doc: VideoData, fps: int) returns (total: int)
    ensures total == fps * (Seconds(doc.intro.durationInSeconds) + SumSeconds(doc.scenes) + Seconds(doc.outro.durationInSeconds))
  {
    total := 0;
    if doc.intro.durationInSeconds.Some? && doc.intro.durationInSeconds.value != 0 {
      total := total + doc.intro.durationInSeconds.value * fps;
    }
    var introFrames := total;
    assert introFrames == Seconds(doc.intro.durationInSeconds) * fps;
    var i := 0;
    while i < |doc.scenes|
      invariant 0 <= i <= |doc.scenes|
      invariant total == introFrames + fps * SumSeconds(doc.scenes[..i])
    {
      var scene := doc.scenes[i];
      assert doc.scenes[..i + 1] == doc.scenes[..i] + [scene];
      SumSecondsAppend(doc.scenes[..i], scene);
      var before := total;
      if scene.durationInSeconds.Some? && scene.durationInSeconds.value != 0 {
        total := total + scene.durationInSeconds.value * fps;
      }
      assert total == before + Seconds(scene.durationInSeconds) * fps;
      ScaleSum(fps, SumSeconds(doc.scenes[..i]), Seconds(scene.durationInSeconds));
      i := i + 1;
    }
    assert doc.scenes[..i] == doc.scenes;
    var before := total;
    if doc.outro.durationInSeconds.Some? && doc.outro.durationInSeconds.value != 0 {
      total := total + doc.outro.durationInSeconds.value * fps;
    }
    assert total == before + Seconds(doc.outro.durationInSeconds) * fps;
    ScaleSum3(fps, Seconds(doc.intro.durationInSeconds), SumSeconds(doc.scenes), Seconds(doc.outro.durationInSeconds));
  }

  /** Arithmetic helper for the loop above: one more scene's frames. */
  lemma ScaleSum(fps: int, a: int, b: int)
    ensures fps * (a + b) == fps * a + b * fps
  {
  }

  /** Arithmetic helper for the loop above: the three parts together. */
  lemma ScaleSum3(fps: int, a: int, b: int, c: int)
    ensures fps * (a + b + c) == a * fps + fps * b + c * fps
  {
  }


  /** Appending a scene with a truthy duration `d` raises the total by `d * fps`. */
  lemma AppendSceneRaisesTotal(doc: VideoData, s: Scene, fps: int)
    requires Seconds(s.durationInSeconds) != 0
    ensures var d := s.durationInSeconds.value;
            var before := Seconds(doc.intro.durationInSeconds) + SumSeconds(doc.scenes) + Seconds(doc.outro.durationInSeconds);
            var after := Seconds(doc.intro.durationInSeconds) + SumSeconds(doc.scenes + [s]) + Seconds(doc.outro.durationInSeconds);
            fps * after == fps * before + d * fps
  {
    SumSecondsAppend(doc.scenes, s);
  }
}

=== FILE: layout.dfy ===
/** Laying a document out on the frame axis, as the video component does with
    a running cursor: the intro starts at frame 0, each scene starts where the
    previous segment ends, and the outro follows the last scene. Each length
    is the plain product `durationInSeconds * fps`. */
module Layout {
  import opened VideoTypes
  import opened Frames

  /** A segment's position: first frame and number of frames. */
  datatype Interval = Interval(start: int, length: int) {
    function End(): int { start + length }
  }

  datatype Timeline = Timeline(intro: Interval, scenes: seq<Interval>, outro: Interval)

  /** Segments follow each other without gap or overlap, starting at 0. */
  predicate Contiguous(t: Timeline) {
    && t.intro.start == 0
    && (|t.scenes| == 0 ==> t.outro.start == t.intro.End())
    && (|t.scenes| > 0 ==> t.scenes[0].start == t.intro.End() && t.outro.start == t.scenes[|t.scenes| - 1].End())
    && forall i :: 0 <= i < |t.scenes| - 1 ==> t.scenes[i + 1].start == t.scenes[i].End()
  }

  function IntroFrames(doc: VideoData, fps: int): int
    requires Resolved(doc)
  {
    doc.intro.durationInSeconds.value * fps
  }

  /** Scene `i`: it starts after the intro and all earlier scenes. */
  function SceneInterval(doc: VideoData, fps: int, i: nat): Interval
    requires Resolved(doc) && i < |doc.scenes|
  {
    Interval(IntroFrames(doc, fps) + SumFrames(doc.scenes[..i], fps), doc.scenes[i].durationInSeconds.value * fps)
  }

  /** The layout in closed form. */
  function Layout(doc: VideoData, fps: int): Timeline
    requires Resolved(doc)
  {
    Timeline(
      Interval(0, IntroFrames(doc, fps)),
      seq(|doc.scenes|, i requires 0 <= i < |doc.scenes| => SceneInterval(doc, fps, i)),
      Interval(IntroFrames(doc, fps) + SumFrames(doc.scenes, fps), doc.outro.durationInSeconds.value * fps))
  }

  /** The frames of a prefix of the scenes grow by one scene at a time. */
  lemma {:induction false} SumFramesAppend(scenes: seq<Scene>, s: Scene, fps: int)
    ensures SumFrames(scenes + [s], fps) == SumFrames(scenes, fps) + Seconds(s.durationInSeconds) * fps
  {
    if |scenes| == 0 {
      assert scenes + [s] == [s];
    } else {
      assert (scenes + [s])[1..] == scenes[1..] + [s];
      SumFramesAppend(scenes[1..], s, fps);
    }
  }

  /** The video component's running cursor computes the closed-form layout. */
  method ComputeTimes(doc: VideoData, fps: int) returns (t: Timeline)
    requires Resolved(doc)
    ensures t == Layout(doc, fps)
  {
    var currentFrame := 0;
    var introDuration := doc.intro.durationInSeconds.value * fps;
    currentFrame := currentFrame + introDuration;
    var sceneTimes: seq<Interval> := [];
    var i := 0;
    while i < |doc.scenes|
      invariant 0 <= i <= |doc.scenes|
      invariant |sceneTimes| == i
      invariant currentFrame == introDuration + SumFrames(doc.scenes[..i], fps)
      invariant forall j :: 0 <= j < i ==> sceneTimes[j] == SceneInterval(doc, fps, j)
    {
      var scene := doc.scenes[i];
      var start := currentFrame;
      var duration := scene.durationInSeconds.value * fps;
      currentFrame := currentFrame + duration;
      sceneTimes := sceneTimes + [Interval(start, duration)];
      assert doc.scenes[..i + 1] == doc.scenes[..i] + [scene];
      SumFramesAppend(doc.scenes[..i], scene, fps);
      i := i + 1;
    }
    assert doc.scenes[..i] == doc.scenes;
    var outroStart := currentFrame;
    var outroDuration := doc.outro.durationInSeconds.value * fps;
    t := Timeline(Interval(0, introDuration), sceneTimes, Interval(outroStart, outroDuration));
  }

  /** The laid-out segments are contiguous, for any number of scenes. */
  lemma LayoutContiguous(doc: VideoData, fps: int)
    requires Resolved(doc)
    ensures Contiguous(Layout(doc, fps))
  {
    var t := Layout(doc, fps);
    var n := |doc.scenes|;
    forall i | 0 <= i < n - 1
      ensures t.scenes[i + 1].start == t.scenes[i].End()
    {
      assert doc.scenes[..i + 1] == doc.scenes[..i] + [doc.scenes[i]];
      SumFramesAppend(doc.scenes[..i], doc.scenes[i], fps);
    }
    if n > 0 {
      assert doc.scenes[..0] == [];
      assert doc.scenes == doc.scenes[..n - 1] + [doc.scenes[n - 1]];
      SumFramesAppend(doc.scenes[..n - 1], doc.scenes[n - 1], fps);
    }
  }

  /** The outro ends at `fps * (intro + scenes + outro)`, which is the
      utility's total for the same document. */
  lemma LayoutEndIsTotal(doc: VideoData, fps: int)
    requires Resolved(doc)
    ensures Layout(doc, fps).outro.End()
         == fps * (doc.intro.durationInSeconds.value + SumSeconds(doc.scenes) + doc.outro.durationInSeconds.value)
    ensures Layout(doc, fps).outro.End()
         == fps * (Seconds(doc.intro.durationInSeconds) + SumSeconds(doc.scenes) + Seconds(doc.outro.durationInSeconds))
  {
    SumFramesScale(doc.scenes, fps);
    var a := doc.intro.durationInSeconds.value;
    var c := doc.outro.durationInSeconds.value;
    assert fps * (a + SumSeconds(doc.scenes) + c) == a * fps + fps * SumSeconds(doc.scenes) + c * fps;
  }

  /** With a positive frame rate and positive durations every frame before
      the end lies in exactly one segment. */
  lemma {:induction false} FrameInExactlyOneSegment(doc: VideoData, fps: int, frame: int)
    requires Resolved(doc) && fps > 0
    requires doc.intro.durationInSeconds.value > 0 && doc.outro.durationInSeconds.value > 0
    requires forall i :: 0 <= i < |doc.scenes| ==> doc.scenes[i].durationInSeconds.value > 0
    requires 0 <= frame < Layout(doc, fps).outro.End()
    ensures var t := Layout(doc, fps);
      |Covering(t, frame)| == 1
  {
    var t := Layout(doc, fps);
    LayoutContiguous(doc, fps);
    forall i | 0 <= i < |t.scenes|
      ensures t.scenes[i].length > 0
    {
      PositiveProduct(doc.scenes[i].durationInSeconds.value, fps);
    }
    PositiveProduct(doc.intro.durationInSeconds.value, fps);
    PositiveProduct(doc.outro.durationInSeconds.value, fps);
    CoveringOfContiguous(t, frame);
  }

  /** Arithmetic helper: a scene of positive seconds at a positive frame
      rate has positive length. */
  lemma PositiveProduct(a: int, b: int)
    requires a > 0 && b > 0
    ensures a * b > 0
  {
  }

  /** Indices of the segments whose interval contains `frame`: 0 is the intro,
      `i + 1` is scene `i`, `|scenes| + 1` is the outro. */
  function Covering(t: Timeline, frame: int): set<nat> {
    (if t.intro.start <= frame < t.intro.End() then {0} else {})
    + (set i | 0 <= i < |t.scenes| && t.scenes[i].start <= frame < t.scenes[i].End() :: i + 1)
    + (if t.outro.start <= frame < t.outro.End() then {|t.scenes| + 1} else {})
  }

  /** Contiguous intervals of positive length partition `[0, end)`. */
  lemma CoveringOfContiguous(t: Timeline, frame: int)
    requires Contiguous(t)
    requires t.intro.length > 0 && t.outro.length > 0
    requires forall i :: 0 <= i < |t.scenes| ==> t.scenes[i].length > 0
    requires 0 <= frame < t.outro.End()
    ensures |Covering(t, frame)| == 1
  {
    var n := |t.scenes|;
    StartsIncrease(t);
    if frame < t.intro.End() {
      CoveringIs(t, frame, 0);
    } else if frame >= t.outro.start {
      CoveringIs(t, frame, n + 1);
    } else {
      var k := LastStartAtOrBefore(t, frame);
      InScene(t, frame, k);
      CoveringIs(t, frame, k + 1);
    }
  }

  /** Between the intro and the outro, the frame lies in the last scene that
      starts at or before it, and in no other. */
  lemma InScene(t: Timeline, frame: int, k: nat)
    requires Contiguous(t)
    requires forall i, j :: 0 <= i < j < |t.scenes| ==> t.scenes[i].End() <= t.scenes[j].start
    requires t.intro.End() <= frame < t.outro.start
    requires k < |t.scenes| && t.scenes[k].start <= frame
    requires k + 1 < |t.scenes| ==> frame < t.scenes[k + 1].start
    ensures forall i :: 0 <= i < |t.scenes| ==> ((t.scenes[i].start <= frame < t.scenes[i].End()) <==> i == k)
  {
    var n := |t.scenes|;
    if k + 1 == n {
      assert t.scenes[k].End() == t.outro.start;
    }
    forall i | 0 <= i < n && i != k
      ensures !(t.scenes[i].start <= frame < t.scenes[i].End())
    {
      if i < k {
        assert t.scenes[i].End() <= t.scenes[k].start;
      } else {
        assert t.scenes[k + 1].start <= t.scenes[i].start by {
          if k + 1 < i {
            assert t.scenes[k + 1].End() <= t.scenes[i].start;
          }
        }
      }
    }
  }

  /** The covering set is `{c}` when segment `c` alone holds the frame. */
  lemma CoveringIs(t: Timeline, frame: int, c: nat)
    requires c <= |t.scenes| + 1
    requires (t.intro.start <= frame < t.intro.End()) <==> c == 0
    requires (t.outro.start <= frame < t.outro.End()) <==> c == |t.scenes| + 1
    requires forall i :: 0 <= i < |t.scenes| ==> ((t.scenes[i].start <= frame < t.scenes[i].End()) <==> c == i + 1)
    ensures Covering(t, frame) == {c}
  {
    forall x | x in Covering(t, frame)
      ensures x == c
    {
    }
    if 1 <= c <= |t.scenes| {
      assert t.scenes[c - 1].start <= frame < t.scenes[c - 1].End();
    }
    assert c in Covering(t, frame);
  }

  /** In a contiguous timeline, later scenes start no earlier than earlier
      scenes end. */
  lemma StartsIncrease(t: Timeline)
    requires Contiguous(t)
    requires forall i :: 0 <= i < |t.scenes| ==> t.scenes[i].length > 0
    ensures forall i, j :: 0 <= i < j < |t.scenes| ==> t.scenes[i].End() <= t.scenes[j].start
    ensures forall i :: 0 <= i < |t.scenes| ==> t.intro.End() <= t.scenes[i].start && t.scenes[i].End() <= t.outro.start
  {
    var n := |t.scenes|;
    forall i, j | 0 <= i < j < n
      ensures t.scenes[i].End() <= t.scenes[j].start
    {
      var k := i + 1;
      while k < j
        invariant i + 1 <= k <= j
        invariant t.scenes[i].End() <= t.scenes[k].start
      {
        k := k + 1;
      }
    }
    forall i | 0 <= i < n
      ensures t.intro.End() <= t.scenes[i].start && t.scenes[i].End() <= t.outro.start
    {
      if i > 0 {
        assert t.scenes[0].End() <= t.scenes[i].start;
      }
      if i < n - 1 {
        assert t.scenes[i].End() <= t.scenes[n - 1].start;
      }
    }
  }

  /** The last scene that starts at or before `frame`. */
  lemma LastStartAtOrBefore(t: Timeline, frame: int) returns (k: nat)
    requires |t.scenes| > 0 && t.scenes[0].start <= frame
    ensures k < |t.scenes| && t.scenes[k].start <= frame
    ensures k + 1 < |t.scenes| ==> frame < t.scenes[k + 1].start
  {
    k := 0;
    while k + 1 < |t.scenes| && t.scenes[k + 1].start <= frame
      invariant k < |t.scenes| && t.scenes[k].start <= frame
    {
      k := k + 1;
    }
  }
}

=== FILE: multi_modal_form.dfy ===
/** The multi-modal form of the `components` front end: a file tab and a URL
    tab, a preview per selected file, and a Submit button that posts either
    the files to `/multiformat/submit` or the URL to `/multiformat/upload`,
    depending on the tab that is open. */
module MultiModalForm {
  import opened Wrappers
  import opened Text
  import opened Uploads

  datatype PreviewKind = ImagePreview | PdfPreview | AudioPreview | VideoPreview | SpreadsheetPreview | PlainFile

  /** A preview; `hasSource` says whether an object URL was made for it. */
  datatype FilePreview = FilePreview(kind: PreviewKind, hasSource: bool)

  const SpreadsheetType := "application/vnd.openxmlformats-officedocument.spreadsheetml.sheet"

  /** `createFilePreview`: the first test that matches decides. */
  function CreateFilePreview(f: File): (p: FilePreview)
    ensures p.kind == ImagePreview <==> StartsWith(f.mimeType, "image/")
    ensures p.kind == PdfPreview <==> f.mimeType == "application/pdf"
    ensures p.kind == AudioPreview <==> f.mimeType == "audio/mpeg"
    ensures p.kind == VideoPreview <==> StartsWith(f.mimeType, "video/")
    ensures p.kind == SpreadsheetPreview <==>
      && !StartsWith(f.mimeType, "image/") && f.mimeType != "application/pdf" && f.mimeType != "audio/mpeg"
      && !StartsWith(f.mimeType, "video/")
      && (f.mimeType == SpreadsheetType || EndsWith(f.name, ".csv"))
    ensures p.hasSource <==> p.kind in {ImagePreview, PdfPreview, AudioPreview, VideoPreview}
  {
    TypesDisjoint(f.mimeType);
    if StartsWith(f.mimeType, "image/") then FilePreview(ImagePreview, true)
    else if f.mimeType == "application/pdf" then FilePreview(PdfPreview, true)
    else if f.mimeType == "audio/mpeg" then FilePreview(AudioPreview, true)
    else if StartsWith(f.mimeType, "video/") then FilePreview(VideoPreview, true)
    else if f.mimeType == SpreadsheetType || EndsWith(f.name, ".csv") then FilePreview(SpreadsheetPreview, false)
    else FilePreview(PlainFile, false)
  }

  /** The exact types and the two prefixes never overlap. */
  lemma TypesDisjoint(t: string)
    ensures StartsWith(t, "image/") ==> !StartsWith(t, "video/") && t != "application/pdf" && t != "audio/mpeg"
    ensures StartsWith(t, "video/") ==> t != "application/pdf" && t != "audio/mpeg"
  {
    assert "application/pdf"[0] == 'a' && "audio/mpeg"[0] == 'a';
    if StartsWith(t, "image/") {
      assert t[0] == 'i';
      assert !StartsWith(t, "video/");
    }
    if StartsWith(t, "video/") {
      assert t[0] == 'v';
    }
  }

  datatype Tab = FileTab | UrlTab

  /** The state the Submit handler reads. */
  datatype Form = Form(tab: Tab, files: seq<File>, url: string, previews: seq<FilePreview>, submitting: bool)

  const Initial := Form(FileTab, [], "", [], false)

  /** The previews are the files' previews, position by position, as the
      effect on the file list recomputes them. */
  predicate PreviewsMatch(form: Form) {
    |form.previews| == |form.files| && forall i :: 0 <= i < |form.files| ==> form.previews[i] == CreateFilePreview(form.files[i])
  }

  /** Adding files, then letting the effect rebuild the previews. */
  function AddAndPreview(form: Form, added: seq<File>): (r: Form)
    ensures |r.files| == |form.files| + |added|
    ensures r.files[..|form.files|] == form.files && r.files[|form.files|..] == added
    ensures PreviewsMatch(r)
  {
    var files := AddFiles(form.files, added);
    form.(files := files, previews := seq(|files|, i requires 0 <= i < |files| => CreateFilePreview(files[i])))
  }

  /** `removeFile(k)` on both lists. */
  function RemoveFile(form: Form, k: int): (r: Form)
    requires PreviewsMatch(form)
    ensures PreviewsMatch(r)
    ensures 0 <= k < |form.files| ==> r.files == form.files[..k] + form.files[k + 1..]
    ensures !(0 <= k < |form.files|) ==> r.files == form.files
  {
    RemoveKeepsPairing(form.files, form.previews, CreateFilePreview, k);
    RemoveAtSpec(form.files, k);
    form.(files := RemoveAt(form.files, k), previews := RemoveAt(form.previews, k))
  }

  /** `handleSubmit` up to the POST: the open tab decides, and an empty input
      on that tab sends nothing. */
  function SubmitRequest(form: Form): (r: Option<Request>)
    ensures r.Some? <==> (form.tab == FileTab && |form.files| > 0) || (form.tab == UrlTab && form.url != "")
    ensures r.Some? && form.tab == FileTab ==>
      && r.value.endpoint == "/multiformat/submit"
      && |r.value.fields| == |form.files|
      && forall i :: 0 <= i < |form.files| ==> r.value.fields[i] == FileField("files", form.files[i])
    ensures r.Some? && form.tab == UrlTab ==>
      r.value == Request("/multiformat/upload", [TextField("url", form.url), TextField("contentType", "url")])
  {
    match form.tab
    case FileTab =>
      if |form.files| > 0 then
        Some(Request("/multiformat/submit", seq(|form.files|, i requires 0 <= i < |form.files| => FileField("files", form.files[i]))))
      else None
    case UrlTab =>
      if form.url != "" then Some(Request("/multiformat/upload", [TextField("url", form.url), TextField("contentType", "url")]))
      else None
  }

  /** The Submit button's `disabled`. */
  predicate SubmitDisabled(form: Form) {
    form.submitting || (|form.files| == 0 && form.url == "")
  }

  /** A request is only ever built behind an enabled button ... */
  lemma RequestNeedsEnabledButton(form: Form)
    requires !form.submitting && SubmitRequest(form).Some?
    ensures !SubmitDisabled(form)
  {
  }

  /** ... but the button looks at both tabs, so it can be enabled while the
      open tab has nothing to send. */
  lemma EnabledButNothingSent()
    ensures var form := Form(UrlTab, [File("notes.txt", "text/plain")], "", [CreateFilePreview(File("notes.txt", "text/plain"))], false);
      !SubmitDisabled(form) && SubmitRequest(form).None?
  {
  }
}

=== FILE: quiz_nav.dfy ===
/** The onboarding quiz: one question at a time, an answer per question kept
    in a map from question index to option index, Previous and Next buttons,
    and at the end either a submission of the prompts and chosen options to
    the summarising endpoint (the `components` copy) or just a summary view
    (the `src/components` copy). Each handler is a pure step; the token
    lookup and the server's answer arrive as event data. */
module QuizNav {
  import opened Wrappers

  datatype Question = Question(prompt: string, options: seq<string>)

  /** `index` is the question shown, `responses` the chosen option per
      question, `error` the message shown above the question. */
  datatype Quiz = Quiz(index: int, responses: map<int, int>, complete: bool, submitting: bool, error: Option<string>)

  const Start := Quiz(0, map[], false, false, None)

  /** How the summarising request ended: a status, or an exception with the
      server's `detail`, if any. */
  datatype Outcome = Status(code: int) | Thrown(detail: Option<string>)

  datatype Event =
    | Select(question: int, option: int)
    | Next(token: Option<string>)
    | Previous
    | Responded(outcome: Outcome)

  /** The body and bearer token of the request to `/quiz/summarize`. An
      unanswered question sends `null` as its answer. */
  datatype Request = Summarize(questions: seq<string>, answers: seq<Option<string>>, token: string)

  const NoTokenMessage := "Authentication token not found. Please log in again."
  const FailedMessage := "Failed to submit responses. Please try again."
  const UnexpectedMessage := "An unexpected error occurred. Please try again."

  predicate Truthy(s: Option<string>) {
    s.Some? && s.value != ""
  }

  function Max(a: int, b: int): int {
    if a >= b then a else b
  }

  predicate Answered(q: Quiz, i: int) {
    i in q.responses
  }

  /** The option text chosen for question `i`, if it names one. */
  function Answer(questions: seq<Question>, responses: map<int, int>, i: nat): (a: Option<string>)
    requires i < |questions|
    ensures a.Some? <==> i in responses && 0 <= responses[i] < |questions[i].options|
    ensures a.Some? ==> a.value == questions[i].options[responses[i]]
  {
    if i in responses && 0 <= responses[i] < |questions[i].options| then Some(questions[i].options[responses[i]])
    else None
  }

  function SubmitRequest(questions: seq<Question>, responses: map<int, int>, token: string): (r: Request)
    ensures |r.questions| == |r.answers| == |questions|
    ensures forall i :: 0 <= i < |questions| ==>
      r.questions[i] == questions[i].prompt && r.answers[i] == Answer(questions, responses, i)
    ensures r.token == token
  {
    Summarize(seq(|questions|, i requires 0 <= i < |questions| => questions[i].prompt),
              seq(|questions|, i requires 0 <= i < |questions| => Answer(questions, responses, i)),
              token)
  }

  /** `handleAnswerSelect`: the entry of one question is set or replaced. */
  function SelectAnswer(q: Quiz, question: int, option: int): (r: Quiz)
    ensures question in r.responses && r.responses[question] == option
    ensures forall k :: k != question ==> (k in r.responses <==> k in q.responses)
    ensures forall k :: k != question && k in q.responses ==> r.responses[k] == q.responses[k]
    ensures r.index == q.index && r.complete == q.complete && r.submitting == q.submitting && r.error == q.error
  {
    q.(responses := q.responses[question := option])
  }

  /** `handlePreviousQuestion`. */
  function PreviousQuestion(q: Quiz): (r: Quiz)
    ensures q.index >= 1 ==> r.index == q.index - 1
    ensures q.index <= 0 ==> r.index == 0
    ensures r.responses == q.responses && r.complete == q.complete && r.submitting == q.submitting
  {
    q.(index := Max(q.index - 1, 0))
  }

  /** `handleNextQuestion` and `submitQuizResponses` up to the request. */
  function Step(q: Quiz, e: Event, questions: seq<Question>): (r: (Quiz, Option<Request>))
    ensures e.Next? && !Answered(q, q.index) ==> r == (q, None)
    ensures e.Next? && Answered(q, q.index) && q.index < |questions| - 1 ==>
      r == (q.(index := q.index + 1), None)
    ensures e.Next? && Answered(q, q.index) && q.index >= |questions| - 1 && !Truthy(e.token) ==>
      r == (q.(submitting := false, error := Some(NoTokenMessage)), None)
    ensures e.Next? && Answered(q, q.index) && q.index >= |questions| - 1 && Truthy(e.token) ==>
      r == (q.(submitting := true, error := None), Some(SubmitRequest(questions, q.responses, e.token.value)))
    ensures r.1.Some? ==> e.Next? && Truthy(e.token) && q.index >= |questions| - 1
    ensures e.Responded? ==> r.1 == None && !r.0.submitting
    ensures e.Responded? ==> (r.0.complete <==> q.complete || e.outcome == Status(200))
    ensures e.Responded? && e.outcome.Status? && e.outcome.code != 200 ==> r.0.error == Some(FailedMessage)
    ensures e.Responded? && e.outcome.Thrown? ==>
      r.0.error == Some(if Truthy(e.outcome.detail) then e.outcome.detail.value else UnexpectedMessage)
    ensures e.Responded? ==> r.0 == q.(complete := r.0.complete, submitting := false, error := r.0.error)
    ensures e.Responded? && e.outcome == Status(200) ==> r.0 == q.(complete := true, submitting := false)
    ensures e.Select? ==> r == (SelectAnswer(q, e.question, e.option), None)
    ensures e.Previous? ==> r == (PreviousQuestion(q), None)
  {
    match e
    case Select(i, a) => (SelectAnswer(q, i, a), None)
    case Previous => (PreviousQuestion(q), None)
    case Next(token) =>
      if !Answered(q, q.index) then (q, None)
      else if q.index < |questions| - 1 then (q.(index := q.index + 1), None)
      else if !Truthy(token) then (q.(submitting := false, error := Some(NoTokenMessage)), None)
      else (q.(submitting := true, error := None), Some(SubmitRequest(questions, q.responses, token.value)))
    case Responded(Status(code)) =>
      if code == 200 then (q.(complete := true, submitting := false), None)
      else (q.(error := Some(FailedMessage), submitting := false), None)
    case Responded(Thrown(detail)) =>
      (q.(error := Some(if Truthy(detail) then detail.value else UnexpectedMessage), submitting := false), None)
  }

  /** `handleNextQuestion` of the `src/components` copy: the last question
      completes the quiz and nothing is sent. */
  function LocalStep(q: Quiz, e: Event, questionCount: nat): (r: Quiz)
    ensures e.Next? && Answered(q, q.index) && q.index >= questionCount - 1 ==> r == q.(complete := true)
    ensures e.Next? && Answered(q, q.index) && q.index < questionCount - 1 ==> r == q.(index := q.index + 1)
    ensures e.Next? && !Answered(q, q.index) ==> r == q
    ensures r.complete ==> q.complete || (e.Next? && Answered(q, q.index))
    ensures !q.submitting ==> !r.submitting && r.error == q.error
  {
    match e
    case Select(i, a) => SelectAnswer(q, i, a)
    case Previous => PreviousQuestion(q)
    case Next(_) =>
      if !Answered(q, q.index) then q
      else if q.index < questionCount - 1 then q.(index := q.index + 1)
      else q.(complete := true)
    case Responded(_) => q
  }

  /** What the buttons allow: options of the shown question; Next once it
      is answered; Previous from the second question on; neither while a
      submission is pending; nothing once complete. */
  predicate Enabled(q: Quiz, e: Event, questions: seq<Question>) {
    && !q.complete
    && 0 <= q.index < |questions|
    && match e
       case Select(i, a) => i == q.index && 0 <= a < |questions[i].options|
       case Next(_) => Answered(q, q.index) && !q.submitting
       case Previous => q.index != 0 && !q.submitting
       case Responded(_) => q.submitting
  }

  predicate LocalEnabled(q: Quiz, e: Event, questions: seq<Question>) {
    && !q.complete
    && 0 <= q.index < |questions|
    && match e
       case Select(i, a) => i == q.index && 0 <= a < |questions[i].options|
       case Next(_) => Answered(q, q.index)
       case Previous => q.index != 0
       case Responded(_) => false
  }

  predicate AllAnswered(q: Quiz, n: nat) {
    forall i :: 0 <= i < n ==> i in q.responses
  }

  /** The index stays on a question, every answer names an option of its
      question, the questions before the current one are answered, and a
      pending or finished submission had every question answered. */
  predicate Inv(q: Quiz, questions: seq<Question>) {
    && |questions| > 0
    && 0 <= q.index < |questions|
    && (forall k :: k in q.responses ==> 0 <= k < |questions| && 0 <= q.responses[k] < |questions[k].options|)
    && (forall i :: 0 <= i < q.index ==> i in q.responses)
    && (q.submitting ==> q.index == |questions| - 1 && AllAnswered(q, |questions|))
    && (q.complete ==> AllAnswered(q, |questions|))
  }

  lemma StartInv(questions: seq<Question>)
    requires |questions| > 0
    ensures Inv(Start, questions)
  {
  }

  lemma StepPreservesInv(q: Quiz, e: Event, questions: seq<Question>)
    requires Inv(q, questions) && Enabled(q, e, questions)
    ensures Inv(Step(q, e, questions).0, questions)
  {
    var r := Step(q, e, questions).0;
    match e
    case Select(i, a) =>
      assert forall k :: k in r.responses ==> k == i || k in q.responses;
    case Next(_) =>
      if q.index == |questions| - 1 {
        assert AllAnswered(q, |questions|) by {
          forall i | 0 <= i < |questions|
            ensures i in q.responses
          {
            if i < q.index {
            }
          }
        }
      }
    case Previous =>
    case Responded(_) =>
  }

  lemma LocalStepPreservesInv(q: Quiz, e: Event, questions: seq<Question>)
    requires Inv(q, questions) && !q.submitting && LocalEnabled(q, e, questions)
    ensures Inv(LocalStep(q, e, |questions|), questions)
    ensures !LocalStep(q, e, |questions|).submitting
  {
    var r := LocalStep(q, e, |questions|);
    match e
    case Select(i, a) =>
      assert forall k :: k in r.responses ==> k == i || k in q.responses;
    case Next(_) =>
      if q.index == |questions| - 1 {
        assert AllAnswered(q, |questions|) by {
          forall i | 0 <= i < |questions|
            ensures i in q.responses
          {
            if i < q.index {
            }
          }
        }
      }
    case Previous =>
    case Responded(_) =>
  }

  /** A request sent from a reachable state carries every prompt with the
      option chosen for it, in question order: no answer is `null`. */
  lemma RequestsCarryAllAnswers(q: Quiz, e: Event, questions: seq<Question>)
    requires Inv(q, questions) && Enabled(q, e, questions)
    requires Step(q, e, questions).1.Some?
    ensures var req := Step(q, e, questions).1.value;
      && |req.questions| == |req.answers| == |questions|
      && forall i :: 0 <= i < |questions| ==>
           req.questions[i] == questions[i].prompt
           && req.answers[i] == Some(questions[i].options[q.responses[i]])
  {
    assert q.index == |questions| - 1;
    assert AllAnswered(q, |questions|) by {
      forall i | 0 <= i < |questions|
        ensures i in q.responses
      {
        if i < q.index {
        }
      }
    }
  }

  /** Without a token nothing is sent, the error is shown and the quiz is
      not pending. */
  lemma NoTokenNoRequest(q: Quiz, token: Option<string>, questions: seq<Question>)
    requires !Truthy(token)
    ensures Step(q, Next(token), questions).1 == None
    ensures Answered(q, q.index) && q.index >= |questions| - 1 ==>
      Step(q, Next(token), questions).0.error == Some(NoTokenMessage)
  {
  }

  /** The quiz completes on a 200 answer and on nothing else. */
  lemma CompleteOnlyOn200(q: Quiz, e: Event, questions: seq<Question>)
    requires !q.complete
    ensures Step(q, e, questions).0.complete <==> e == Responded(Status(200))
  {
  }

  /** The progress bar: `(index + 1) / n * 100`. */
  function Progress(q: Quiz, questionCount: nat): (p: real)
    requires questionCount > 0
  {
    (q.index + 1) as real / questionCount as real * 100.0
  }

  /** On a reachable state the bar is never empty, and is full exactly on
      the last question. */
  lemma ProgressBounds(q: Quiz, questions: seq<Question>)
    requires Inv(q, questions)
    ensures 0.0 < Progress(q, |questions|) <= 100.0
    ensures Progress(q, |questions|) == 100.0 <==> q.index == |questions| - 1
  {
    var n := |questions| as real;
    var k := (q.index + 1) as real;
    assert Progress(q, |questions|) == k / n * 100.0;
    assert 0.0 < k <= n;
    DivBounds(k, n);
  }

  lemma DivBounds(k: real, n: real)
    requires 0.0 < k <= n
    ensures 0.0 < k / n * 100.0 <= 100.0
    ensures k / n * 100.0 == 100.0 <==> k == n
  {
    assert k / n * 100.0 * n == k * 100.0;
  }

  /** The answered questions among `from..n-1`, in increasing order. */
  function AnsweredIndices(responses: map<int, int>, from: nat, n: nat): (ks: seq<nat>)
    ensures forall j :: 0 <= j < |ks| ==> from <= ks[j] < n && ks[j] in responses
    decreases n - from
  {
    if from >= n then []
    else (if from in responses then [from] else []) + AnsweredIndices(responses, from + 1, n)
  }

  /** The listing holds exactly the answered indices in range, each once,
      in increasing order. */
  lemma AnsweredIndicesSpec(responses: map<int, int>, from: nat, n: nat)
    ensures var ks := AnsweredIndices(responses, from, n);
      && (forall j :: 0 <= j < |ks| ==> from <= ks[j] < n && ks[j] in responses)
      && (forall i :: from <= i < n && i in responses ==> i in ks)
      && (forall j, j' :: 0 <= j < j' < |ks| ==> ks[j] < ks[j'])
  {
    AnsweredComplete(responses, from, n);
    AnsweredIncreasing(responses, from, n);
  }

  lemma {:induction false} AnsweredComplete(responses: map<int, int>, from: nat, n: nat)
    ensures forall i :: from <= i < n && i in responses ==> i in AnsweredIndices(responses, from, n)
    decreases n - from
  {
    if from < n {
      AnsweredComplete(responses, from + 1, n);
    }
  }

  lemma {:induction false} AnsweredIncreasing(responses: map<int, int>, from: nat, n: nat)
    ensures forall j, j' :: 0 <= j < j' < |AnsweredIndices(responses, from, n)| ==>
      AnsweredIndices(responses, from, n)[j] < AnsweredIndices(responses, from, n)[j']
    decreases n - from
  {
    if from < n {
      AnsweredIncreasing(responses, from + 1, n);
      var rest := AnsweredIndices(responses, from + 1, n);
      if from in responses {
        var ks := [from] + rest;
        forall j, j' | 0 <= j < j' < |ks|
          ensures ks[j] < ks[j']
        {
          if j > 0 {
            assert ks[j] == rest[j - 1];
          }
          assert ks[j'] == rest[j' - 1];
        }
      }
    }
  }

  /** The summary view of the `src/components` copy: one line per entry of
      the responses, keys in increasing numeric order as a JavaScript object
      enumerates them, each with its prompt and chosen option. */
  function Summary(q: Quiz, questions: seq<Question>): (lines: seq<(string, string)>)
    requires Inv(q, questions)
    ensures |lines| == |AnsweredIndices(q.responses, 0, |questions|)|
    ensures forall j :: 0 <= j < |lines| ==>
      var k := AnsweredIndices(q.responses, 0, |questions|)[j];
      lines[j] == (questions[k].prompt, questions[k].options[q.responses[k]])
  {
    var ks := AnsweredIndices(q.responses, 0, |questions|);
    AnsweredIndicesSpec(q.responses, 0, |questions|);
    seq(|ks|, j requires 0 <= j < |ks| => (questions[ks[j]].prompt, questions[ks[j]].options[q.responses[ks[j]]]))
  }

  /** The summary lists exactly the answered questions, once each. */
  lemma SummaryListsAnswered(q: Quiz, questions: seq<Question>)
    requires Inv(q, questions)
    ensures var ks := AnsweredIndices(q.responses, 0, |questions|);
      forall i :: i in ks <==> i in q.responses
  {
    AnsweredIndicesSpec(q.responses, 0, |questions|);
  }

  /** Finishing the `src/components` copy needs every question answered,
      so its summary then lists them all. */
  lemma LocalCompleteListsAll(q: Quiz, e: Event, questions: seq<Question>)
    requires Inv(q, questions) && !q.submitting && LocalEnabled(q, e, questions)
    requires LocalStep(q, e, |questions|).complete
    ensures |Summary(LocalStep(q, e, |questions|), questions)| == |questions|
  {
    LocalStepPreservesInv(q, e, questions);
    var r := LocalStep(q, e, |questions|);
    AllIndices(r.responses, 0, |questions|);
  }

  /** With every question answered the listing is every index. */
  lemma {:induction false} AllIndices(responses: map<int, int>, from: nat, n: nat)
    requires forall i :: from <= i < n ==> i in responses
    ensures |AnsweredIndices(responses, from, n)| == if from <= n then n - from else 0
    decreases n - from
  {
    if from < n {
      AllIndices(responses, from + 1, n);
      assert AnsweredIndices(responses, from, n) == [from] + AnsweredIndices(responses, from + 1, n);
    }
  }

  /** Which buttons the question view disables, and the label of Next. */
  predicate PreviousDisabled(q: Quiz) {
    q.index == 0 || q.submitting
  }

  predicate NextDisabled(q: Quiz) {
    !Answered(q, q.index) || q.submitting
  }

  /** A button that is not disabled has an enabled event behind it. */
  lemma ButtonsMatchEnabled(q: Quiz, token: Option<string>, questions: seq<Question>)
    requires Inv(q, questions) && !q.complete
    ensures !PreviousDisabled(q) <==> Enabled(q, Previous, questions)
    ensures !NextDisabled(q) <==> Enabled(q, Next(token), questions)
  {
  }
}

=== FILE: quiz_text.dfy ===
/** The text a finished quiz is summarised from: one `Q: ...` / `A: ...`
    block per question that has an answer (the two lists are zipped, so the
    longer one is cut), blocks joined by newlines. */
module QuizText {
  import opened Wrappers
  import opened Text

  function Min(a: nat, b: nat): nat {
    if a <= b then a else b
  }

  function Block(question: string, answer: string): string {
    "Q: " + question + "\nA: " + answer
  }

  /** The zipped pairs as blocks, in input order. */
  function Blocks(questions: seq<string>, answers: seq<string>): (bs: seq<string>)
    ensures |bs| == Min(|questions|, |answers|)
    ensures forall i :: 0 <= i < |bs| ==> bs[i] == Block(questions[i], answers[i])
  {
    seq(Min(|questions|, |answers|), i requires 0 <= i < Min(|questions|, |answers|) => Block(questions[i], answers[i]))
  }

  /** `"\n".join(f"Q: {q}\nA: {a}" for q, a in zip(questions, answers))`. */
  function CombinedText(questions: seq<string>, answers: seq<string>): (text: string)
    ensures text == "" <==> |questions| == 0 || |answers| == 0
  {
    var bs := Blocks(questions, answers);
    if |bs| == 0 then ""
    else
      assert |Join(bs, "\n")| >= |bs[0]|;
      Join(bs, "\n")
  }

  /** The lines of the combined text: a question line, then its answer line. */
  function Lines(questions: seq<string>, answers: seq<string>): (lines: seq<string>)
    ensures |lines| == 2 * Min(|questions|, |answers|)
    decreases |questions|
  {
    if |questions| == 0 || |answers| == 0 then []
    else ["Q: " + questions[0], "A: " + answers[0]] + Lines(questions[1..], answers[1..])
  }

  /** Reading the lines back in pairs; `None` when a pair is missing or does
      not start with the two markers. */
  function Unzip(lines: seq<string>): (r: Option<(seq<string>, seq<string>)>)
    ensures r.Some? ==> |r.value.0| == |r.value.1| && 2 * |r.value.0| == |lines|
  {
    if |lines| == 0 then Some(([], []))
    else if |lines| >= 2 && StartsWith(lines[0], "Q: ") && StartsWith(lines[1], "A: ") then
      match Unzip(lines[2..])
      case None => None
      case Some(rest) => Some(([lines[0][3..]] + rest.0, [lines[1][3..]] + rest.1))
    else None
  }

  /** Recovering the question and answer lists from the combined text. */
  function ParseCombined(text: string): (r: Option<(seq<string>, seq<string>)>)
    ensures text == "" ==> r == Some(([], []))
  {
    if text == "" then Some(([], [])) else Unzip(Split(text, '\n'))
  }

  /** No question or answer among the zipped pairs spans several lines. */
  predicate SingleLine(questions: seq<string>, answers: seq<string>) {
    forall i :: 0 <= i < Min(|questions|, |answers|) ==> '\n' !in questions[i] && '\n' !in answers[i]
  }

  /** Joining the blocks is joining their lines. */
  lemma {:induction false} BlocksAreLines(questions: seq<string>, answers: seq<string>)
    ensures Join(Blocks(questions, answers), "\n") == Join(Lines(questions, answers), "\n")
    decreases |questions|
  {
    if |questions| > 0 && |answers| > 0 {
      var q, a := questions[0], answers[0];
      var qs, ans := questions[1..], answers[1..];
      BlocksAreLines(qs, ans);
      var bs := Blocks(questions, answers);
      assert bs[1..] == Blocks(qs, ans);
      var tail := Lines(qs, ans);
      var lines := Lines(questions, answers);
      assert lines == ["Q: " + q, "A: " + a] + tail;
      assert lines[1..] == ["A: " + a] + tail;
      assert lines[1..][1..] == tail;
      if |tail| == 0 {
        assert |bs| == 1;
        assert Join(lines[1..], "\n") == "A: " + a;
      } else {
        assert Join(lines[1..], "\n") == "A: " + a + "\n" + Join(tail, "\n");
      }
    }
  }

  /** Dropping the first pair keeps the rest single-line. */
  lemma SingleLineTail(questions: seq<string>, answers: seq<string>)
    requires SingleLine(questions, answers) && |questions| > 0 && |answers| > 0
    ensures SingleLine(questions[1..], answers[1..])
  {
    var qs, ans := questions[1..], answers[1..];
    forall i | 0 <= i < Min(|qs|, |ans|)
      ensures '\n' !in qs[i] && '\n' !in ans[i]
    {
      assert qs[i] == questions[i + 1] && ans[i] == answers[i + 1];
    }
  }

  /** No line of the combined text holds a newline of its own. */
  lemma {:induction false} LinesSingle(questions: seq<string>, answers: seq<string>)
    requires SingleLine(questions, answers)
    ensures forall k :: 0 <= k < |Lines(questions, answers)| ==> '\n' !in Lines(questions, answers)[k]
    decreases |questions|
  {
    if |questions| > 0 && |answers| > 0 {
      SingleLineTail(questions, answers);
      LinesSingle(questions[1..], answers[1..]);
      var lines := Lines(questions, answers);
      var tail := Lines(questions[1..], answers[1..]);
      assert lines == ["Q: " + questions[0], "A: " + answers[0]] + tail;
      assert '\n' !in questions[0] && '\n' !in answers[0];
      forall k | 0 <= k < |lines|
        ensures '\n' !in lines[k]
      {
        if k >= 2 {
          assert lines[k] == tail[k - 2];
        }
      }
    }
  }

  /** Each pair of lines is a marker and one question, then a marker and its
      answer, so reading the lines in pairs gives back the zipped lists. */
  lemma LinesHaveMarkers(questions: seq<string>, answers: seq<string>)
    ensures Unzip(Lines(questions, answers)) == Some((questions[..Min(|questions|, |answers|)], answers[..Min(|questions|, |answers|)]))
  {
    var n := Min(|questions|, |answers|);
    LinesTruncate(questions, answers);
    LinesUnzip(questions[..n], answers[..n]);
  }

  /** For lists of one length, unzipping the lines inverts them. */
  lemma {:induction false} LinesUnzip(qs: seq<string>, ans: seq<string>)
    requires |qs| == |ans|
    ensures Unzip(Lines(qs, ans)) == Some((qs, ans))
    decreases |qs|
  {
    if |qs| > 0 {
      LinesUnzip(qs[1..], ans[1..]);
      var lines := Lines(qs, ans);
      assert lines[2..] == Lines(qs[1..], ans[1..]);
      assert lines[0][..3] == "Q: " && lines[0][3..] == qs[0];
      assert lines[1][..3] == "A: " && lines[1][3..] == ans[0];
      assert [qs[0]] + qs[1..] == qs && [ans[0]] + ans[1..] == ans;
    }
  }

  /** Only the zipped prefix of each list reaches the lines. */
  lemma {:induction false} LinesTruncate(questions: seq<string>, answers: seq<string>)
    ensures var n := Min(|questions|, |answers|);
      Lines(questions, answers) == Lines(questions[..n], answers[..n])
    decreases |questions|
  {
    var n := Min(|questions|, |answers|);
    if n > 0 {
      LinesTruncate(questions[1..], answers[1..]);
      assert questions[..n][1..] == questions[1..][..n - 1];
      assert answers[..n][1..] == answers[1..][..n - 1];
    }
  }

  /** The combined text reads back as the zipped lists, provided no question
      or answer holds a newline of its own. */
  lemma CombinedRoundTrip(questions: seq<string>, answers: seq<string>)
    requires SingleLine(questions, answers)
    ensures ParseCombined(CombinedText(questions, answers))
         == Some((questions[..Min(|questions|, |answers|)], answers[..Min(|questions|, |answers|)]))
  {
    var n := Min(|questions|, |answers|);
    LinesHaveMarkers(questions, answers);
    LinesSingle(questions, answers);
    if n == 0 {
      assert questions[..0] == [] && answers[..0] == [];
    } else {
      BlocksAreLines(questions, answers);
      SplitJoin(Lines(questions, answers), '\n');
    }
  }

  /** Extra questions or extra answers are dropped. */
  lemma ExtrasDropped(questions: seq<string>, answers: seq<string>)
    ensures CombinedText(questions, answers) == CombinedText(questions[..Min(|questions|, |answers|)], answers[..Min(|questions|, |answers|)])
  {
    var n := Min(|questions|, |answers|);
    assert Blocks(questions, answers) == Blocks(questions[..n], answers[..n]);
  }

  /** One answered question, and two questions with one answer. */
  lemma QuizExample()
    ensures CombinedText(["Why?"], ["Because"]) == "Q: Why?\nA: Because"
    ensures CombinedText(["Why?", "How?"], ["Because"]) == "Q: Why?\nA: Because"
  {
    assert Block("Why?", "Because") == "Q: Why?\nA: Because";
    assert Blocks(["Why?"], ["Because"]) == ["Q: Why?\nA: Because"];
    assert Blocks(["Why?", "How?"], ["Because"]) == ["Q: Why?\nA: Because"];
  }
}

=== FILE: render.dfy ===
/** What the three video components put on screen, as element trees. The
    intro and outro show a heading and a subheading; a scene shows a title,
    a description and an image inside one wrapper that carries the whole
    animation patch; the video places every segment at its laid-out start
    frame and hands each scene the document's shared colours and font. */
module Render {
  import opened Wrappers
  import opened VideoTypes
  import opened Animations
  import Layout

  /** A rendered element with a copy of its style entry. */
  datatype Element =
    | Heading1(text: string, style: Option<Style>)
    | Heading2(text: string, style: Option<Style>)
    | Paragraph(text: string, style: Option<Style>)
    | Image(src: string, alt: Option<string>, style: Option<Style>)

  /** The presentation strings every segment shares. */
  datatype Shared = Shared(backgroundColor: string, textColor: string, fontFamily: string)

  /** `RenderText`: the heading, then the subheading, each only when truthy. */
  function RenderText(content: Content, style: TextStyle): (els: seq<Element>)
    ensures |els| == (if Truthy(content.heading) then 1 else 0) + (if Truthy(content.subheading) then 1 else 0)
    ensures Truthy(content.heading) ==> els[0] == Heading1(content.heading.value, Some(style.heading))
    ensures Truthy(content.subheading) ==> els[|els| - 1] == Heading2(content.subheading.value, Some(style.subheading))
    ensures forall i :: 0 <= i < |els| ==> els[i].Heading1? || els[i].Heading2?
  {
    (if Truthy(content.heading) then [Heading1(content.heading.value, Some(style.heading))] else [])
    + (if Truthy(content.subheading) then [Heading2(content.subheading.value, Some(style.subheading))] else [])
  }

  /** A heading is emitted exactly when the content has a truthy heading, and
      a subheading exactly when it has a truthy subheading. */
  lemma RenderTextPresence(content: Content, style: TextStyle)
    ensures (exists i :: 0 <= i < |RenderText(content, style)| && RenderText(content, style)[i].Heading1?)
            <==> Truthy(content.heading)
    ensures (exists i :: 0 <= i < |RenderText(content, style)| && RenderText(content, style)[i].Heading2?)
            <==> Truthy(content.subheading)
  {
    var els := RenderText(content, style);
    if Truthy(content.heading) {
      assert els[0].Heading1?;
    }
    if Truthy(content.subheading) {
      assert els[|els| - 1].Heading2?;
    }
  }

  /** The scene's children: title, description and image, each only when
      truthy, in that order. */
  function SceneChildren(scene: Scene): (els: seq<Element>)
    ensures |els| == (if Truthy(scene.title) then 1 else 0) + (if Truthy(scene.description) then 1 else 0)
                     + (if Truthy(scene.image) then 1 else 0)
    ensures Truthy(scene.title) ==> els[0] == Heading1(scene.title.value, scene.style.title)
    ensures Truthy(scene.image) ==> els[|els| - 1] == Image(scene.image.value, scene.title, scene.style.image)
    ensures Truthy(scene.description) ==>
      els[if Truthy(scene.title) then 1 else 0] == Paragraph(scene.description.value, scene.style.description)
  {
    (if Truthy(scene.title) then [Heading1(scene.title.value, scene.style.title)] else [])
    + (if Truthy(scene.description) then [Paragraph(scene.description.value, scene.style.description)] else [])
    + (if Truthy(scene.image) then [Image(scene.image.value, scene.title, scene.style.image)] else [])
  }

  /** One scene on screen at `frame`: a sequence starting at `startFrame`
      lasting `durationInSeconds * fps` frames, the shared colours and font,
      and one wrapper holding the animation patch evaluated at the frames
      elapsed since the scene began. */
  datatype SceneView = SceneView(from: int, durationInFrames: int, shared: Shared, patch: Patch, children: seq<Element>)

  function RenderScene(scene: Scene, startFrame: int, shared: Shared, fps: int, frame: int): (v: SceneView)
    requires scene.durationInSeconds.Some?
    requires Evaluable(frame - startFrame, scene.animation)
    ensures v.from == startFrame && v.durationInFrames == scene.durationInSeconds.value * fps
    ensures v.shared == shared
    ensures v.patch == ApplyAnimation(frame - startFrame, scene.animation, 0)
    ensures v.children == SceneChildren(scene)
  {
    var durationInFrames := scene.durationInSeconds.value * fps;
    SceneView(startFrame, durationInFrames, shared,
              ApplyAnimation(frame - startFrame, scene.animation, durationInFrames),
              SceneChildren(scene))
  }

  /** A scene without an animation, or with the default `zoom-out`, renders
      with no patch at every frame. */
  lemma DefaultAnimationIsStill(scene: Scene, startFrame: int, shared: Shared, fps: int, frame: int)
    requires scene.durationInSeconds.Some?
    requires scene.animation.None? || scene.animation.value.kind == ZoomOut
    ensures RenderScene(scene, startFrame, shared, fps, frame).patch == NoPatch
  {
  }

  /** An intro or outro on screen: its sequence and its text. */
  datatype TextView = TextView(from: int, durationInFrames: int, textColor: string, fontFamily: string, children: seq<Element>)

  /** A scene as the video places it: the scene, its start frame and the
      shared strings it is given. */
  datatype SceneSlot = SceneSlot(scene: Scene, startFrame: int, shared: Shared)

  datatype VideoView = VideoView(backgroundColor: string, intro: TextView, scenes: seq<SceneSlot>, outro: TextView)

  /** `RenderVideo`: the intro at frame 0, every scene at its laid-out start,
      the outro after the last scene. Only content and style of the intro and
      outro are passed on. */
  function RenderVideo(doc: VideoData, fps: int): (v: VideoView)
    requires Resolved(doc)
    ensures v.backgroundColor == doc.backgroundColor
    ensures |v.scenes| == |doc.scenes|
    ensures forall i :: 0 <= i < |doc.scenes| ==>
      v.scenes[i] == SceneSlot(doc.scenes[i], Layout.Layout(doc, fps).scenes[i].start,
                               Shared(doc.backgroundColor, doc.textColor, doc.fontFamily))
    ensures v.intro == TextView(0, doc.intro.durationInSeconds.value * fps, doc.textColor, doc.fontFamily,
                                RenderText(doc.intro.content, doc.intro.style))
    ensures v.outro.from == Layout.Layout(doc, fps).outro.start
    ensures v.outro.durationInFrames == doc.outro.durationInSeconds.value * fps
    ensures v.outro.children == RenderText(doc.outro.content, doc.outro.style)
  {
    var t := Layout.Layout(doc, fps);
    var shared := Shared(doc.backgroundColor, doc.textColor, doc.fontFamily);
    VideoView(
      doc.backgroundColor,
      TextView(0, t.intro.length, doc.textColor, doc.fontFamily, RenderText(doc.intro.content, doc.intro.style)),
      seq(|doc.scenes|, i requires 0 <= i < |doc.scenes| => SceneSlot(doc.scenes[i], t.scenes[i].start, shared)),
      TextView(t.outro.start, t.outro.length, doc.textColor, doc.fontFamily, RenderText(doc.outro.content, doc.outro.style)))
  }

  /** Every scene receives the same shared strings, taken from the document. */
  lemma ScenesShareStyle(doc: VideoData, fps: int, i: nat, j: nat)
    requires Resolved(doc) && i < |doc.scenes| && j < |doc.scenes|
    ensures RenderVideo(doc, fps).scenes[i].shared == RenderVideo(doc, fps).scenes[j].shared
    ensures RenderVideo(doc, fps).scenes[i].shared.textColor == doc.textColor
  {
  }

  /** The intro and outro animations are never read. */
  lemma BoundaryAnimationsIgnored(doc: VideoData, fps: int, a: Option<Animation>, b: Option<Animation>)
    requires Resolved(doc)
    ensures RenderVideo(doc.(intro := doc.intro.(animation := a), outro := doc.outro.(animation := b)), fps)
         == RenderVideo(doc, fps)
  {
    var doc' := doc.(intro := doc.intro.(animation := a), outro := doc.outro.(animation := b));
    assert Layout.Layout(doc', fps) == Layout.Layout(doc, fps);
  }

  /** The rendered segments abut: the first scene starts where the intro
      ends, each scene where the previous one ends, and the outro where the
      last scene ends (or the intro, when there are no scenes). */
  lemma RenderedSegmentsAbut(doc: VideoData, fps: int)
    requires Resolved(doc)
    ensures var v := RenderVideo(doc, fps);
      && (|v.scenes| == 0 ==> v.outro.from == v.intro.durationInFrames)
      && (|v.scenes| > 0 ==> v.scenes[0].startFrame == v.intro.durationInFrames)
      && (forall i :: 0 <= i < |v.scenes| - 1 ==>
            v.scenes[i + 1].startFrame == v.scenes[i].startFrame + doc.scenes[i].durationInSeconds.value * fps)
      && (|v.scenes| > 0 ==> v.outro.from == v.scenes[|v.scenes| - 1].startFrame
                                            + doc.scenes[|v.scenes| - 1].durationInSeconds.value * fps)
  {
    Layout.LayoutContiguous(doc, fps);
  }

  /** Scene `i` on screen at `frame`, as the video renders it. */
  function SceneAt(doc: VideoData, fps: int, i: nat, frame: int): (v: SceneView)
    requires Resolved(doc) && i < |doc.scenes|
    requires Evaluable(frame - Layout.Layout(doc, fps).scenes[i].start, doc.scenes[i].animation)
    ensures v.from == Layout.Layout(doc, fps).scenes[i].start
    ensures v.durationInFrames == Layout.Layout(doc, fps).scenes[i].length
  {
    var slot := RenderVideo(doc, fps).scenes[i];
    RenderScene(slot.scene, slot.startFrame, slot.shared, fps, frame)
  }
}

=== FILE: submit_api.dfy ===
/** The `/multiformat/submit` endpoint: uploaded files win over a YouTube URL;
    each file is turned into text and summarised, in upload order; a URL must
    look like a watch link and its transcript must be fetched before it is
    summarised. Text extraction, transcript fetching and summarising are
    passed in; an extraction error is not caught and fails the request. */
module SubmitApi {
  import opened Wrappers
  import opened Text

  datatype UploadedFile<C> = UploadedFile(filename: string, content: C)

  datatype FileSummary<S> = FileSummary(filename: string, summary: S)

  /** What the endpoint answers: one entry per file, the URL with its
      summary, an HTTP error raised on purpose, or an uncaught error from
      text extraction. */
  datatype Response<S> =
    | FileSummaries(results: seq<FileSummary<S>>)
    | UrlSummary(youtubeUrl: string, summary: S)
    | HttpError(status: int, detail: string)
    | Uncaught(message: string)

  /** File `k` is the first whose text cannot be extracted. */
  predicate FirstFailure<C>(files: seq<UploadedFile<C>>, process: (string, C) -> Result<string, string>, k: int) {
    && 0 <= k < |files|
    && process(files[k].filename, files[k].content).Failure?
    && forall i :: 0 <= i < k ==> process(files[i].filename, files[i].content).Success?
  }

  /** The files in order, stopping at the first one whose text cannot be
      extracted. */
  function SummarizeFiles<C, S>(files: seq<UploadedFile<C>>,
                                process: (string, C) -> Result<string, string>,
                                summarize: string -> S): (r: Result<seq<FileSummary<S>>, string>)
    ensures r.Success? <==> forall i :: 0 <= i < |files| ==> process(files[i].filename, files[i].content).Success?
    ensures r.Success? ==> |r.value| == |files|
    ensures r.Success? ==> forall i :: 0 <= i < |files| ==>
      r.value[i] == FileSummary(files[i].filename, summarize(process(files[i].filename, files[i].content).value))
    ensures r.Failure? ==>
      exists k :: FirstFailure(files, process, k) && process(files[k].filename, files[k].content) == Failure(r.error)
  {
    if |files| == 0 then Success([])
    else
      match process(files[0].filename, files[0].content)
      case Failure(e) => Failure(e)
      case Success(text) =>
        match SummarizeFiles(files[1..], process, summarize)
        case Failure(e) =>
          ghost var k :| FirstFailure(files[1..], process, k)
                         && process(files[1..][k].filename, files[1..][k].content) == Failure(e);
          assert FirstFailure(files, process, k + 1);
          Failure(e)
        case Success(rest) => Success([FileSummary(files[0].filename, summarize(text))] + rest)
  }

  predicate Truthy(url: Option<string>) {
    url.Some? && url.value != ""
  }

  /** `submit(files, youtube_url)`. */
  function Submit<C, T, S>(files: seq<UploadedFile<C>>, youtubeUrl: Option<string>,
                           process: (string, C) -> Result<string, string>,
                           fetchTranscript: string -> Result<T, string>,
                           summarizeText: string -> S,
                           summarizeTranscript: T -> S): (r: Response<S>)
    ensures |files| > 0 ==> (r.FileSummaries? || r.Uncaught?)
    ensures |files| > 0 ==> (r.FileSummaries? <==> SummarizeFiles(files, process, summarizeText).Success?)
    ensures |files| == 0 && !Truthy(youtubeUrl) ==> r == HttpError(400, "No files or URL provided")
    ensures |files| == 0 && Truthy(youtubeUrl) && !Contains(youtubeUrl.value, "youtube.com/watch") ==>
      r == HttpError(400, "Invalid YouTube URL")
    ensures |files| == 0 && Truthy(youtubeUrl) && Contains(youtubeUrl.value, "youtube.com/watch") ==>
      match fetchTranscript(youtubeUrl.value)
      case Failure(e) => r == HttpError(500, "Failed to fetch transcript: " + e)
      case Success(t) => r == UrlSummary(youtubeUrl.value, summarizeTranscript(t))
    ensures r.UrlSummary? ==> Truthy(youtubeUrl) && r.youtubeUrl == youtubeUrl.value
  {
    if |files| > 0 then
      match SummarizeFiles(files, process, summarizeText)
      case Failure(e) => Uncaught(e)
      case Success(results) => FileSummaries(results)
    else if Truthy(youtubeUrl) then
      var url := youtubeUrl.value;
      if !Contains(url, "youtube.com/watch") then HttpError(400, "Invalid YouTube URL")
      else
        match fetchTranscript(url)
        case Failure(e) => HttpError(500, "Failed to fetch transcript: " + e)
        case Success(t) => UrlSummary(url, summarizeTranscript(t))
    else HttpError(400, "No files or URL provided")
  }

  /** With files present the URL is never looked at. */
  lemma FilesTakePrecedence<C, T, S>(files: seq<UploadedFile<C>>, u1: Option<string>, u2: Option<string>,
                                     process: (string, C) -> Result<string, string>,
                                     fetchTranscript: string -> Result<T, string>,
                                     summarizeText: string -> S,
                                     summarizeTranscript: T -> S)
    requires |files| > 0
    ensures Submit(files, u1, process, fetchTranscript, summarizeText, summarizeTranscript)
         == Submit(files, u2, process, fetchTranscript, summarizeText, summarizeTranscript)
  {
  }

  /** Every file answer lists the uploaded file names, in upload order. */
  lemma FileNamesInOrder<C, T, S>(files: seq<UploadedFile<C>>, url: Option<string>,
                                  process: (string, C) -> Result<string, string>,
                                  fetchTranscript: string -> Result<T, string>,
                                  summarizeText: string -> S,
                                  summarizeTranscript: T -> S)
    requires Submit(files, url, process, fetchTranscript, summarizeText, summarizeTranscript).FileSummaries?
    ensures var rs := Submit(files, url, process, fetchTranscript, summarizeText, summarizeTranscript).results;
      |rs| == |files| && forall i :: 0 <= i < |files| ==> rs[i].filename == files[i].filename
  {
  }
}

=== FILE: text.dfy ===
/** String primitives shared by the model: JavaScript `split`/`join` with a
    one-character separator, substring search, whitespace stripping, ASCII
    lower-casing and unsigned decimal numerals. */
module Text {
  import opened Wrappers

  /** Number of occurrences of `c` in `s`. */
  function Count(s: string, c: char): nat {
    if |s| == 0 then 0 else (if s[0] == c then 1 else 0) + Count(s[1..], c)
  }

  /** The pieces of `s` between occurrences of `sep`, as `s.split(sep)` returns
      them in JavaScript and Python: an empty string gives one empty piece and
      every separator starts a new (possibly empty) piece. */
  function Split(s: string, sep: char): (parts: seq<string>)
    ensures |parts| >= 1
    ensures forall i :: 0 <= i < |parts| ==> sep !in parts[i]
  {
    if |s| == 0 then [""]
    else
      var rest := Split(s[1..], sep);
      if s[0] == sep then [""] + rest
      else [[s[0]] + rest[0]] + rest[1..]
  }

  /** `parts.join(sep)`. */
  function Join(parts: seq<string>, sep: string): string {
    if |parts| == 0 then ""
    else if |parts| == 1 then parts[0]
    else parts[0] + sep + Join(parts[1..], sep)
  }

  /** Splitting yields one piece more than there are separators. */
  lemma {:induction false} SplitCount(s: string, sep: char)
    ensures |Split(s, sep)| == Count(s, sep) + 1
  {
    if |s| > 0 {
      SplitCount(s[1..], sep);
    }
  }

  /** Joining the pieces with the separator restores the string. */
  lemma {:induction false} JoinSplit(s: string, sep: char)
    ensures Join(Split(s, sep), [sep]) == s
  {
    if |s| > 0 {
      var rest := Split(s[1..], sep);
      JoinSplit(s[1..], sep);
      if s[0] == sep {
        assert Split(s, sep) == [""] + rest;
        assert s == [sep] + s[1..];
      } else if |rest| == 1 {
        assert Split(s, sep) == [[s[0]] + rest[0]];
        assert s == [s[0]] + s[1..];
      } else {
        var parts := Split(s, sep);
        assert parts == [[s[0]] + rest[0]] + rest[1..];
        assert parts[1..] == rest[1..];
        assert s == [s[0]] + s[1..];
      }
    }
  }

  /** A string without the separator is a single piece. */
  lemma {:induction false} SplitNoSep(a: string, sep: char)
    requires sep !in a
    ensures Split(a, sep) == [a]
  {
    if |a| > 0 {
      assert a[0] in a;
      SplitNoSep(a[1..], sep);
      assert [a[0]] + a[1..] == a;
    }
  }

  /** A separator right after a separator-free prefix cuts exactly there. */
  lemma {:induction false} SplitAfterPiece(a: string, sep: char, b: string)
    requires sep !in a
    ensures Split(a + [sep] + b, sep) == [a] + Split(b, sep)
  {
    if |a| == 0 {
      assert a + [sep] + b == [sep] + b;
      assert ([sep] + b)[1..] == b;
    } else {
      assert (a + [sep] + b)[1..] == a[1..] + [sep] + b;
      SplitAfterPiece(a[1..], sep, b);
      assert [a[0]] + a[1..] == a;
    }
  }

  /** Splitting a join of separator-free pieces gives the pieces back. */
  lemma {:induction false} SplitJoin(parts: seq<string>, sep: char)
    requires |parts| >= 1
    requires forall i :: 0 <= i < |parts| ==> sep !in parts[i]
    ensures Split(Join(parts, [sep]), sep) == parts
  {
    if |parts| == 1 {
      SplitNoSep(parts[0], sep);
    } else {
      SplitJoin(parts[1..], sep);
      SplitAfterPiece(parts[0], sep, Join(parts[1..], [sep]));
      assert [parts[0]] + parts[1..] == parts;
    }
  }

  /** `pat` occurs in `s` starting at index `i`. */
  predicate OccursAt(s: string, pat: string, i: int) {
    0 <= i && i + |pat| <= |s| && s[i..i + |pat|] == pat
  }

  /** Where the `i`-th piece starts in `Join(parts, sep)`. */
  function JoinOffset(parts: seq<string>, sep: string, i: nat): nat
    requires i < |parts|
  {
    if i == 0 then 0 else |parts[0]| + |sep| + JoinOffset(parts[1..], sep, i - 1)
  }

  /** Every piece of a join appears in it, at its offset. */
  lemma {:induction false} JoinKeepsParts(parts: seq<string>, sep: string, i: nat)
    requires i < |parts|
    ensures OccursAt(Join(parts, sep), parts[i], JoinOffset(parts, sep, i))
  {
    var s := Join(parts, sep);
    if i == 0 {
      if |parts| > 1 {
        assert s == parts[0] + (sep + Join(parts[1..], sep));
        assert s[..|parts[0]|] == parts[0];
      }
    } else {
      var rest := Join(parts[1..], sep);
      JoinKeepsParts(parts[1..], sep, i - 1);
      var k := JoinOffset(parts[1..], sep, i - 1);
      var n := |parts[0]| + |sep|;
      assert s == (parts[0] + sep) + rest;
      assert s[n + k..n + k + |parts[i]|] == rest[k..k + |parts[i]|];
    }
  }

  /** A pattern found somewhere is contained. */
  lemma OccursContains(s: string, pat: string, k: int)
    requires OccursAt(s, pat, k)
    ensures Contains(s, pat)
  {
  }

  /** Index of the first occurrence of `pat` in `s` (`str.find` / `indexOf`). */
  function IndexOf(s: string, pat: string): (r: Option<nat>)
    ensures r.Some? ==> OccursAt(s, pat, r.value)
    ensures r.Some? ==> forall j :: 0 <= j < r.value ==> !OccursAt(s, pat, j)
    ensures r.None? ==> forall j :: 0 <= j <= |s| ==> !OccursAt(s, pat, j)
    decreases |s|
  {
    if |s| < |pat| then None
    else if s[..|pat|] == pat then Some(0)
    else
      var r := IndexOf(s[1..], pat);
      assert forall j :: 1 <= j <= |s| ==> (OccursAt(s, pat, j) <==> OccursAt(s[1..], pat, j - 1)) by {
        forall j | 1 <= j <= |s|
          ensures OccursAt(s, pat, j) <==> OccursAt(s[1..], pat, j - 1)
        {
          if j + |pat| <= |s| {
            TailSlice(s, j, j + |pat|);
          }
        }
      }
      match r
      case None => None
      case Some(k) => Some(k + 1)
  }

  /** Slicing the tail of `s` is slicing `s` one position further on. */
  lemma TailSlice(s: string, a: nat, b: nat)
    requires 1 <= a <= b <= |s|
    ensures s[1..][a - 1..b - 1] == s[a..b]
  {
    forall k | 0 <= k < b - a
      ensures s[1..][a - 1..b - 1][k] == s[a..b][k]
    {
    }
  }

  /** `pat` is a substring of `s` (Python `in`, JavaScript `includes`). */
  predicate Contains(s: string, pat: string) {
    IndexOf(s, pat).Some?
  }

  /** `s.startsWith(pre)`. */
  predicate StartsWith(s: string, pre: string) {
    |pre| <= |s| && s[..|pre|] == pre
  }

  /** `s.endsWith(suf)`. */
  predicate EndsWith(s: string, suf: string) {
    |suf| <= |s| && s[|s| - |suf|..] == suf
  }

  /** Whitespace as Python's `str.strip` and `re`'s `\s` see it, restricted
      to ASCII: space, tab, line feed, vertical tab, form feed, carriage
      return, and the four separators 0x1C to 0x1F. */
  predicate IsSpace(c: char) {
    || c == ' ' || c == '\t' || c == '\n' || c == '\r' || c == '\U{B}' || c == '\U{C}'
    || ('\U{1C}' <= c <= '\U{1F}')
  }

  /** Whitespace as JavaScript's `String.prototype.trim` sees it, restricted
      to ASCII: the same as Python's but without 0x1C to 0x1F. */
  predicate IsJsSpace(c: char) {
    c == ' ' || c == '\t' || c == '\n' || c == '\r' || c == '\U{B}' || c == '\U{C}'
  }

  /** `!s.trim()`: nothing is left once JavaScript trims `s`. */
  predicate JsBlank(s: string) {
    forall i :: 0 <= i < |s| ==> IsJsSpace(s[i])
  }

  /** `s` with its leading whitespace removed. */
  function TrimStart(s: string): string {
    if |s| > 0 && IsSpace(s[0]) then TrimStart(s[1..]) else s
  }

  /** What `TrimStart` removes is a run of whitespace at the front, and what
      it keeps is the rest, starting with something else. */
  lemma {:induction false} TrimStartSpec(s: string)
    ensures var r := TrimStart(s);
      && |r| <= |s| && r == s[|s| - |r|..]
      && (forall i :: 0 <= i < |s| - |r| ==> IsSpace(s[i]))
      && (|r| == 0 || !IsSpace(r[0]))
  {
    if |s| > 0 && IsSpace(s[0]) {
      TrimStartSpec(s[1..]);
    }
  }

  /** `s` with its trailing whitespace removed. */
  function TrimEnd(s: string): string {
    if |s| > 0 && IsSpace(s[|s| - 1]) then TrimEnd(s[..|s| - 1]) else s
  }

  /** What `TrimEnd` removes is a run of whitespace at the back, and what it
      keeps is the rest, ending with something else. */
  lemma {:induction false} TrimEndSpec(s: string)
    ensures var r := TrimEnd(s);
      && |r| <= |s| && r == s[..|r|]
      && (forall i :: |r| <= i < |s| ==> IsSpace(s[i]))
      && (|r| == 0 || !IsSpace(r[|r| - 1]))
  {
    if |s| > 0 && IsSpace(s[|s| - 1]) {
      TrimEndSpec(s[..|s| - 1]);
    }
  }

  /** Python `str.strip()`: both ends trimmed. */
  function Strip(s: string): string {
    TrimEnd(TrimStart(s))
  }

  /** Stripping leaves an empty string exactly when `s` is all whitespace. */
  lemma StripEmptyIffBlank(s: string)
    ensures Strip(s) == "" <==> forall i :: 0 <= i < |s| ==> IsSpace(s[i])
  {
    TrimStartSpec(s);
    TrimEndSpec(TrimStart(s));
  }

  /** A string without leading or trailing whitespace is its own strip. */
  lemma StripTrimmed(s: string)
    requires |s| == 0 || (!IsSpace(s[0]) && !IsSpace(s[|s| - 1]))
    ensures Strip(s) == s
  {
  }

  /** ASCII upper-case letters mapped to lower case; everything else kept. */
  function LowerChar(c: char): char {
    if 'A' <= c <= 'Z' then (c as int + 32) as char else c
  }

  /** `s.lower()` / `s.toLowerCase()` over ASCII letters. */
  function Lower(s: string): (r: string)
    ensures |r| == |s|
    ensures forall i :: 0 <= i < |s| ==> r[i] == LowerChar(s[i])
  {
    seq(|s|, i requires 0 <= i < |s| => LowerChar(s[i]))
  }

  predicate IsDigit(c: char) {
    '0' <= c <= '9'
  }

  predicate AllDigits(s: string) {
    forall i :: 0 <= i < |s| ==> IsDigit(s[i])
  }

  function DigitChar(d: nat): (c: char)
    requires d < 10
    ensures IsDigit(c)
  {
    ('0' as int + d) as char
  }

  function DigitValue(c: char): (d: nat)
    requires IsDigit(c)
    ensures d < 10 && DigitChar(d) == c
  {
    c as int - '0' as int
  }

  /** The shortest decimal numeral of `n` (`str(n)`, `String(n)`). */
  function Decimal(n: nat): (r: string)
    ensures |r| >= 1 && AllDigits(r)
    ensures n < 10 <==> |r| == 1
  {
    if n < 10 then [DigitChar(n)] else Decimal(n / 10) + [DigitChar(n % 10)]
  }

  /** The value of a numeral of decimal digits (leading zeros allowed). */
  function ParseDecimal(s: string): nat
    requires AllDigits(s)
  {
    if |s| == 0 then 0 else ParseDecimal(s[..|s| - 1]) * 10 + DigitValue(s[|s| - 1])
  }

  /** Reading back a printed numeral gives the number. */
  lemma {:induction false} ParseDecimalOfDecimal(n: nat)
    ensures ParseDecimal(Decimal(n)) == n
  {
    if n >= 10 {
      var r := Decimal(n);
      assert r[..|r| - 1] == Decimal(n / 10);
      ParseDecimalOfDecimal(n / 10);
    }
  }

  /** A leading zero does not change the value of a numeral. */
  lemma {:induction false} ParseLeadingZero(s: string)
    requires AllDigits(s)
    ensures AllDigits("0" + s) && ParseDecimal("0" + s) == ParseDecimal(s)
  {
    if |s| > 0 {
      var t := "0" + s;
      assert t[..|t| - 1] == "0" + s[..|s| - 1];
      ParseLeadingZero(s[..|s| - 1]);
    }
  }
}

=== FILE: time_format.dfy ===
/** `format_time`: a transcript timestamp or a video length in seconds, shown
    as `MM:SS`, or as `HH:MM:SS` from one hour on. The float is truncated
    toward zero, then split with Python's floor `divmod` by 60 twice, and
    every field is zero-padded to two digits. */
module TimeFormat {
  import opened Wrappers
  import opened Text

  /** `int(x)` on a float: truncation toward zero. */
  function Trunc(x: real): (n: int)
    ensures x >= 0.0 ==> n >= 0 && n as real <= x < n as real + 1.0
    ensures x < 0.0 ==> n <= 0 && n as real - 1.0 < x <= n as real
  {
    if x >= 0.0 then x.Floor else -((-x).Floor)
  }

  /** The three fields of a whole number of seconds. Python's `divmod` with a
      positive divisor rounds the quotient down, as Dafny's `/` and `%` do. */
  datatype Clock = Clock(hours: int, minutes: int, seconds: int)

  function Fields(t: int): (c: Clock)
    ensures 0 <= c.minutes < 60 && 0 <= c.seconds < 60
    ensures c.hours * 3600 + c.minutes * 60 + c.seconds == t
    ensures c.hours > 0 <==> t >= 3600
  {
    var minutes := t / 60;
    var seconds := t % 60;
    Clock(minutes / 60, minutes % 60, seconds)
  }

  /** `f"{n:02}"` for a non-negative `n`: at least two digits, more when
      needed. */
  function Pad2(n: nat): (r: string)
    ensures AllDigits(r) && ParseDecimal(r) == n
    ensures |r| >= 2
    ensures n < 100 ==> |r| == 2
    ensures n >= 10 ==> r == Decimal(n)
  {
    ParseDecimalOfDecimal(n);
    if n < 10 then
      ParseLeadingZero(Decimal(n));
      "0" + Decimal(n)
    else
      assert Decimal(n) == Decimal(n / 10) + [DigitChar(n % 10)];
      Decimal(n)
  }

  /** `format_time(seconds)`: the truncated seconds, formatted. */
  function FormatTime(x: real): (r: string)
    ensures |r| >= 5
    ensures |r| == 5 <==> Trunc(x) < 3600
    ensures r[|r| - 3] == ':'
  {
    FormatSeconds(Trunc(x))
  }

  /** The fields of a whole number of seconds, padded and joined by colons;
      the hours field only when it is positive. */
  function FormatSeconds(t: int): (r: string)
    ensures |r| >= 5
    ensures |r| == 5 <==> t < 3600
    ensures r[|r| - 3] == ':'
  {
    var c := Fields(t);
    if c.hours > 0 then Pad2(c.hours) + ":" + Pad2(c.minutes) + ":" + Pad2(c.seconds)
    else Pad2(c.minutes) + ":" + Pad2(c.seconds)
  }

  /** A reader of timestamps, the partner of `FormatTime` in the round trip
      below: two or three colon-separated numerals. */
  function ParseTime(s: string): (r: Option<int>)
    ensures r.Some? ==> r.value >= 0
  {
    ParseFields(Split(s, ':'))
  }

  /** Two or three numerals, read as minutes and seconds or hours, minutes
      and seconds. */
  function ParseFields(parts: seq<string>): (r: Option<int>)
    ensures r.Some? ==> r.value >= 0
  {
    if |parts| == 3 && AllDigits(parts[0]) && AllDigits(parts[1]) && AllDigits(parts[2]) then
      Some(ParseDecimal(parts[0]) * 3600 + ParseDecimal(parts[1]) * 60 + ParseDecimal(parts[2]))
    else if |parts| == 2 && AllDigits(parts[0]) && AllDigits(parts[1]) then
      Some(ParseDecimal(parts[0]) * 60 + ParseDecimal(parts[1]))
    else None
  }

  lemma DigitsHaveNoColon(s: string)
    requires AllDigits(s)
    ensures ':' !in s
  {
  }

  /** The output has three fields exactly from one hour on, and two below;
      the minutes and seconds fields are always two digits wide, the hours
      field at least two. */
  lemma FormatTimeShape(x: real)
    ensures var parts := Split(FormatTime(x), ':');
      && (|parts| == 3 <==> Trunc(x) >= 3600)
      && (|parts| == 2 <==> Trunc(x) < 3600)
      && |parts[|parts| - 1]| == 2 && |parts[|parts| - 2]| == 2
      && |parts[0]| >= 2
  {
    FormatSplits(x);
  }

  /** Reading the output back gives the truncated seconds when they are not
      negative; a negative input keeps only its remainder modulo one hour,
      because its hours field is not positive and is dropped. */
  lemma FormatTimeRoundTrip(x: real)
    ensures Trunc(x) >= 0 ==> ParseTime(FormatTime(x)) == Some(Trunc(x))
    ensures Trunc(x) < 0 ==> ParseTime(FormatTime(x)) == Some(Trunc(x) % 3600)
  {
    SecondsRoundTrip(Trunc(x));
  }

  lemma SecondsRoundTrip(t: int)
    ensures t >= 0 ==> ParseTime(FormatSeconds(t)) == Some(t)
    ensures t < 0 ==> ParseTime(FormatSeconds(t)) == Some(t % 3600)
  {
    var c := Fields(t);
    SecondsSplit(t);
    var m, s := Pad2(c.minutes), Pad2(c.seconds);
    if c.hours > 0 {
      var h := Pad2(c.hours);
      assert ParseTime(FormatSeconds(t)) == ParseFields([h, m, s]);
      assert ParseFields([h, m, s]) == Some(c.hours * 3600 + c.minutes * 60 + c.seconds);
    } else {
      assert ParseTime(FormatSeconds(t)) == ParseFields([m, s]);
      assert ParseFields([m, s]) == Some(c.minutes * 60 + c.seconds);
      DroppedHours(t);
    }
  }

  /** Without a positive hours field, the minutes and seconds give the time
      when it is not negative and its remainder modulo one hour when it is. */
  lemma DroppedHours(t: int)
    requires Fields(t).hours <= 0
    ensures var c := Fields(t);
      c.minutes * 60 + c.seconds == if t >= 0 then t else t % 3600
  {
    var c := Fields(t);
    var r := c.minutes * 60 + c.seconds;
    assert 0 <= r < 3600;
    assert t == c.hours * 3600 + r;
    if t >= 0 {
      assert c.hours == 0;
    }
  }

  /** The fields of the output, recovered by splitting at the colons. */
  lemma FormatSplits(x: real)
    ensures var c := Fields(Trunc(x));
      Split(FormatTime(x), ':')
      == (if c.hours > 0 then [Pad2(c.hours), Pad2(c.minutes), Pad2(c.seconds)]
          else [Pad2(c.minutes), Pad2(c.seconds)])
  {
    SecondsSplit(Trunc(x));
  }

  lemma SecondsSplit(t: int)
    ensures var c := Fields(t);
      Split(FormatSeconds(t), ':')
      == (if c.hours > 0 then [Pad2(c.hours), Pad2(c.minutes), Pad2(c.seconds)]
          else [Pad2(c.minutes), Pad2(c.seconds)])
  {
    var c := Fields(t);
    var m := Pad2(c.minutes);
    var s := Pad2(c.seconds);
    DigitsHaveNoColon(m);
    DigitsHaveNoColon(s);
    if c.hours > 0 {
      var h := Pad2(c.hours);
      DigitsHaveNoColon(h);
      var parts := [h, m, s];
      assert parts[1..] == [m, s];
      assert Join(parts[1..], ":") == m + ":" + s;
      assert Join(parts, ":") == h + ":" + m + ":" + s;
      SplitJoin(parts, ':');
    } else {
      var parts := [m, s];
      assert Join(parts, ":") == m + ":" + s;
      SplitJoin(parts, ':');
    }
  }

  /** An hour-long timestamp, one under a minute, and a negative input. */
  lemma OneHourExample()
    ensures FormatTime(3661.9) == "01:01:01"
    ensures FormatTime(59.0) == "00:59"
    ensures FormatTime(-1.0) == "59:59"
  {
    assert Trunc(3661.9) == 3661 && Trunc(59.0) == 59 && Trunc(-1.0) == -1;
    assert Fields(3661) == Clock(1, 1, 1);
    assert Fields(59) == Clock(0, 0, 59);
    assert Fields(-1) == Clock(-1, 59, 59);
    assert Decimal(0) == "0" && Decimal(1) == "1";
    assert Decimal(5) == "5" && Decimal(9) == "9";
    assert Decimal(59) == Decimal(5) + [DigitChar(9)];
    assert Pad2(1) == "01" && Pad2(0) == "00" && Pad2(59) == "59";
  }
}

=== FILE: upload_dialog.dfy ===
/** The file-upload dialog of the `src/components` front end: files and a
    URL, an upload progress bar, a preview of the first file of the latest
    batch, and after a successful submission the returned summary in place
    of the form. Reading a file for its preview and the POST itself are
    outside the model: the POST's progress and response arrive as events,
    and the preview is taken from the first file of a batch at once. */
module UploadDialog {
  import opened Wrappers
  import opened Text
  import opened Uploads

  /** A preview source: the file read as a data URL (images) or an object
      URL made for it (PDF and MP3 audio). */
  datatype Preview = DataUrl(file: File) | ObjectUrl(file: File)

  /** `handlePreview`: the preview a file gets, if any. */
  function PreviewOf(f: File): (p: Option<Preview>)
    ensures StartsWith(f.mimeType, "image/") ==> p == Some(DataUrl(f))
    ensures !StartsWith(f.mimeType, "image/") && f.mimeType in {"application/pdf", "audio/mpeg", "audio/mp3"} ==> p == Some(ObjectUrl(f))
    ensures p.None? <==> !StartsWith(f.mimeType, "image/") && f.mimeType !in {"application/pdf", "audio/mpeg", "audio/mp3"}
  {
    if StartsWith(f.mimeType, "image/") then Some(DataUrl(f))
    else if f.mimeType == "application/pdf" then Some(ObjectUrl(f))
    else if f.mimeType == "audio/mpeg" || f.mimeType == "audio/mp3" then Some(ObjectUrl(f))
    else None
  }

  /** The dialog's state; `D` is whatever the server answers. */
  datatype Dialog<D> = Dialog(files: seq<File>, url: string, progress: int, summaries: seq<D>,
                              showForm: bool, preview: Option<Preview>, submitting: bool)

  function Initial<D>(): Dialog<D> {
    Dialog([], "", 0, [], true, None, false)
  }

  datatype Event<D> =
    | AddBatch(batch: seq<File>)
    | SetUrl(text: string)
    | Remove(index: int)
    | Submit
    | Progressed(loaded: nat, total: nat)
    | Responded(status: int, data: D)
    | Failed
    | Reset

  const SubmitEndpoint := "https://focus-feed-production.up.railway.app/multiformat/submit"

  /** The disabled state of Submit and the early return of `handleSubmit`:
      no files and a URL that is blank once trimmed. */
  predicate NothingToSend<D>(d: Dialog<D>) {
    |d.files| == 0 && JsBlank(d.url)
  }

  predicate SubmitDisabled<D>(d: Dialog<D>) {
    d.submitting || NothingToSend(d)
  }

  /** The form fields: the files under `files` when there are any, else
      the URL under `youtube_url`. */
  function SubmitFields<D>(d: Dialog<D>): (fields: seq<Field>)
    ensures |d.files| > 0 ==> |fields| == |d.files| && forall i :: 0 <= i < |d.files| ==> fields[i] == FileField("files", d.files[i])
    ensures |d.files| == 0 && d.url != "" ==> fields == [TextField("youtube_url", d.url)]
  {
    if |d.files| > 0 then seq(|d.files|, i requires 0 <= i < |d.files| => FileField("files", d.files[i]))
    else if d.url != "" then [TextField("youtube_url", d.url)]
    else []
  }

  /** `Math.round(loaded * 100 / total)` over exact rationals: round half up. */
  function RoundedPercent(loaded: nat, total: nat): (p: int)
    requires total > 0
    ensures 2 * total * p <= 200 * loaded + total < 2 * total * (p + 1)
    ensures loaded <= total ==> 0 <= p <= 100
  {
    var p := (200 * loaded + total) / (2 * total);
    assert loaded <= total ==> 200 * loaded + total < 2 * total * 101;
    p
  }

  /** One handler step; the second component is the request sent, if any. */
  function Step<D>(d: Dialog<D>, e: Event<D>): (r: (Dialog<D>, Option<Request>))
    ensures e.Submit? && NothingToSend(d) ==> r == (d, None)
    ensures e.Submit? && !NothingToSend(d) ==>
      r == (d.(submitting := true, summaries := [], progress := 0), Some(Request(SubmitEndpoint, SubmitFields(d))))
    ensures !e.Submit? ==> r.1.None?
    ensures e.AddBatch? && |e.batch| > 0 ==>
      r.0 == d.(files := d.files + e.batch, preview := PreviewOf(e.batch[0]))
    ensures e.AddBatch? && |e.batch| == 0 ==> r.0 == d
    ensures e.SetUrl? ==> r.0 == d.(url := e.text)
    ensures e.Remove? && 0 <= e.index < |d.files| ==>
      r.0 == d.(files := d.files[..e.index] + d.files[e.index + 1..], preview := r.0.preview)
    ensures e.Remove? && !(0 <= e.index < |d.files|) ==> r.0 == d.(preview := r.0.preview)
    ensures e.Remove? && e.index == 0 ==> r.0.preview.None?
    ensures e.Remove? && e.index != 0 ==> r.0.preview == d.preview
    ensures e.Progressed? && e.total == 0 ==> r.0 == d
    ensures e.Progressed? && e.total > 0 ==> r.0 == d.(progress := RoundedPercent(e.loaded, e.total))
    ensures e.Responded? && e.status == 200 ==>
      r.0 == d.(progress := 100, summaries := [e.data], showForm := false, submitting := false)
    ensures (e.Responded? && e.status != 200) || e.Failed? ==> r.0 == d.(progress := 0, submitting := false)
    ensures e.Reset? ==> r.0 == Initial<D>().(submitting := d.submitting)
  {
    match e
    case AddBatch(batch) =>
      if |batch| == 0 then (d, None)
      else (d.(files := AddFiles(d.files, batch), preview := PreviewOf(batch[0])), None)
    case SetUrl(text) => (d.(url := text), None)
    case Remove(k) =>
      RemoveAtSpec(d.files, k);
      (d.(files := RemoveAt(d.files, k), preview := if k == 0 then None else d.preview), None)
    case Submit =>
      if NothingToSend(d) then (d, None)
      else (d.(submitting := true, summaries := [], progress := 0), Some(Request(SubmitEndpoint, SubmitFields(d))))
    case Progressed(loaded, total) =>
      if total == 0 then (d, None) else (d.(progress := RoundedPercent(loaded, total)), None)
    case Responded(status, data) =>
      if status == 200 then (d.(progress := 100, summaries := [data], showForm := false, submitting := false), None)
      else (d.(progress := 0, submitting := false), None)
    case Failed => (d.(progress := 0, submitting := false), None)
    case Reset => (d.(showForm := true, files := [], preview := None, summaries := [], progress := 0, url := ""), None)
  }

  /** The button and the handler agree: with no submission pending, a
      request goes out exactly when the button is enabled. */
  lemma ButtonMatchesGuard<D>(d: Dialog<D>)
    requires !d.submitting
    ensures Step(d, Submit).1.Some? <==> !SubmitDisabled(d)
  {
  }

  /** Files win: with files selected the URL is never sent; without them a
      non-blank URL is sent as it was typed, untrimmed. */
  lemma FilesTakePrecedence<D>(d: Dialog<D>)
    requires !NothingToSend(d)
    ensures var fields := Step(d, Submit).1.value.fields;
      && (|d.files| > 0 ==> forall i :: 0 <= i < |fields| ==> fields[i].FileField? && fields[i].key == "files")
      && (|d.files| == 0 ==> fields == [TextField("youtube_url", d.url)])
  {
    if |d.files| == 0 {
      assert d.url != "";
    }
  }

  /** One byte of three is 33.3% and rounds down, 1.5% rounds up, and a
      finished upload shows 100. */
  lemma RoundingExamples()
    ensures RoundedPercent(1, 3) == 33
    ensures RoundedPercent(3, 200) == 2
    ensures RoundedPercent(7, 7) == 100
  {
  }

  /** Reset brings back the starting dialog once nothing is pending. */
  lemma ResetRestoresInitial<D>(d: Dialog<D>)
    requires !d.submitting
    ensures Step(d, Reset).0 == Initial<D>()
  {
  }

  /** The starting dialog shows the form with Submit disabled. */
  lemma InitialDisabled<D>()
    ensures Initial<D>().showForm && SubmitDisabled(Initial<D>())
  {
  }
}

=== FILE: uploads.dfy ===
/** What the three upload components share: the selected files, the form
    fields of a multipart request, adding a batch of files and removing one
    by position. */
module Uploads {
  import opened Wrappers

  /** A browser `File`: its name and MIME type (`""` when the browser does
      not know it). The bytes never matter here. */
  datatype File = File(name: string, mimeType: string)

  /** One `formData.append(key, value)`. */
  datatype Field = TextField(key: string, text: string) | FileField(key: string, file: File)

  /** A POST of multipart form data. */
  datatype Request = Request(endpoint: string, fields: seq<Field>)

  /** Dropping or browsing appends the new files after the old ones. */
  function AddFiles(files: seq<File>, added: seq<File>): (r: seq<File>)
    ensures |r| == |files| + |added|
    ensures r[..|files|] == files && r[|files|..] == added
  {
    files + added
  }

  /** `xs.filter((_, i) => i !== k)`, walking the list with the position of
      its head. */
  function Without<T>(xs: seq<T>, k: int, at: int): (r: seq<T>)
    ensures |r| <= |xs|
    decreases |xs|
  {
    if |xs| == 0 then []
    else (if at == k then [] else [xs[0]]) + Without(xs[1..], k, at + 1)
  }

  function RemoveAt<T>(xs: seq<T>, k: int): seq<T> {
    Without(xs, k, 0)
  }

  /** The walk drops exactly the element whose position is `k`. */
  lemma WithoutDropsOne<T>(xs: seq<T>, k: int, at: int)
    ensures at <= k < at + |xs| ==> Without(xs, k, at) == xs[..k - at] + xs[k - at + 1..]
    ensures !(at <= k < at + |xs|) ==> Without(xs, k, at) == xs
  {
    if at <= k < at + |xs| {
      WithoutInside(xs, k, at);
    } else {
      WithoutOutside(xs, k, at);
    }
  }

  lemma {:induction false} WithoutInside<T>(xs: seq<T>, k: int, at: int)
    requires at <= k < at + |xs|
    ensures Without(xs, k, at) == xs[..k - at] + xs[k - at + 1..]
    decreases |xs|
  {
    if at == k {
      WithoutOutside(xs[1..], k, at + 1);
      assert xs[..0] + xs[1..] == xs[1..];
    } else {
      WithoutInside(xs[1..], k, at + 1);
      assert [xs[0]] + (xs[1..][..k - at - 1] + xs[1..][k - at..]) == xs[..k - at] + xs[k - at + 1..];
    }
  }

  lemma {:induction false} WithoutOutside<T>(xs: seq<T>, k: int, at: int)
    requires !(at <= k < at + |xs|)
    ensures Without(xs, k, at) == xs
    decreases |xs|
  {
    if |xs| > 0 {
      WithoutOutside(xs[1..], k, at + 1);
      assert [xs[0]] + xs[1..] == xs;
    }
  }

  /** `removeFile(k)`: index `k` leaves, the rest keep their order; an index
      outside the list changes nothing. */
  lemma RemoveAtSpec<T>(xs: seq<T>, k: int)
    ensures 0 <= k < |xs| ==> RemoveAt(xs, k) == xs[..k] + xs[k + 1..]
    ensures 0 <= k < |xs| ==> |RemoveAt(xs, k)| == |xs| - 1
    ensures !(0 <= k < |xs|) ==> RemoveAt(xs, k) == xs
  {
    WithoutDropsOne(xs, k, 0);
  }

  /** Removing the same position from a list and from its image keeps them
      paired, as the file list and the preview list are. */
  lemma RemoveKeepsPairing<T, U>(xs: seq<T>, ys: seq<U>, f: T -> U, k: int)
    requires |ys| == |xs| && forall i :: 0 <= i < |xs| ==> ys[i] == f(xs[i])
    ensures |RemoveAt(ys, k)| == |RemoveAt(xs, k)|
    ensures forall i :: 0 <= i < |RemoveAt(xs, k)| ==> RemoveAt(ys, k)[i] == f(RemoveAt(xs, k)[i])
  {
    RemoveAtSpec(xs, k);
    RemoveAtSpec(ys, k);
  }

  /** The summary callback of both forms fires on status 200 only; every
      other outcome is logged and dropped. */
  function Delivered<D>(status: int, data: D): (r: Option<D>)
    ensures r.Some? <==> status == 200
    ensures r.Some? ==> r.value == data
  {
    if status == 200 then Some(data) else None
  }
}

=== FILE: video_page.dfy ===
/** The book-to-video page: upload a PDF, pick one of the extracted chapters,
    and play the generated video. The page keeps its own copy of the frame
    total, computed from the raw response, while the player renders the
    expanded document. Network calls become events carrying their outcome;
    the handlers are pure `(page, event) -> (page, request)` transitions. */
module VideoPage {
  import opened Wrappers
  import opened VideoTypes
  import opened Frames
  import Expand
  import Layout
  import Render
  import Duration

  /** A chapter as the extraction endpoint returns it. */
  datatype Chapter = Chapter(page: int, header: string, content: string)

  /** The page's own `calculateTotalVideoLengthInFrames`: the intro, then a
      `forEach` over the scenes adding to an accumulator, then the outro. */
  function AddScenes(acc: int, scenes: seq<Scene>, fps: int): int
    decreases |scenes|
  {
    if |scenes| == 0 then acc
    else
      var d := scenes[0].durationInSeconds;
      AddScenes(if d.Some? && d.value != 0 then acc + d.value * fps else acc, scenes[1..], fps)
  }

  /** The accumulating loop adds `fps` times the truthy durations. */
  lemma {:induction false} AddScenesSum(acc: int, scenes: seq<Scene>, fps: int)
    ensures AddScenes(acc, scenes, fps) == acc + fps * SumSeconds(scenes)
    decreases |scenes|
  {
    if |scenes| > 0 {
      var d := scenes[0].durationInSeconds;
      var next := if d.Some? && d.value != 0 then acc + d.value * fps else acc;
      AddScenesSum(next, scenes[1..], fps);
      assert next == acc + Seconds(d) * fps;
      ScaleSum(fps, SumSeconds(scenes[1..]), Seconds(d));
    }
  }

  function LocalTotalVideoLengthInFrames(doc: VideoData, fps: int): (total: int)
    ensures total == fps * (Seconds(doc.intro.durationInSeconds) + SumSeconds(doc.scenes) + Seconds(doc.outro.durationInSeconds))
  {
    var intro := doc.intro.durationInSeconds;
    var outro := doc.outro.durationInSeconds;
    var afterIntro := if intro.Some? && intro.value != 0 then intro.value * fps else 0;
    var afterScenes := AddScenes(afterIntro, doc.scenes, fps);
    AddScenesSum(afterIntro, doc.scenes, fps);
    assert afterIntro == fps * Seconds(intro);
    assert (if outro.Some? && outro.value != 0 then outro.value * fps else 0) == fps * Seconds(outro);
    afterScenes + (if outro.Some? && outro.value != 0 then outro.value * fps else 0)
  }

  /** The page state. */
  datatype Page = Page(
    chapters: seq<Chapter>,
    selected: Option<Chapter>,
    generated: Option<VideoData>,
    totalFrames: int,
    isUploading: bool,
    isGenerating: bool)

  const Initial := Page([], None, None, 0, false, false)

  /** User actions and request outcomes. A finished request carries the
      parsed body of an OK response, or `None` for a non-OK response or a
      failed fetch. */
  datatype Event =
    | FileChosen(hasFile: bool)
    | UploadFinished(extracted: Option<seq<Chapter>>)
    | ChapterClicked(chapter: Chapter)
    | GenerateFinished(response: Option<VideoData>)
    | SelectAnother

  /** The requests the page sends. */
  datatype Request = ExtractChapters | GenerateVideoData(content: string)

  datatype Transition = Transition(page: Page, request: Option<Request>)

  /** The upload card shows while there are no chapters. */
  predicate ShowsUpload(p: Page) { |p.chapters| == 0 }

  /** The chapter list shows while there are chapters and no video. */
  predicate ShowsChapterList(p: Page) { |p.chapters| > 0 && p.generated.None? }

  /** The player (and its tabs) shows once there is a video. */
  predicate ShowsPlayer(p: Page) { p.generated.Some? }

  /** The events the page can receive: a file only from the enabled upload
      input, a chapter click only from the visible list, "Select Another"
      only under the player, an upload result only while uploading, and a
      generation result only once a chapter could have been clicked. */
  predicate Enabled(p: Page, e: Event) {
    match e
    case FileChosen(_) => ShowsUpload(p) && !p.isUploading
    case UploadFinished(_) => p.isUploading
    case ChapterClicked(c) => ShowsChapterList(p) && c in p.chapters
    case GenerateFinished(_) => |p.chapters| > 0
    case SelectAnother => ShowsPlayer(p)
  }

  function Step(p: Page, e: Event, fps: int): (t: Transition)
    ensures e.FileChosen? ==> (t.request.Some? <==> e.hasFile) && (t.request.Some? ==> t.request.value == ExtractChapters)
    ensures e.ChapterClicked? ==> t.request == Some(GenerateVideoData(e.chapter.content))
    ensures !(e.FileChosen? || e.ChapterClicked?) ==> t.request.None?
    ensures e.FileChosen? && e.hasFile ==> t.page == p.(isUploading := true)
    ensures e.FileChosen? && !e.hasFile ==> t.page == p
    ensures e.UploadFinished? ==> t.page.generated == p.generated && !t.page.isUploading
    ensures e.UploadFinished? && e.extracted.Some? ==> t.page == p.(chapters := e.extracted.value, isUploading := false)
    ensures e.ChapterClicked? ==> t.page == p.(selected := Some(e.chapter), isGenerating := true)
    ensures e.GenerateFinished? ==> t.page.chapters == p.chapters && !t.page.isGenerating
    ensures e.GenerateFinished? && e.response.Some? ==>
      && t.page.generated == e.response
      && t.page.totalFrames == fps * (Seconds(e.response.value.intro.durationInSeconds)
                                      + SumSeconds(e.response.value.scenes)
                                      + Seconds(e.response.value.outro.durationInSeconds))
    ensures e.GenerateFinished? && e.response.Some? ==>
      t.page == p.(generated := e.response, totalFrames := t.page.totalFrames, isGenerating := false)
    ensures e.SelectAnother? ==> t.page == p.(generated := None, selected := None)
  {
    match e
    case FileChosen(hasFile) =>
      if !hasFile then Transition(p, None)
      else Transition(p.(isUploading := true), Some(ExtractChapters))
    case UploadFinished(extracted) =>
      var q := if extracted.Some? then p.(chapters := extracted.value) else p;
      Transition(q.(isUploading := false), None)
    case ChapterClicked(c) =>
      Transition(p.(isGenerating := true, selected := Some(c)), Some(GenerateVideoData(c.content)))
    case GenerateFinished(response) =>
      var q := if response.Some?
               then p.(totalFrames := LocalTotalVideoLengthInFrames(response.value, fps), generated := response)
               else p;
      Transition(q.(isGenerating := false), None)
    case SelectAnother =>
      Transition(p.(generated := None, selected := None), None)
  }

  /** What every reachable page satisfies: an upload runs only while there
      are no chapters, a video exists or is being generated only once there
      are chapters, and the stored frame total is the one computed from the
      video shown. */
  predicate Inv(p: Page, fps: int) {
    && (p.isUploading ==> |p.chapters| == 0)
    && (p.generated.Some? ==> |p.chapters| > 0)
    && (p.isGenerating ==> |p.chapters| > 0)
    && (p.generated.Some? ==> p.totalFrames == LocalTotalVideoLengthInFrames(p.generated.value, fps))
  }

  lemma InitialInv(fps: int)
    ensures Inv(Initial, fps) && ShowsUpload(Initial) && !ShowsPlayer(Initial)
  {
  }

  lemma StepPreservesInv(p: Page, e: Event, fps: int)
    requires Inv(p, fps) && Enabled(p, e)
    ensures Inv(Step(p, e, fps).page, fps)
  {
  }

  /** Exactly one of the upload card, the chapter list and the player is
      shown on a reachable page. */
  lemma ExactlyOneMainView(p: Page, fps: int)
    requires Inv(p, fps)
    ensures ShowsUpload(p) <==> !ShowsChapterList(p) && !ShowsPlayer(p)
    ensures ShowsChapterList(p) ==> !ShowsPlayer(p)
  {
  }

  /** A non-OK response only clears the busy flag: chapters, selection,
      video and frame total are unchanged. */
  lemma FailedResponsesChangeNothing(p: Page, fps: int)
    ensures Step(p, UploadFinished(None), fps).page == p.(isUploading := false)
    ensures Step(p, GenerateFinished(None), fps).page == p.(isGenerating := false)
  {
  }

  /** "Select Another Chapter" returns to the chapter list and keeps it. */
  lemma SelectAnotherReturnsToList(p: Page, fps: int)
    requires Inv(p, fps) && ShowsPlayer(p)
    ensures var q := Step(p, SelectAnother, fps).page;
      q.chapters == p.chapters && q.selected.None? && ShowsChapterList(q) && !ShowsPlayer(q)
  {
  }

  /** The total shown on the metadata tab, in seconds. */
  function DisplayedSeconds(p: Page, fps: int): (s: real)
    requires fps > 0
    ensures s * fps as real == p.totalFrames as real
  {
    p.totalFrames as real / fps as real
  }

  /** On a reachable page with a video, the displayed total is the raw sum of
      the truthy durations of the response, whatever the frame rate. */
  lemma DisplayedSecondsIsRawSum(p: Page, fps: int)
    requires fps > 0 && Inv(p, fps) && ShowsPlayer(p)
    ensures var g := p.generated.value;
      DisplayedSeconds(p, fps)
      == (Seconds(g.intro.durationInSeconds) + SumSeconds(g.scenes) + Seconds(g.outro.durationInSeconds)) as real
  {
    var g := p.generated.value;
    var raw := Seconds(g.intro.durationInSeconds) + SumSeconds(g.scenes) + Seconds(g.outro.durationInSeconds);
    assert p.totalFrames == fps * raw;
    assert (fps * raw) as real == raw as real * fps as real;
  }

  /** The player's length on a page, as written: the stored total of the raw
      response. */
  function PlayerFrames(p: Page): (n: int)
    requires ShowsPlayer(p)
  {
    p.totalFrames
  }

  /** The last frame of the video the player renders: the end of the
      outro's `Sequence` in the composition of the expanded response, when it
      expands. It is `fps` times the seconds of the expanded document. */
  function RenderedFrames(doc: VideoData, fps: int): (n: Option<int>)
    ensures n.Some? <==> Expand.ExpandVideoData(doc).Success?
    ensures n.Some? ==>
      var e := Expand.ExpandVideoData(doc).value;
      && Resolved(e)
      && n.value == fps * (e.intro.durationInSeconds.value + SumSeconds(e.scenes) + e.outro.durationInSeconds.value)
  {
    match Expand.ExpandVideoData(doc)
    case Failure(_) => None
    case Success(e) =>
      Expand.ExpandResolves(doc);
      Layout.LayoutEndIsTotal(e, fps);
      var v := Render.RenderVideo(e, fps);
      Some(v.outro.from + v.outro.durationInFrames)
  }

  /** A response with five-second intro and outro, no scenes and empty
      voiceovers. */
  const ShortResponse := VideoData("", "", "", "",
    Segment(Some(5), Content(None, None), "", None, TextStyle(NoStyle, NoStyle)),
    [],
    Segment(Some(5), Content(None, None), "", None, TextStyle(NoStyle, NoStyle)))

  /** The player's length and the rendered video disagree: after the response
      above arrives at 30 frames per second the player runs 300 frames while
      the rendered video ends after 60 (one estimated second each for the
      intro and outro). */
  lemma PlayerLengthMismatch()
    ensures var p := Step(Initial.(chapters := [Chapter(3, "", "")]), GenerateFinished(Some(ShortResponse)), 30).page;
      && ShowsPlayer(p)
      && PlayerFrames(p) == 300
      && RenderedFrames(p.generated.value, 30) == Some(60)
  {
    Duration.EmptyVoiceover();
  }

  /** The player length taken from the document that is rendered. */
  function CorrectedPlayerFrames(doc: VideoData, fps: int): (n: Option<int>)
    ensures n.Some? <==> Expand.ExpandVideoData(doc).Success?
    ensures n.Some? ==> n == RenderedFrames(doc, fps)
  {
    match Expand.ExpandVideoData(doc)
    case Failure(_) => None
    case Success(e) =>
      Expand.ExpandResolves(doc);
      Layout.LayoutEndIsTotal(e, fps);
      Some(LocalTotalVideoLengthInFrames(e, fps))
  }
}

=== FILE: video_types.dfy ===
/** The timeline document that the video renderer consumes: a title and three
    shared presentation strings, an intro, an ordered list of scenes and an
    outro. The same shape describes the raw payload and the expanded document;
    a field the payload may omit is an `Option`. */
module VideoTypes {
  import opened Wrappers

  /** The five animation tags a document may name. */
  datatype AnimationKind = FadeIn | SlideIn | ZoomIn | FadeOut | ZoomOut

  /** Slide direction; only `slide-in` reads it. */
  datatype Direction = Left | Right

  datatype Animation = Animation(kind: AnimationKind, direction: Option<Direction>, durationInSeconds: int)

  datatype TextAlign = AlignLeft | AlignCenter | AlignRight

  /** A bag of optional presentation strings, passed through untouched.
      `height` is written by the expander although the style interface does
      not declare it. */
  datatype Style = Style(
    fontSize: Option<string>,
    fontWeight: Option<string>,
    textAlign: Option<TextAlign>,
    marginBottom: Option<string>,
    width: Option<string>,
    maxWidth: Option<string>,
    borderRadius: Option<string>,
    margin: Option<string>,
    color: Option<string>,
    height: Option<string>)

  /** The style with no attribute set. */
  const NoStyle := Style(None, None, None, None, None, None, None, None, None, None)

  /** Text of an intro or outro. */
  datatype Content = Content(heading: Option<string>, subheading: Option<string>)

  datatype SceneStyle = SceneStyle(title: Option<Style>, description: Option<Style>, image: Option<Style>)

  /** One scene. `durationInSeconds` is `None` when the payload omits it. */
  datatype Scene = Scene(
    title: Option<string>,
    description: Option<string>,
    image: Option<string>,
    durationInSeconds: Option<int>,
    voiceover: Option<string>,
    animation: Option<Animation>,
    style: SceneStyle)

  datatype TextStyle = TextStyle(heading: Style, subheading: Style)

  /** The shape shared by the intro and the outro. */
  datatype Segment = Segment(
    durationInSeconds: Option<int>,
    content: Content,
    voiceover: string,
    animation: Option<Animation>,
    style: TextStyle)

  datatype VideoData = VideoData(
    title: string,
    backgroundColor: string,
    textColor: string,
    fontFamily: string,
    intro: Segment,
    scenes: seq<Scene>,
    outro: Segment)

  /** Every segment carries a duration, as the renderer's input type demands. */
  predicate Resolved(doc: VideoData) {
    && doc.intro.durationInSeconds.Some?
    && doc.outro.durationInSeconds.Some?
    && forall i :: 0 <= i < |doc.scenes| ==> doc.scenes[i].durationInSeconds.Some?
  }

  /** JavaScript truthiness of an optional string: present and non-empty. */
  predicate Truthy(s: Option<string>) {
    s.Some? && s.value != ""
  }

  /** The tag a document uses for an animation kind. */
  function KindTag(k: AnimationKind): string {
    match k
    case FadeIn => "fade-in"
    case SlideIn => "slide-in"
    case ZoomIn => "zoom-in"
    case FadeOut => "fade-out"
    case ZoomOut => "zoom-out"
  }

  /** Reads an animation tag; only the five declared tags are accepted. */
  function ParseKind(tag: string): (r: Option<AnimationKind>)
    ensures r.Some? ==> KindTag(r.value) == tag
    ensures r.None? ==> forall k: AnimationKind :: KindTag(k) != tag
  {
    if tag == "fade-in" then Some(FadeIn)
    else if tag == "slide-in" then Some(SlideIn)
    else if tag == "zoom-in" then Some(ZoomIn)
    else if tag == "fade-out" then Some(FadeOut)
    else if tag == "zoom-out" then Some(ZoomOut)
    else None
  }

  /** Every kind's tag reads back as that kind: the tags are distinct. */
  lemma KindTagRoundTrip(k: AnimationKind)
    ensures ParseKind(KindTag(k)) == Some(k)
  {
  }

  function DirectionTag(d: Direction): string {
    match d
    case Left => "left"
    case Right => "right"
  }

  function ParseDirection(tag: string): (r: Option<Direction>)
    ensures r.Some? ==> DirectionTag(r.value) == tag
    ensures r.None? ==> forall d: Direction :: DirectionTag(d) != tag
  {
    if tag == "left" then Some(Left) else if tag == "right" then Some(Right) else None
  }

  function AlignTag(a: TextAlign): string {
    match a
    case AlignLeft => "left"
    case AlignCenter => "center"
    case AlignRight => "right"
  }

  function ParseAlign(tag: string): (r: Option<TextAlign>)
    ensures r.Some? ==> AlignTag(r.value) == tag
    ensures r.None? ==> forall a: TextAlign :: AlignTag(a) != tag
  {
    if tag == "left" then Some(AlignLeft)
    else if tag == "center" then Some(AlignCenter)
    else if tag == "right" then Some(AlignRight)
    else None
  }
}

=== FILE: wrappers.dfy ===
/** Optional values and success-or-error results, used wherever the modelled
    code has a missing field (`undefined`, `None`) or raises an exception. */
module Wrappers {

  /** A value that may be absent. */
  datatype Option<+T> = None | Some(value: T) {

    /** The value, or `default` when absent. */
    function GetOr(default: T): T {
      match this
      case Some(v) => v
      case None => default
    }
  }

  /** Either a value or the error that the modelled code raises instead. */
  datatype Result<+R, +E> = Success(value: R) | Failure(error: E)
}

=== FILE: youtube.dfy ===
/** The YouTube video id and embed address derived from a watch URL: the
    text after the first `v=`, cut at the next `v=` and then at the first
    `&`. A URL without `v=` has no second split piece, so indexing it fails. */
module YouTube {
  import opened Wrappers
  import opened Text

  /** `s.split(pat)[0]` for a non-empty `pat`: the text before the first
      occurrence of `pat`, or all of `s` when there is none. */
  function Before(s: string, pat: string): (r: string)
    requires |pat| > 0
    ensures |r| <= |s| && r == s[..|r|]
    ensures forall j :: 0 <= j <= |r| - |pat| ==> !OccursAt(r, pat, j)
    ensures r == s || OccursAt(s, pat, |r|)
    ensures r == s <==> forall j :: 0 <= j <= |s| ==> !OccursAt(s, pat, j)
  {
    match IndexOf(s, pat)
    case None => s
    case Some(i) =>
      assert OccursAt(s, pat, i);
      forall j | 0 <= j <= i - |pat|
        ensures !OccursAt(s[..i], pat, j)
      {
        assert j + |pat| <= i <= |s|;
        assert !OccursAt(s, pat, j);
        assert s[..i][j..j + |pat|] == s[j..j + |pat|];
      }
      s[..i]
  }

  /** No `v=` anywhere in `s`. */
  predicate NoMarker(s: string) {
    forall j :: 0 <= j <= |s| ==> !OccursAt(s, "v=", j)
  }

  /** `id` is cut from `url` after its FIRST `v=`: it starts right after
      that marker and is followed by the end of the URL, an `&` or another
      `v=`. */
  ghost predicate CutAfterFirstMarker(url: string, id: string) {
    exists i ::
      && OccursAt(url, "v=", i)
      && (forall j :: 0 <= j < i ==> !OccursAt(url, "v=", j))
      && StartsWith(url[i + 2..], id)
      && (i + 2 + |id| == |url| || url[i + 2 + |id|] == '&' || OccursAt(url, "v=", i + 2 + |id|))
  }

  /** `url.split("v=")[1].split("&")[0]`, or `None` where Python raises
      `IndexError`. The id is the text after the first `v=`, running up to
      the end of the URL, an `&` or the next `v=`, whichever comes first: it
      holds neither, and what follows it is one of the three. */
  function VideoId(url: string): (r: Option<string>)
    ensures r.None? <==> NoMarker(url)
    ensures r.Some? ==> '&' !in r.value && NoMarker(r.value) && CutAfterFirstMarker(url, r.value)
  {
    match IndexOf(url, "v=")
    case None => None
    case Some(i) =>
      IdFacts(url, i);
      Some(CutAt(url, i))
  }

  /** The text after the marker at `i`, split at `v=` and then at `&`. */
  function CutAt(url: string, i: nat): string
    requires i + 2 <= |url|
  {
    Before(Before(url[i + 2..], "v="), "&")
  }

  /** The id cut after the first marker has no `&` and no `v=`, and is cut
      where `CutAfterFirstMarker` says. */
  lemma IdFacts(url: string, i: nat)
    requires IndexOf(url, "v=") == Some(i)
    ensures var id := CutAt(url, i);
      '&' !in id && NoMarker(id) && CutAfterFirstMarker(url, id)
  {
    var id := CutAt(url, i);
    assert '&' !in id by {
      NoAmpersand(Before(Before(url[i + 2..], "v="), "&"));
    }
    assert NoMarker(id) by {
      NoMarkerInPrefix(Before(url[i + 2..], "v="), id);
    }
    CutIsAfterFirstMarker(url, i);
  }

  /** The first marker is the witness that the cut is taken after it. */
  lemma CutIsAfterFirstMarker(url: string, i: nat)
    requires IndexOf(url, "v=") == Some(i)
    ensures CutAfterFirstMarker(url, CutAt(url, i))
  {
    IdFollowedBy(url, i);
    assert OccursAt(url, "v=", i) && forall j :: 0 <= j < i ==> !OccursAt(url, "v=", j);
  }

  /** What is cut from a text without `v=` has none either. */
  lemma NoMarkerInPrefix(piece: string, id: string)
    requires id == Before(piece, "&")
    requires forall j :: 0 <= j <= |piece| - 2 ==> !OccursAt(piece, "v=", j)
    ensures NoMarker(id)
  {
    forall j | 0 <= j <= |id|
      ensures !OccursAt(id, "v=", j)
    {
      if j + 2 <= |id| {
        assert |id| <= |piece| && id == piece[..|id|];
        assert !OccursAt(piece, "v=", j);
        assert id[j..j + 2] == piece[j..j + 2];
      }
    }
  }

  /** Read in the whole URL, the id cut after the marker at `i` starts right
      after it and is followed by the end of the URL, an `&` or another
      `v=`. */
  lemma IdFollowedBy(url: string, i: nat)
    requires i + 2 <= |url|
    ensures var id := CutAt(url, i);
      && StartsWith(url[i + 2..], id)
      && (i + 2 + |id| == |url| || url[i + 2 + |id|] == '&' || OccursAt(url, "v=", i + 2 + |id|))
  {
    var rest := url[i + 2..];
    var piece := Before(rest, "v=");
    var id := Before(piece, "&");
    assert id == piece[..|id|];
    assert piece == rest[..|piece|];
    var k := i + 2 + |id|;
    if id != piece {
      assert OccursAt(piece, "&", |id|);
      assert piece[|id|..|id| + 1] == "&";
      assert url[k] == rest[|id|] == piece[|id|];
    } else if piece != rest {
      assert OccursAt(rest, "v=", |id|);
      assert url[k..k + 2] == rest[|id|..|id| + 2];
    }
  }

  /** A text in which `"&"` occurs nowhere has no `&`. */
  lemma NoAmpersand(id: string)
    requires forall j :: 0 <= j <= |id| - 1 ==> !OccursAt(id, "&", j)
    ensures '&' !in id
  {
    forall j | 0 <= j < |id|
      ensures id[j] != '&'
    {
      assert !OccursAt(id, "&", j);
      assert id[j..j + 1] == [id[j]];
    }
  }

  const EmbedPrefix := "https://www.youtube.com/embed/"

  /** The `urlEmbed` of a video summary. */
  function EmbedUrl(url: string): (r: Option<string>)
    ensures r.Some? <==> VideoId(url).Some?
    ensures r.Some? ==> StartsWith(r.value, EmbedPrefix) && r.value[|EmbedPrefix|..] == VideoId(url).value
  {
    match VideoId(url)
    case None => None
    case Some(id) => Some(EmbedPrefix + id)
  }

  const WatchPrefix := "https://www.youtube.com/watch?"

  /** Without a `v` there is no `v=`. */
  lemma NoLetterV(s: string)
    requires 'v' !in s
    ensures NoMarker(s)
  {
    forall j | 0 <= j <= |s|
      ensures !OccursAt(s, "v=", j)
    {
      if j + 2 <= |s| {
        assert s[j] in s;
        assert s[j..j + 2][0] == s[j];
      }
    }
  }

  /** The first `v=` of `p + "v=" + x` is the one after `p` when `p` has no `v`. */
  lemma FirstMarker(p: string, x: string)
    requires 'v' !in p
    ensures IndexOf(p + "v=" + x, "v=") == Some(|p|)
  {
    var url := p + "v=" + x;
    forall j | 0 <= j < |p|
      ensures !OccursAt(url, "v=", j)
    {
      assert url[j] == p[j];
      assert p[j] in p;
      if j + 2 <= |url| {
        assert url[j..j + 2][0] == url[j];
      }
    }
    assert url[|p|..|p| + 2] == "v=";
    assert OccursAt(url, "v=", |p|);
  }

  /** Cutting `id + tail` at its first `v=` keeps all of `id` when `id` has no
      `v=` and `tail` is empty or starts with `&`. */
  lemma PieceKeepsId(id: string, tail: string)
    requires NoMarker(id)
    requires tail == "" || tail[0] == '&'
    ensures |Before(id + tail, "v=")| >= |id|
  {
    var rest := id + tail;
    forall j | 0 <= j < |id|
      ensures !OccursAt(rest, "v=", j)
    {
      if j + 2 <= |id| {
        assert !OccursAt(id, "v=", j);
        assert rest[j..j + 2] == id[j..j + 2];
      } else if j + 2 <= |rest| {
        assert rest[j + 1] == tail[0];
        assert rest[j..j + 2][1] == rest[j + 1];
      }
    }
  }

  /** Cutting at the first `&` gives `id` when `id` has no `&` and is followed
      by nothing or by `&`. */
  lemma CutAtAmpersand(piece: string, id: string)
    requires |id| <= |piece| && piece[..|id|] == id && '&' !in id
    requires |piece| == |id| || piece[|id|] == '&'
    ensures Before(piece, "&") == id
  {
    forall j | 0 <= j < |id|
      ensures !OccursAt(piece, "&", j)
    {
      assert piece[j..j + 1] == [id[j]];
    }
    if |piece| > |id| {
      assert piece[|id|..|id| + 1] == [piece[|id|]];
      assert OccursAt(piece, "&", |id|);
    } else {
      assert piece == id;
    }
  }

  /** A watch URL built from an id and an optional `&...` query tail gives
      back that id, provided the id has no `&` and no `v=` of its own. */
  lemma WatchUrlRoundTrip(p: string, id: string, tail: string)
    requires 'v' !in p
    requires '&' !in id
    requires NoMarker(id)
    requires tail == "" || tail[0] == '&'
    ensures VideoId(p + "v=" + id + tail) == Some(id)
    ensures EmbedUrl(p + "v=" + id + tail) == Some(EmbedPrefix + id)
  {
    var url := p + "v=" + id + tail;
    WatchUrlMarker(p, id + tail);
    assert url == p + "v=" + (id + tail);
    IdOfTail(id, tail);
    IdAfterFirstMarker(url, |p|);
  }

  /** Helper: the first `v=` of the URL is the one after the prefix. */
  lemma WatchUrlMarker(p: string, rest: string)
    requires 'v' !in p
    ensures IndexOf(p + "v=" + rest, "v=") == Some(|p|)
    ensures (p + "v=" + rest)[|p| + 2..] == rest
  {
    FirstMarker(p, rest);
  }

  /** Helper: the id is what the two cuts leave of `id + tail`. */
  lemma IdOfTail(id: string, tail: string)
    requires '&' !in id
    requires NoMarker(id)
    requires tail == "" || tail[0] == '&'
    ensures Before(Before(id + tail, "v="), "&") == id
  {
    PieceKeepsId(id, tail);
    var piece := Before(id + tail, "v=");
    assert piece[..|id|] == (id + tail)[..|id|] == id;
    if |piece| > |id| {
      assert piece[|id|] == tail[0];
    }
    CutAtAmpersand(piece, id);
  }

  /** Helper: with its first `v=` at `i`, the id is cut from the text after it. */
  lemma IdAfterFirstMarker(url: string, i: nat)
    requires IndexOf(url, "v=") == Some(i)
    ensures VideoId(url) == Some(CutAt(url, i))
  {
  }

  /** A concrete link: `https://www.youtube.com/watch?v=abc&t=10`, and a short
      link, which has no `v=`. */
  lemma ExampleWatchLink()
    ensures VideoId(WatchPrefix + "v=" + "abc" + "&t=10") == Some("abc")
  {
    WatchPrefixHasNoV();
    NoLetterV("abc");
    WatchUrlRoundTrip(WatchPrefix, "abc", "&t=10");
  }

  lemma ExampleShortLink()
    ensures VideoId("https://youtu.be/abc").None?
  {
    WithoutVNoId("https://youtu.be/abc");
  }

  /** Helper: a URL without the letter `v` has no video id. */
  lemma WithoutVNoId(url: string)
    requires 'v' !in url
    ensures VideoId(url).None?
  {
    NoLetterV(url);
  }

  lemma WatchPrefixHasNoV()
    ensures 'v' !in WatchPrefix
  {
  }
}
